=== FILE: README.md ===
# Loose octree and edge-and-face deletion of a winged-edge mesh, in Dafny

This project models two parts of a mesh sculpting editor and proves properties of them.

1. **The face octree** (`src/octree.cpp`). It indexes a mesh's triangles by
   centroid and size. Each node is a cube. A face goes down to a child
   while its width is at most a tenth of the node's width. Otherwise it is
   stored in the node's own face list. The tree grows a new parent above
   the root when a face lies outside it. It prunes children that became
   empty after a deletion, and drops a root that has a single non-empty
   child. An id map from face ids to stored faces accompanies the tree.
   The model covers:
   - node insertion, including the octant split;
   - tree insertion, with the lazy root and root growth;
   - deletion, with empty-child notification and root shrinking;
   - realignment;
   - lookup, reset, and root initialisation;
   - the breadth-first face and node iterators;
   - the two sphere queries.
2. **`PADeleteEdgeFace`** (`src/partial-action/delete-edge-face.cpp`).
   This operation deletes an edge together with the face on its right,
   which merges that face into the face on its left. It is a sequence of
   recorded partial actions:
   - move every edge of the deleted face to the kept face;
   - relink the four wing edges around the kept face;
   - repoint the edge's two vertices;
   - detach its siblings;
   - fix the face records;
   - remove the edge, then remove the face from the mesh and from the octree.

   `undo` replays the recorded actions backwards and `redo` replays them
   forwards.

The model is pure throughout. The tree is an immutable `Node` value, the
mesh is three maps from ids to records, and every operation is a function
from the old state to the new one.

Module layout:

| file | module | models |
|---|---|---|
| `outcomes.dfy` | `Outcomes` | `Option`, `Result` |
| `geometry.dfy` | `Geometry` | points and closed cubes, over reals |
| `octree_node.dfy` | `OctreeNode` | `OctreeNode::Impl` data, `contains`, `makeChildren`, node invariants, face / id / node bags |
| `node_insert.dfy` | `NodeInsertion` | node `insertFace`, `insertIntoChild` |
| `node_delete.dfy` | `NodeDeletion` | node `deleteFace`, `childEmptyNotification`, tree `shrinkRoot` |
| `growth.dfy` | `Growth` | `makeParent` and the tree-level insertion loop |
| `octree.dfy` | `Octree` | `Octree::Impl`: id map, insert, delete, realign, lookup, reset, `initRoot` |
| `octree_iterators.dfy` | `OctreeIterators` | face iterator (with `skipEmptyNodes`) and node iterator |
| `sphere_query.dfy` | `SphereQuery` | the two sphere `intersects` |
| `winged_mesh.dfy` | `WingedMesh` | vertex, edge and face records, face-relative access |
| `partial_actions.dfy` | `PartialActions` | recorded partial actions, their redo / undo, the action unit |
| `delete_edge_face.dfy` | `DeleteEdgeFace` | the phases of `PADeleteEdgeFace::run` |
| `delete_edge_face_runs.dfy` | `DeleteEdgeFaceRuns` | what a whole run, its undo and its redo do |

Invariants used throughout:
- `OctreeNode.WellFormed` is the geometry of a node. Its children are the
  eight octants in the source's fixed order, each child is half as wide
  and one level deeper, and each face sits where the insertion rule puts it.
- `OctreeNode.Tidy` says that no inner node is empty.
- `Octree.Valid` says that node ids are distinct and below the allocation
  counter, and that the id map indexes exactly the stored faces.
- `Octree.Compact` adds that a root, when present, stores at least one face.

## Model

| member | source | states |
|---|---|---|
| OctreeNode.ContainsByCorners | src/octree.cpp:140-149 | a face is contained in a node exactly when its centroid lies between the cube's two corners, center minus and plus half the width, on every axis, and it is no wider than the node |
| OctreeNode.MakeChildren | src/octree.cpp:151-170 | a childless node gets exactly eight leaf children in the source's octant order: child i is centered at the parent's center offset by a quarter width towards octant i, is half as wide and one level deeper, and gets the next fresh id; the node's own fields and faces are kept |
| OctreeNode.OctantContains | src/octree.cpp:140-170 | a point inside a cube lies inside the child cube of the octant `makeChildren` builds for it, so the eight children cover the parent |
| OctreeNode.SomeChildContains | src/octree.cpp:172-184 | a face that must descend always fits the child of its centroid's octant, so the `assert (false)` after the child loop is unreachable |
| OctreeNode.HolderIffStored | src/octree.cpp:186-200 | a face has a holding node in a subtree exactly when the subtree stores it |
| NodeInsertion.FirstContaining | src/octree.cpp:178-181 | the child loop picks the first child that contains the face, and no earlier child contains it |
| NodeInsertion.DescentShrinks | src/octree.cpp:189-190 | each descent strictly lowers the number of halvings left before the face is wider than a tenth of the node, so insertion terminates for faces of positive width |
| NodeInsertion.NodeInsert | src/octree.cpp:186-200 | the face is added to the subtree's bag and nothing else changes; it stays at the node when wider than a tenth of it, and otherwise goes down with the node's own list untouched; node geometry, id freshness and tidiness are kept, and the returned holder holds the face |
| NodeInsertion.InsertIntoChild | src/octree.cpp:172-184 | a leaf first gets its eight children; then exactly the first containing child gains the face, and all other children are unchanged |
| Growth.MakeParent | src/octree.cpp:399-435 | the new root is twice as wide, one level shallower, and holds the old root at the octant facing away from the face; its other seven children are empty and fresh; the stored faces are unchanged |
| Growth.OldRootPlaced | src/octree.cpp:406-432 | the octant index computed from the three comparisons is the octant whose center is the old root's center, so the old root takes the place of that child |
| Growth.GrowthProgress | src/octree.cpp:374-377 | each growth step strictly lowers a measure of how far the root is from containing the face, so the insert-or-grow recursion terminates |
| Growth.GrowthMeasureZero | src/octree.cpp:369 | the growth measure is zero exactly when the root contains the face |
| Growth.GrowAndInsert | src/octree.cpp:369-377 | after growing and inserting, the root contains the face and stores the old faces plus it; a root that already contained the face keeps its frame, and the root never shrinks |
| Octree.InsertFace | src/octree.cpp:340-378 | refused with DuplicateFace exactly when the id is already indexed; otherwise the tree stays valid, the id map gains the face, the stored bag gains it once, and the root contains it |
| Octree.LazyRootContains | src/octree.cpp:362-367 | the root created for the first face is centered on its bounding box and as wide as it, so it contains that face |
| Octree.InsertKeepsIds | src/octree.cpp:340-378 | after an insertion the new face is indexed, and every previously indexed face still is |
| Octree.DeleteFace | src/octree.cpp:380-391 | refused with FaceNotFound exactly when the id is not indexed; otherwise the face leaves the id map and the stored bag, the tree stays valid, in a compact tree the root is gone exactly when no face is left, and no root with a single non-empty child remains |
| Octree.InsertThenDelete | src/octree.cpp:340-391 | inserting a new face and then deleting it restores the id map and the stored faces |
| Octree.DeleteAfterInsert | src/octree.cpp:380-391 | deleting a face from any valid tree that indexes the old map plus that face gives back the old map and the old stored faces |
| Octree.RealignFace | src/octree.cpp:346-359 | refused with FaceNotFound for an unindexed id; otherwise the face's old entry is replaced by the new geometry, and `sameNode` is true exactly when the node now holding the face held it before |
| Octree.RealignSameGeometry | src/octree.cpp:346-359 | realigning a face to its own geometry succeeds and leaves the id map and the stored faces unchanged |
| Octree.HasFace | src/octree.cpp:393 | an id is present exactly when the tree stores a face with that id |
| Octree.FaceOf | src/octree.cpp:395-397 | the lookup finds a face exactly when the id is present, and the face it finds is stored and carries that id |
| Octree.StoredEmptyIffNoIds | src/octree.cpp:385-387 | a valid tree stores no faces exactly when its id map is empty |
| Octree.Reset | src/octree.cpp:462-465 | afterwards no id is present and nothing is stored |
| Octree.InitRoot | src/octree.cpp:467-470 | a rootless, face-free tree gets a childless root at the given center and width, and stays valid |
| NodeDeletion.RemoveFirst | src/octree.cpp:206-207 | erasing the face from a node's list removes one occurrence and keeps the order of the others |
| NodeDeletion.ChildEmptyNotification | src/octree.cpp:214-225 | the children are dropped exactly when all are empty, and otherwise the node is unchanged; the stored faces are unchanged |
| NodeDeletion.NodeDelete | src/octree.cpp:206-225 | the face leaves the subtree's bag once, node ids only disappear, geometry and tidiness are kept (empty children are pruned upwards), and a face in the node's own list is erased from that list alone |
| NodeDeletion.DeleteLastFaceEmpties | src/octree.cpp:385-387 | deleting the only face of a tidy tree leaves an empty root, which the tree then drops |
| NodeDeletion.ScanOutcome | src/octree.cpp:476-484 | the child scan ends with no index, one index, or an early return exactly when zero, one, or at least two children are non-empty |
| NodeDeletion.ShrinkRoot | src/octree.cpp:472-492 | the result is a sub-node of the old root with the same faces, in which no root without faces has exactly one non-empty child; a root that cannot be shrunk is kept |
| NodeDeletion.ShrinkRootIdempotent | src/octree.cpp:472-492 | shrinking twice is the same as shrinking once |
| OctreeIterators.AdvanceCursor | src/octree.cpp:547-564 | a per-node face iterator yields its node's faces in list order, one step removing exactly the current face from what is left |
| OctreeIterators.SkipEmptyNodes | src/octree.cpp:606-617 | the result is a queue whose front node has a face to yield, or the empty queue; the faces still to be yielded are unchanged, and breadth-first depth order is kept |
| OctreeIterators.FaceIteratorStart | src/octree.cpp:598-604 | a new face iterator has every stored face still to yield |
| OctreeIterators.FaceElement | src/octree.cpp:621-624 | the current face is one still to be yielded |
| OctreeIterators.FaceNext | src/octree.cpp:626-630 | one step removes exactly the current face from what is still to be yielded; when the queue is in breadth-first order it stays so and the depth of the current node never decreases |
| OctreeIterators.CollectFaces | src/octree.cpp:598-630 | running the face iterator to the end yields every stored face exactly once |
| OctreeIterators.NodeIteratorStart | src/octree.cpp:665-669 | a new node iterator has every node of the tree still to yield |
| OctreeIterators.NodeNext | src/octree.cpp:671-684 | one step removes exactly the current node from what is still to be yielded; when the queue is in breadth-first order it stays so and the next node is no shallower |
| OctreeIterators.CollectNodes | src/octree.cpp:665-684 | running the node iterator to the end yields every node exactly once, in non-decreasing depth |
| SphereQuery.Query | src/octree.cpp:264-295 | a node query returns only contributions of faces in the subtree, and nothing when the node's cube misses the sphere |
| SphereQuery.QueryComplete | src/octree.cpp:264-295 | when the cube test never rejects a node below which some face contributes, the query returns exactly the contributions of all stored faces |
| SphereQuery.SphereFaceIds | src/octree.cpp:264-277 | the ids returned are ids of stored faces that meet the sphere, and all of them when the cube test is conservative; no root gives no ids |
| SphereQuery.SphereVertices | src/octree.cpp:279-295 | the vertices returned are vertices of stored faces that meet the sphere, and all of them when the cube test is conservative |
| PartialActions.Apply | src/partial-action/delete-edge-face.cpp:60 | redoing one partial action keeps the octree valid, and fails exactly when it removes a face the index no longer holds |
| PartialActions.Revert | src/partial-action/delete-edge-face.cpp:59 | undoing one partial action keeps the octree valid, and fails exactly when it re-inserts a face whose id is already indexed |
| PartialActions.RevertAfterApply | src/partial-action/delete-edge-face.cpp:29-56 | undoing a partial action right after doing it restores the mesh records and the octree's id map |
| PartialActions.Record | src/partial-action/delete-edge-face.cpp:29-56 | recording an action performs it and appends it to the unit's log, keeping the session replayable from its start |
| PartialActions.UndoRestores | src/partial-action/delete-edge-face.cpp:59 | undoing a log of actions in reverse, after doing it from a mesh, gives back that mesh's records and id map |
| DeleteEdgeFace.Prepare | src/partial-action/delete-edge-face.cpp:18-24 | the run proceeds exactly when the edge has both faces and the right face is recorded, indexed and has an edge; the right face is deleted, the left face kept, and the triangle read from the index |
| DeleteEdgeFace.EdgesAround | src/partial-action/delete-edge-face.cpp:26-28 | the walk around a face starts at the current edge and visits only edges that have the face on one side |
| DeleteEdgeFace.MergeAround | src/partial-action/delete-edge-face.cpp:26-30 | a walk that ends normally changes edge records only: the vertices, the faces, the index and the set of edges stay, and the session still starts from the same mesh |
| DeleteEdgeFace.MergeAroundCloses | src/partial-action/delete-edge-face.cpp:26-30 | when the kept and deleted faces differ, each step turns one side naming the deleted face into the kept face, so a bound of at least the number of such sides never makes the walk give up |
| DeleteEdgeFace.WalkBoundSuffices | src/partial-action/delete-edge-face.cpp:26-30 | when the faces differ, the run's bound of twice the number of edges never makes the walk give up, and every bound under which the walk ends gives the same result as that one |
| DeleteEdgeFace.FaceRefsMerged | src/partial-action/delete-edge-face.cpp:26-30 | on a walk that closes without repeats, every edge of the deleted face gets the kept face on that side, and no other edge changes |
| DeleteEdgeFace.Relink | src/partial-action/delete-edge-face.cpp:32-40 | relinking changes wing links of edges only: no face reference, endpoint, sibling, vertex, face record or index entry changes |
| DeleteEdgeFace.SetSuccessor | src/partial-action/delete-edge-face.cpp:32-38 | the edge's successor on its side of the kept face becomes the given edge, and no other edge and no other link changes |
| DeleteEdgeFace.RelinkEffect | src/partial-action/delete-edge-face.cpp:32-40 | when the four wings are distinct edges other than the edge itself, after relinking the two wings of the kept face and the two wings of the deleted face are joined across the deleted edge in both directions, and the edge itself is untouched |
| DeleteEdgeFace.RepointVertices | src/partial-action/delete-edge-face.cpp:42-43 | the first vertex now points at the left predecessor and the second at the left successor, unless the two vertices are the same, when the second write wins; nothing else changes |
| DeleteEdgeFace.DetachSiblings | src/partial-action/delete-edge-face.cpp:45-48 | the previous sibling loses its next-sibling link and, unless the edge is its own previous sibling, the next sibling loses its previous-sibling link; no face or wing link changes |
| DeleteEdgeFace.ClearFaceLinks | src/partial-action/delete-edge-face.cpp:50-53 | the kept face's edge becomes the left successor, unless the kept face is the deleted one, the deleted face loses its edge, and the edge loses its right face |
| DeleteEdgeFace.RemoveEdgeAndFace | src/partial-action/delete-edge-face.cpp:55-56 | the edge and the deleted face leave the mesh and the face leaves the octree's id map; both removals are logged |
| DeleteEdgeFace.Run | src/partial-action/delete-edge-face.cpp:17-57 | a run succeeds only when the preconditions of lines 20-24 hold, and when they fail it reports that failure and nothing else |
| DeleteEdgeFaceRuns.RunWalkCloses | src/partial-action/delete-edge-face.cpp:17-30 | a run on an edge with two different faces never fails because the walk was cut off |
| DeleteEdgeFaceRuns.RunRecorded | src/partial-action/delete-edge-face.cpp:17-57 | every action a run records matched the mesh it was applied to, and replaying the log from the start gives the run's result |
| DeleteEdgeFaceRuns.RunOutcome | src/partial-action/delete-edge-face.cpp:50-56 | a run removes exactly the edge from the edges and the right face from the faces and from the index; the vertices keep their keys, and the index stays valid |
| DeleteEdgeFaceRuns.RunRemovalsLogged | src/partial-action/delete-edge-face.cpp:53-56 | a run's log ends with the removal of the edge (already without its right face) and then the removal of the face with its triangle |
| DeleteEdgeFaceRuns.RunFaceRefs | src/partial-action/delete-edge-face.cpp:26-30 | after a run, every surviving edge that was around the deleted face has the kept face on that side |
| DeleteEdgeFaceRuns.RunRelinks | src/partial-action/delete-edge-face.cpp:32-40 | after a run the wings are joined around the kept face: left predecessor to right successor, and right predecessor to left successor, in both directions |
| DeleteEdgeFaceRuns.RunRepoints | src/partial-action/delete-edge-face.cpp:42-50 | after a run the two vertices point at the left predecessor and the left successor (the second write winning when the vertices are the same), and the kept face at the left successor when it differs from the deleted one |
| DeleteEdgeFaceRuns.RunSiblings | src/partial-action/delete-edge-face.cpp:45-48 | after a run the siblings other than the edge itself no longer point back at the deleted edge, unless the edge is its own previous sibling, in which case the next sibling keeps its link |
| DeleteEdgeFaceRuns.RunUndo | src/partial-action/delete-edge-face.cpp:59 | undo after run succeeds and restores the mesh records and the octree's id map as they were before the run |
| DeleteEdgeFaceRuns.RunRedo | src/partial-action/delete-edge-face.cpp:59-60 | redo after undo reproduces the run's result, and undoing again restores the original |
| DeleteEdgeFaceRuns.WalkFuelSuffices | src/partial-action/delete-edge-face.cpp:26-28 | a walk around the face that closes without repeating an edge takes at most one step per edge, so it closes within the run's bound of twice the number of edges |

## Left out

- Rendering, the ray query (`bboxIntersectRay`, `facesIntersectRay`, ray `intersects`), `numFaces` and `nodeSLOW` are not modelled. They are debugging or geometry aids outside the index's bookkeeping.
- Single-precision floats are modelled as exact reals, and `0.1f` as exactly one tenth. Rounding is not represented.
- Memory: `unique_ptr` ownership, parent back-pointers and iterator invalidation are not modelled. A node's parent is the node value that encloses it, and node identity is an id drawn from a counter, so ids are never reused.
- The intersection tests of the geometry library are parameters of the sphere queries (`nodeHit`, `faceHit`, `vertexHit`). The adjacency iterator that lists a face's vertices is a parameter too (`around`). Their own code is not part of this model.
- The `PAModifyWEdge`, `PAModifyWFace`, `PAModifyWVertex` and `PAModifyWMesh` partial actions and `ActionUnitOnWMesh` are not part of this model's sources. Their behaviour is assumed as follows:
  - a field write records the old and new values;
  - `deleteEdge` also deletes the edge's right face (`src/winged-mesh.hpp:28-30`);
  - `deleteFace` also removes the face from the octree;
  - undo replays in reverse and redo replays forwards.
- Undo restores what an observer of the mesh sees (`WingedMesh.View`): the three record maps and the octree's id map. It does not restore the octree's shape, because re-inserting a face can place it in a different node than before.
- Octree.InsertFace: the model requires a positive face width. With a zero width the source's descent test always succeeds and insertion never terminates.
- Octree.RealignFace: the model requires a positive face width, for the same reason as InsertFace.
- Octree.RealignFace: `sameNode` compares node ids, which are never reused. The source compares raw pointers after `deleteFace` may have freed the former node, by pruning or by resetting the root; if the allocator hands the same address to a new node, the source reports true where the model reports false.
- Octree.InitRoot: the model requires a rootless tree that indexes no face, as the source's assertion does, and a positive width, which the node invariants need.
- Octree.InsertFace, Octree.DeleteFace, Octree.RealignFace: the source's assertions on duplicate or missing ids become `DuplicateFace` / `FaceNotFound` results. The "malformed containment" case of `insertIntoChild` is not an error result: `SomeChildContains` proves it cannot happen over reals.
- Octree.InsertFace promises a tidy tree (no empty inner node) only for trees that are `Compact`. After `initRoot` and a far-away insertion, growth wraps the empty initial root and leaves an empty inner node, as the source does.
- The iterators visit the tree breadth-first, as the code does with its queues; a depth-first order of faces is not modelled.
- `depth ()` of the iterators is stated as the non-decreasing depth of successive nodes (`FaceDepth`, `NodeElement`), not as a separate operation.
- DeleteEdgeFace.MergeAround: the adjacent-edge iterator is not part of this model; the walk follows the successor on the side where the deleted face is. With two different faces every step rewrites one side away from the deleted face, so the walk ends by itself: back at the start, or at a missing edge, a missing successor or an edge that no longer borders the deleted face (`NotAdjacent`). `WalkBoundSuffices` shows that the run's bound of twice the number of edges never cuts such a walk off. Only an edge with the deleted face on both sides makes the kept face equal the deleted one; then nothing is rewritten, the walk can repeat forever, and the model gives up with `Unclosed` after the bound. That the bound suffices for every such walk that does close is not proved.
- DeleteEdgeFace.Prepare: the triangle removed from the octree is read from the octree's id map, not computed from the mesh's vertex positions as `faceToDelete.triangle (mesh)` does (line 22). This assumes the index is in step with the geometry, which the editor keeps by realigning a face after every move. `RunUndo` restores the id map to the entry read here.
- DeleteEdgeFace.RelinkEffect: stated only when the four wings are distinct edges other than the edge itself (`DistinctWings`). When a wing is the edge or two wings coincide, a later write overwrites an earlier one, and the edge's own record can change.
- DeleteEdgeFaceRuns.RunRelinks: stated only when the four wings are distinct edges other than the edge itself (`DistinctWings`). On degenerate meshes where wings coincide, the later writes overwrite earlier ones and no simple joined-up statement holds.
- DeleteEdgeFace.RepointVertices: when the edge's two vertices are the same vertex, the second write overwrites the first, so that vertex ends at the left successor and no vertex at the left predecessor.
- DeleteEdgeFace.DetachSiblings: when the edge is its own previous sibling, the first write clears the edge's own next-sibling link, so the next sibling is read back as absent and keeps pointing at the deleted edge; the contract promises the next sibling's change only outside that case.
- DeleteEdgeFace.ClearFaceLinks: when the kept face is the deleted one, the second write clears the edge the first one set, so the kept face ends with no edge.
- DeleteEdgeFaceRuns.RunSiblings: promises the next sibling's cleared link only when the edge is not its own previous sibling, for the reason given for DetachSiblings.
- DeleteEdgeFaceRuns.RunRepoints: stated only when the wings are not the edge itself (`WingsElsewhere`), for the same reason.
- DeleteEdgeFaceRuns.RunFaceRefs: stated for walks that close without repeating an edge. A walk that repeats an edge rewrites it only once.

=== FILE: delete_edge_face.dfy ===
/**
  `PADeleteEdgeFace`: delete an edge and merge the face on its right into
  the face on its left. Every step is a recorded partial action, so the
  whole edit can be undone and redone. Line numbers in the comments below
  refer to `src/partial-action/delete-edge-face.cpp`.
 */
module DeleteEdgeFace {
  import opened Outcomes
  import opened OctreeNode
  import Octree
  import NodeDeletion
  import opened WingedMesh
  import opened PartialActions

  // ---------------------------------------------------------------------
  // Frames

  /** Only edge records changed, and no edge came or went. */
  predicate EdgesOnly(a: Mesh, b: Mesh) {
    b.vertices == a.vertices && b.faces == a.faces && b.index == a.index && b.edges.Keys == a.edges.Keys
  }

  /** Only vertex records changed, and no vertex came or went. */
  predicate VerticesOnly(a: Mesh, b: Mesh) {
    b.edges == a.edges && b.faces == a.faces && b.index == a.index && b.vertices.Keys == a.vertices.Keys
  }

  /** Two edge records agree on everything but the sibling links. */
  predicate SameLinks(a: WingedEdge, b: WingedEdge) {
    a == b.(previousSibling := a.previousSibling, nextSibling := a.nextSibling)
  }

  /** Two edge records agree on everything but the faces on their sides. */
  predicate SameButFaces(a: WingedEdge, b: WingedEdge) {
    a == b.(leftFace := a.leftFace, rightFace := a.rightFace)
  }

  /** Two edge records agree on everything but the four wings. */
  predicate SameButWings(a: WingedEdge, b: WingedEdge) {
    a == b.(leftPredecessor := a.leftPredecessor, leftSuccessor := a.leftSuccessor,
            rightPredecessor := a.rightPredecessor, rightSuccessor := a.rightSuccessor)
  }

  /** Edge x is on face f and its next edge around f is n. */
  predicate NextAround(es: map<EdgeId, WingedEdge>, x: EdgeId, f: FaceId, n: Option<EdgeId>) {
    x in es && SideOf(es[x], f).Some? && SuccessorOn(es[x], SideOf(es[x], f).value) == n
  }

  /** Edge x is on face f and its previous edge around f is p. */
  predicate PrevAround(es: map<EdgeId, WingedEdge>, x: EdgeId, f: FaceId, p: Option<EdgeId>) {
    x in es && SideOf(es[x], f).Some? && PredecessorOn(es[x], SideOf(es[x], f).value) == p
  }

  // ---------------------------------------------------------------------
  // The partial actions the edit is made of. Each appends its record to
  // the log and performs the write; the lemmas after each group show that
  // the log still replays to the mesh reached.

  /** `PAModifyWEdge`: edge x's record becomes `after`. */
  function WriteEdge(s: Session, x: EdgeId, after: WingedEdge): (r: Session)
    requires x in s.now.edges
    ensures r.start == s.start && r.now == s.now.(edges := s.now.edges[x := after])
    ensures r.log == s.log + [EdgeWrite(x, s.now.edges[x], after)]
  {
    Session(s.start, s.now.(edges := s.now.edges[x := after]), s.log + [EdgeWrite(x, s.now.edges[x], after)])
  }

  /** `PAModifyWFace`: face f's record becomes `after`. */
  function WriteFace(s: Session, f: FaceId, after: WingedFace): (r: Session)
    requires f in s.now.faces
    ensures r.start == s.start && r.now == s.now.(faces := s.now.faces[f := after])
    ensures r.log == s.log + [FaceWrite(f, s.now.faces[f], after)]
  {
    Session(s.start, s.now.(faces := s.now.faces[f := after]), s.log + [FaceWrite(f, s.now.faces[f], after)])
  }

  /** `PAModifyWVertex`: vertex v's record becomes `after`. */
  function WriteVertex(s: Session, v: VertexId, after: WingedVertex): (r: Session)
    requires v in s.now.vertices
    ensures r.start == s.start && r.now == s.now.(vertices := s.now.vertices[v := after])
    ensures r.log == s.log + [VertexWrite(v, s.now.vertices[v], after)]
  {
    Session(s.start, s.now.(vertices := s.now.vertices[v := after]), s.log + [VertexWrite(v, s.now.vertices[v], after)])
  }

  lemma WriteEdgeConsistent(s: Session, x: EdgeId, after: WingedEdge)
    requires Consistent(s) && x in s.now.edges
    ensures Consistent(WriteEdge(s, x, after))
  {
    assert Record(s, EdgeWrite(x, s.now.edges[x], after)) == WriteEdge(s, x, after);
  }

  lemma WriteFaceConsistent(s: Session, f: FaceId, after: WingedFace)
    requires Consistent(s) && f in s.now.faces
    ensures Consistent(WriteFace(s, f, after))
  {
    assert Record(s, FaceWrite(f, s.now.faces[f], after)) == WriteFace(s, f, after);
  }

  lemma WriteVertexConsistent(s: Session, v: VertexId, after: WingedVertex)
    requires Consistent(s) && v in s.now.vertices
    ensures Consistent(WriteVertex(s, v, after))
  {
    assert Record(s, VertexWrite(v, s.now.vertices[v], after)) == WriteVertex(s, v, after);
  }

  /** Follows an edge pointer: null and dangling pointers are refused. */
  function EdgeAt(m: Mesh, p: Option<EdgeId>): (r: Result<EdgeId, MeshError>)
    ensures r.Ok? <==> p.Some? && p.value in m.edges
    ensures r.Ok? ==> r.value == p.value
    ensures p.None? ==> r == Err(NullReference)
  {
    if p.None? then Err(NullReference) else if p.value !in m.edges then Err(NoSuchEdge) else Ok(p.value)
  }

  /** `PAModifyWEdge::successor`: the next edge after t around face f becomes n. */
  function SetSuccessor(s: Session, t: Option<EdgeId>, f: FaceId, n: Option<EdgeId>): (r: Result<Session, MeshError>)
    ensures r.Err? ==> r.error != Unclosed
    ensures r.Ok? <==> t.Some? && t.value in s.now.edges && SideOf(s.now.edges[t.value], f).Some?
    ensures r.Ok? ==> r.value.start == s.start && EdgesOnly(s.now, r.value.now)
    ensures r.Ok? ==> NextAround(r.value.now.edges, t.value, f, n)
    ensures r.Ok? ==> var w := s.now.edges[t.value];
      SameLinks(w, r.value.now.edges[t.value].(leftSuccessor := w.leftSuccessor, rightSuccessor := w.rightSuccessor))
    ensures r.Ok? ==> forall y :: y in s.now.edges && y != t.value ==> r.value.now.edges[y] == s.now.edges[y]
    ensures r.Ok? ==> forall y :: y in s.now.edges ==> SameButWings(s.now.edges[y], r.value.now.edges[y])
  {
    var x := EdgeAt(s.now, t);
    if x.Err? then Err(x.error)
    else
      var w := s.now.edges[x.value];
      var side := SideOf(w, f);
      if side.None? then Err(NotAdjacent)
      else Ok(WriteEdge(s, x.value, WithSuccessor(w, side.value, n)))
  }

  /** `PAModifyWEdge::predecessor`: the previous edge before t around face f becomes p. */
  function SetPredecessor(s: Session, t: Option<EdgeId>, f: FaceId, p: Option<EdgeId>): (r: Result<Session, MeshError>)
    ensures r.Err? ==> r.error != Unclosed
    ensures r.Ok? <==> t.Some? && t.value in s.now.edges && SideOf(s.now.edges[t.value], f).Some?
    ensures r.Ok? ==> r.value.start == s.start && EdgesOnly(s.now, r.value.now)
    ensures r.Ok? ==> PrevAround(r.value.now.edges, t.value, f, p)
    ensures r.Ok? ==> var w := s.now.edges[t.value];
      SameLinks(w, r.value.now.edges[t.value].(leftPredecessor := w.leftPredecessor, rightPredecessor := w.rightPredecessor))
    ensures r.Ok? ==> forall y :: y in s.now.edges && y != t.value ==> r.value.now.edges[y] == s.now.edges[y]
    ensures r.Ok? ==> forall y :: y in s.now.edges ==> SameButWings(s.now.edges[y], r.value.now.edges[y])
  {
    var x := EdgeAt(s.now, t);
    if x.Err? then Err(x.error)
    else
      var w := s.now.edges[x.value];
      var side := SideOf(w, f);
      if side.None? then Err(NotAdjacent)
      else Ok(WriteEdge(s, x.value, WithPredecessor(w, side.value, p)))
  }

  lemma SetSuccessorConsistent(s: Session, t: Option<EdgeId>, f: FaceId, n: Option<EdgeId>)
    requires Consistent(s) && SetSuccessor(s, t, f, n).Ok?
    ensures Consistent(SetSuccessor(s, t, f, n).value)
  {
    var w := s.now.edges[t.value];
    WriteEdgeConsistent(s, t.value, WithSuccessor(w, SideOf(w, f).value, n));
  }

  lemma SetPredecessorConsistent(s: Session, t: Option<EdgeId>, f: FaceId, p: Option<EdgeId>)
    requires Consistent(s) && SetPredecessor(s, t, f, p).Ok?
    ensures Consistent(SetPredecessor(s, t, f, p).value)
  {
    var w := s.now.edges[t.value];
    WriteEdgeConsistent(s, t.value, WithPredecessor(w, SideOf(w, f).value, p));
  }

  // ---------------------------------------------------------------------
  // Lines 26-30: every edge around the deleted face now names the kept face

  /**
    The edges around face f from `current` on, following the successor on
    f's side until the walk comes back to `start` — the adjacent-edge
    iteration of an unchanged mesh. None when a pointer is null or
    dangling, an edge is not on f, or the walk does not close within
    `fuel` steps.
   */
  function EdgesAround(es: map<EdgeId, WingedEdge>, f: FaceId, start: EdgeId, current: EdgeId, fuel: nat): (r: Option<seq<EdgeId>>)
    ensures r.Some? ==> |r.value| > 0 && r.value[0] == current
    ensures r.Some? ==> forall i :: 0 <= i < |r.value| ==> r.value[i] in es && SideOf(es[r.value[i]], f).Some?
    decreases fuel
  {
    if fuel == 0 || current !in es then None
    else
      var side := SideOf(es[current], f);
      if side.None? then None
      else
        var next := SuccessorOn(es[current], side.value);
        if next == Some(start) then Some([current])
        else if next.None? then None
        else
          var rest := EdgesAround(es, f, start, next.value, fuel - 1);
          if rest.None? then None else Some([current] + rest.value)
  }

  /** Edge x's side that is face `from` names `to` instead, when x is on `from`. */
  function MergeOne(es: map<EdgeId, WingedEdge>, x: EdgeId, from: FaceId, to: FaceId): map<EdgeId, WingedEdge> {
    if x in es && SideOf(es[x], from).Some? then es[x := WithFace(es[x], SideOf(es[x], from).value, Some(to))] else es
  }

  /** MergeOne for each edge of xs in turn. */
  function Merged(es: map<EdgeId, WingedEdge>, xs: seq<EdgeId>, from: FaceId, to: FaceId): map<EdgeId, WingedEdge>
    decreases |xs|
  {
    if |xs| == 0 then es else Merged(MergeOne(es, xs[0], from, to), xs[1..], from, to)
  }

  predicate NoDuplicates(xs: seq<EdgeId>) {
    forall i, j :: 0 <= i < j < |xs| ==> xs[i] != xs[j]
  }

  /**
    The loop of lines 26-30: take the current edge, advance the iterator
    along the deleted face, then rewrite the edge's side that was the
    deleted face to the kept face; stop when the iterator is back at the
    start. The adjacent-edge iterator is not part of this model; here it
    follows the successor on the deleted face's side, and the walk fails
    at a missing edge, an edge that does not border the deleted face, or a
    missing successor. When the two faces differ every step turns one side
    away from the deleted face, so the walk ends on its own
    (MergeAroundCloses); only when the deleted edge itself has the deleted
    face on both sides (so the kept face is the deleted one) can it repeat
    forever, and `fuel` bounds the number of steps that follow an edge on.
   */
  function MergeAround(s: Session, doomed: FaceId, kept: FaceId, start: EdgeId, current: EdgeId, fuel: nat): (r: Result<Session, MeshError>)
    ensures r.Ok? ==> r.value.start == s.start && EdgesOnly(s.now, r.value.now)
    decreases fuel
  {
    if current !in s.now.edges then Err(NoSuchEdge)
    else
      var w := s.now.edges[current];
      var side := SideOf(w, doomed);
      if side.None? then Err(NotAdjacent)
      else
        var next := SuccessorOn(w, side.value);
        var s' := WriteEdge(s, current, WithFace(w, side.value, Some(kept)));
        if next == Some(start) then Ok(s')
        else if next.None? then Err(NullReference)
        else if fuel == 0 then Err(Unclosed)
        else MergeAround(s', doomed, kept, start, next.value, fuel - 1)
  }

  /** The sides of edges in es that name face f. */
  function DoomedSides(es: map<EdgeId, WingedEdge>, f: FaceId): set<(EdgeId, Side)> {
    set x, sd | x in es && sd in {Left, Right} && FaceOn(es[x], sd) == Some(f) :: (x, sd)
  }

  /** Pairs whose first components come from K number at most two per member of K. */
  lemma {:induction false} SidesFit(a: set<(EdgeId, Side)>, k: set<EdgeId>)
    requires forall p :: p in a ==> p.0 in k
    ensures |a| <= 2 * |k|
    decreases k
  {
    if k != {} {
      var x :| x in k;
      var both := {(x, Left), (x, Right)};
      var rest := a - both;
      forall p | p in rest ensures p.0 in k - {x} {
        assert p != (x, Left) && p != (x, Right);
        assert p.0 != x || (p.1 != Left && p.1 != Right);
      }
      SidesFit(rest, k - {x});
      assert a <= rest + both;
      assert |rest + both| <= |rest| + |both|;
      NodeDeletion.SubsetCard(a, rest + both);
    } else {
      assert a == {};
    }
  }

  lemma DoomedSidesFit(es: map<EdgeId, WingedEdge>, f: FaceId)
    ensures |DoomedSides(es, f)| <= 2 * |es|
  {
    SidesFit(DoomedSides(es, f), es.Keys);
  }

  /** Rewriting a side of x from `doomed` to another face takes exactly that side out of the doomed sides. */
  lemma DoomedSidesShrink(es: map<EdgeId, WingedEdge>, x: EdgeId, sd: Side, doomed: FaceId, kept: FaceId)
    requires x in es && FaceOn(es[x], sd) == Some(doomed) && kept != doomed
    ensures (x, sd) in DoomedSides(es, doomed)
    ensures DoomedSides(es[x := WithFace(es[x], sd, Some(kept))], doomed) == DoomedSides(es, doomed) - {(x, sd)}
  {
    var es' := es[x := WithFace(es[x], sd, Some(kept))];
    forall p | p in DoomedSides(es', doomed) ensures p in DoomedSides(es, doomed) - {(x, sd)} {
      if p.0 == x && p.1 != sd {
        assert FaceOn(es'[x], p.1) == FaceOn(es[x], p.1);
      }
    }
    forall p | p in DoomedSides(es, doomed) - {(x, sd)} ensures p in DoomedSides(es', doomed) {
      if p.0 == x {
        assert FaceOn(es'[x], p.1) == FaceOn(es[x], p.1);
      }
    }
  }

  /**
    When the kept and deleted faces differ, fuel at least the number of
    sides naming the deleted face is enough: the walk never gives up.
   */
  lemma {:induction false} MergeAroundCloses(s: Session, doomed: FaceId, kept: FaceId, start: EdgeId, current: EdgeId, fuel: nat)
    requires kept != doomed && fuel >= |DoomedSides(s.now.edges, doomed)|
    ensures MergeAround(s, doomed, kept, start, current, fuel) != Err(Unclosed)
    decreases fuel
  {
    if current in s.now.edges && SideOf(s.now.edges[current], doomed).Some? {
      var w := s.now.edges[current];
      var side := SideOf(w, doomed).value;
      var next := SuccessorOn(w, side);
      var s' := WriteEdge(s, current, WithFace(w, side, Some(kept)));
      if next != Some(start) && next.Some? {
        DoomedSidesShrink(s.now.edges, current, side, doomed, kept);
        MergeAroundCloses(s', doomed, kept, start, next.value, fuel - 1);
      }
    }
  }

  /** Any two fuels under which the walk does not give up yield the same result. */
  lemma {:induction false} MergeAroundFuel(s: Session, doomed: FaceId, kept: FaceId, start: EdgeId, current: EdgeId, fuel: nat, fuel': nat)
    requires MergeAround(s, doomed, kept, start, current, fuel) != Err(Unclosed)
    requires MergeAround(s, doomed, kept, start, current, fuel') != Err(Unclosed)
    ensures MergeAround(s, doomed, kept, start, current, fuel) == MergeAround(s, doomed, kept, start, current, fuel')
    decreases fuel
  {
    if current in s.now.edges && SideOf(s.now.edges[current], doomed).Some? {
      var w := s.now.edges[current];
      var side := SideOf(w, doomed).value;
      var next := SuccessorOn(w, side);
      var s' := WriteEdge(s, current, WithFace(w, side, Some(kept)));
      if next != Some(start) && next.Some? {
        MergeAroundFuel(s', doomed, kept, start, next.value, fuel - 1, fuel' - 1);
      }
    }
  }

  /**
    The bound a run gives the walk, twice the number of edges, never cuts
    it off when the faces differ, and the walk ends with the same result
    under any other fuel with which it ends.
   */
  lemma WalkBoundSuffices(s: Session, doomed: FaceId, kept: FaceId, start: EdgeId, fuel: nat)
    requires kept != doomed
    ensures MergeAround(s, doomed, kept, start, start, 2 * |s.now.edges|) != Err(Unclosed)
    ensures MergeAround(s, doomed, kept, start, start, fuel) != Err(Unclosed) ==>
      MergeAround(s, doomed, kept, start, start, fuel) == MergeAround(s, doomed, kept, start, start, 2 * |s.now.edges|)
  {
    DoomedSidesFit(s.now.edges, doomed);
    MergeAroundCloses(s, doomed, kept, start, start, 2 * |s.now.edges|);
    if MergeAround(s, doomed, kept, start, start, fuel) != Err(Unclosed) {
      MergeAroundFuel(s, doomed, kept, start, start, fuel, 2 * |s.now.edges|);
    }
  }

  /** The walk changes faces of edges only: wings, endpoints and siblings stay. */
  lemma {:induction false} MergeAroundKeepsLinks(s: Session, doomed: FaceId, kept: FaceId, start: EdgeId, current: EdgeId, fuel: nat, y: EdgeId)
    requires MergeAround(s, doomed, kept, start, current, fuel).Ok? && y in s.now.edges
    ensures SameButFaces(s.now.edges[y], MergeAround(s, doomed, kept, start, current, fuel).value.now.edges[y])
    decreases fuel
  {
    var w := s.now.edges[current];
    var side := SideOf(w, doomed).value;
    var next := SuccessorOn(w, side);
    if next != Some(start) {
      MergeAroundKeepsLinks(WriteEdge(s, current, WithFace(w, side, Some(kept))), doomed, kept, start, next.value, fuel - 1, y);
    }
  }

  lemma {:induction false} MergeAroundConsistent(s: Session, doomed: FaceId, kept: FaceId, start: EdgeId, current: EdgeId, fuel: nat)
    requires Consistent(s) && MergeAround(s, doomed, kept, start, current, fuel).Ok?
    ensures Consistent(MergeAround(s, doomed, kept, start, current, fuel).value)
    decreases fuel
  {
    var w := s.now.edges[current];
    var side := SideOf(w, doomed).value;
    var next := SuccessorOn(w, side);
    WriteEdgeConsistent(s, current, WithFace(w, side, Some(kept)));
    if next != Some(start) {
      MergeAroundConsistent(WriteEdge(s, current, WithFace(w, side, Some(kept))), doomed, kept, start, next.value, fuel - 1);
    }
  }

  /** A walk that does not read edge y is unaffected by a change to y. */
  lemma {:induction false} EdgesAroundFrame(es: map<EdgeId, WingedEdge>, f: FaceId, start: EdgeId, current: EdgeId, fuel: nat, y: EdgeId, w: WingedEdge)
    requires EdgesAround(es, f, start, current, fuel).Some?
    requires y !in EdgesAround(es, f, start, current, fuel).value
    ensures EdgesAround(es[y := w], f, start, current, fuel) == EdgesAround(es, f, start, current, fuel)
    decreases fuel
  {
    var side := SideOf(es[current], f);
    var next := SuccessorOn(es[current], side.value);
    if next != Some(start) {
      EdgesAroundFrame(es, f, start, next.value, fuel - 1, y, w);
    }
  }

  /** The tail of a duplicate-free sequence is duplicate-free and does not hold its head. */
  lemma TailDistinct(xs: seq<EdgeId>)
    requires |xs| > 0 && NoDuplicates(xs)
    ensures NoDuplicates(xs[1..]) && xs[0] !in xs[1..]
  {
    var rest := xs[1..];
    forall i, j | 0 <= i < j < |rest| ensures rest[i] != rest[j] {
      assert rest[i] == xs[i + 1] && rest[j] == xs[j + 1];
    }
    forall i | 0 <= i < |rest| ensures rest[i] != xs[0] {
      assert rest[i] == xs[i + 1];
    }
  }

  /**
    When the edges around the deleted face form a simple cycle, the loop
    visits exactly that cycle and rewrites each of its edges once.
   */
  lemma {:induction false} MergeFollowsCycle(s: Session, doomed: FaceId, kept: FaceId, start: EdgeId, current: EdgeId, fuel: nat, cycle: seq<EdgeId>)
    requires EdgesAround(s.now.edges, doomed, start, current, fuel) == Some(cycle) && NoDuplicates(cycle)
    ensures MergeAround(s, doomed, kept, start, current, fuel).Ok?
    ensures MergeAround(s, doomed, kept, start, current, fuel).value.now.edges == Merged(s.now.edges, cycle, doomed, kept)
    decreases fuel
  {
    var es := s.now.edges;
    var w := es[current];
    var side := SideOf(w, doomed).value;
    var next := SuccessorOn(w, side);
    var w' := WithFace(w, side, Some(kept));
    var s' := WriteEdge(s, current, w');
    assert MergeOne(es, current, doomed, kept) == s'.now.edges;
    if next == Some(start) {
      assert cycle == [current];
      assert Merged(s'.now.edges, cycle[1..], doomed, kept) == s'.now.edges;
    } else {
      var rest := EdgesAround(es, doomed, start, next.value, fuel - 1).value;
      assert cycle == [current] + rest;
      assert cycle[1..] == rest;
      TailDistinct(cycle);
      EdgesAroundFrame(es, doomed, start, next.value, fuel - 1, current, w');
      MergeFollowsCycle(s', doomed, kept, start, next.value, fuel - 1, rest);
    }
  }

  /** Rewriting the edges of a duplicate-free sequence rewrites each of them, and no other. */
  lemma {:induction false} MergedPointwise(es: map<EdgeId, WingedEdge>, xs: seq<EdgeId>, from: FaceId, to: FaceId)
    requires NoDuplicates(xs)
    ensures Merged(es, xs, from, to).Keys == es.Keys
    ensures forall y :: y in es ==> Merged(es, xs, from, to)[y] == if y in xs then MergeOne(es, y, from, to)[y] else es[y]
    decreases |xs|
  {
    if |xs| > 0 {
      var x := xs[0];
      var es1 := MergeOne(es, x, from, to);
      var rest := xs[1..];
      TailDistinct(xs);
      MergedPointwise(es1, rest, from, to);
      forall y | y in es ensures Merged(es, xs, from, to)[y] == if y in xs then MergeOne(es, y, from, to)[y] else es[y] {
        if y != x {
          assert es1[y] == es[y];
          assert y in xs <==> y in rest;
          if y in rest {
            assert MergeOne(es1, y, from, to)[y] == MergeOne(es, y, from, to)[y];
          }
        }
      }
    }
  }

  /**
    Lines 26-30 in one statement: when the deleted face's edges form a
    simple cycle from its edge, the loop succeeds and afterwards each edge
    of the cycle has the kept face on the side where the deleted face was;
    every other edge is unchanged.
   */
  lemma FaceRefsMerged(s: Session, doomed: FaceId, kept: FaceId, start: EdgeId, fuel: nat, cycle: seq<EdgeId>)
    requires EdgesAround(s.now.edges, doomed, start, start, fuel) == Some(cycle) && NoDuplicates(cycle)
    ensures MergeAround(s, doomed, kept, start, start, fuel).Ok?
    ensures var es := s.now.edges; var es' := MergeAround(s, doomed, kept, start, start, fuel).value.now.edges;
      && es'.Keys == es.Keys
      && (forall y :: y in cycle ==> y in es && SideOf(es[y], doomed).Some? && FaceOn(es'[y], SideOf(es[y], doomed).value) == Some(kept))
      && (forall y :: y in es && y !in cycle ==> es'[y] == es[y])
  {
    MergeFollowsCycle(s, doomed, kept, start, start, fuel, cycle);
    MergedPointwise(s.now.edges, cycle, doomed, kept);
  }

  // ---------------------------------------------------------------------
  // Lines 32-40: the wings relinked around the kept face

  /**
    The left predecessor is followed by the right successor, the right
    predecessor by the left successor, around the kept face; every wing is
    read from the edge as it is when its write happens.
   */
  function Relink(s: Session, e: EdgeId, kept: FaceId): (r: Result<Session, MeshError>)
    requires e in s.now.edges
    ensures r.Err? ==> r.error != Unclosed
    ensures r.Ok? ==> r.value.start == s.start && EdgesOnly(s.now, r.value.now)
    ensures r.Ok? ==> forall y :: y in s.now.edges ==> SameButWings(s.now.edges[y], r.value.now.edges[y])
  {
    var w0 := s.now.edges[e];
    var a := SetSuccessor(s, w0.leftPredecessor, kept, w0.rightSuccessor);
    if a.Err? then a
    else
      var w1 := a.value.now.edges[e];
      var b := SetPredecessor(a.value, w1.leftSuccessor, kept, w1.rightPredecessor);
      if b.Err? then b
      else
        var w2 := b.value.now.edges[e];
        var c := SetSuccessor(b.value, w2.rightPredecessor, kept, w2.leftSuccessor);
        if c.Err? then c
        else
          var w3 := c.value.now.edges[e];
          SetPredecessor(c.value, w3.rightSuccessor, kept, w3.leftPredecessor)
  }

  lemma RelinkConsistent(s: Session, e: EdgeId, kept: FaceId)
    requires Consistent(s) && e in s.now.edges && Relink(s, e, kept).Ok?
    ensures Consistent(Relink(s, e, kept).value)
  {
    var w0 := s.now.edges[e];
    SetSuccessorConsistent(s, w0.leftPredecessor, kept, w0.rightSuccessor);
    var a := SetSuccessor(s, w0.leftPredecessor, kept, w0.rightSuccessor).value;
    var w1 := a.now.edges[e];
    SetPredecessorConsistent(a, w1.leftSuccessor, kept, w1.rightPredecessor);
    var b := SetPredecessor(a, w1.leftSuccessor, kept, w1.rightPredecessor).value;
    var w2 := b.now.edges[e];
    SetSuccessorConsistent(b, w2.rightPredecessor, kept, w2.leftSuccessor);
    var c := SetSuccessor(b, w2.rightPredecessor, kept, w2.leftSuccessor).value;
    var w3 := c.now.edges[e];
    SetPredecessorConsistent(c, w3.rightSuccessor, kept, w3.leftPredecessor);
  }

  /** The four wings of w are present, pairwise different, and none is w's own id e. */
  predicate DistinctWings(w: WingedEdge, e: EdgeId) {
    && w.leftPredecessor.Some? && w.leftSuccessor.Some? && w.rightPredecessor.Some? && w.rightSuccessor.Some?
    && var lp, ls, rp, rs := w.leftPredecessor.value, w.leftSuccessor.value, w.rightPredecessor.value, w.rightSuccessor.value;
       && lp != e && ls != e && rp != e && rs != e
       && lp != ls && lp != rp && lp != rs && ls != rp && ls != rs && rp != rs
  }

  /**
    With four distinct wings, relinking leaves the kept face's cycle
    passing from the left predecessor straight to the right successor and
    from the right predecessor straight to the left successor, and the
    edge's own record untouched.
   */
  lemma RelinkEffect(s: Session, e: EdgeId, kept: FaceId)
    requires e in s.now.edges && DistinctWings(s.now.edges[e], e)
    requires Relink(s, e, kept).Ok?
    ensures var w := s.now.edges[e]; var es := Relink(s, e, kept).value.now.edges;
      && NextAround(es, w.leftPredecessor.value, kept, w.rightSuccessor)
      && PrevAround(es, w.leftSuccessor.value, kept, w.rightPredecessor)
      && NextAround(es, w.rightPredecessor.value, kept, w.leftSuccessor)
      && PrevAround(es, w.rightSuccessor.value, kept, w.leftPredecessor)
      && es[e] == w
  {
    var w := s.now.edges[e];
    var lp, ls, rp := w.leftPredecessor.value, w.leftSuccessor.value, w.rightPredecessor.value;
    var a := SetSuccessor(s, w.leftPredecessor, kept, w.rightSuccessor).value;
    assert a.now.edges[e] == w;
    var b := SetPredecessor(a, w.leftSuccessor, kept, w.rightPredecessor).value;
    assert b.now.edges[e] == w;
    var c := SetSuccessor(b, w.rightPredecessor, kept, w.leftSuccessor).value;
    assert c.now.edges[e] == w;
    var d := SetPredecessor(c, w.rightSuccessor, kept, w.leftPredecessor).value;
    assert Relink(s, e, kept).value == d;
    assert d.now.edges[lp] == a.now.edges[lp];
    assert d.now.edges[ls] == b.now.edges[ls];
    assert d.now.edges[rp] == c.now.edges[rp];
  }

  // ---------------------------------------------------------------------
  // Lines 42-48: endpoints and siblings

  /** Lines 42-43: the first endpoint's edge becomes the left predecessor, the second's the left successor. */
  function RepointVertices(s: Session, e: EdgeId): (r: Result<Session, MeshError>)
    requires e in s.now.edges
    ensures r.Err? ==> r.error != Unclosed
    ensures r.Ok? ==> r.value.start == s.start && VerticesOnly(s.now, r.value.now)
    ensures r.Ok? ==> var w := s.now.edges[e];
      && w.vertex1.Some? && w.vertex2.Some?
      && r.value.now.vertices == s.now.vertices[w.vertex1.value := WingedVertex(w.leftPredecessor)][w.vertex2.value := WingedVertex(w.leftSuccessor)]
  {
    var w := s.now.edges[e];
    if w.vertex1.None? || w.vertex2.None? then Err(NullReference)
    else if w.vertex1.value !in s.now.vertices || w.vertex2.value !in s.now.vertices then Err(NoSuchVertex)
    else
      var a := WriteVertex(s, w.vertex1.value, WingedVertex(w.leftPredecessor));
      Ok(WriteVertex(a, w.vertex2.value, WingedVertex(w.leftSuccessor)))
  }

  lemma RepointVerticesConsistent(s: Session, e: EdgeId)
    requires Consistent(s) && e in s.now.edges && RepointVertices(s, e).Ok?
    ensures Consistent(RepointVertices(s, e).value)
  {
    var w := s.now.edges[e];
    WriteVertexConsistent(s, w.vertex1.value, WingedVertex(w.leftPredecessor));
    WriteVertexConsistent(WriteVertex(s, w.vertex1.value, WingedVertex(w.leftPredecessor)), w.vertex2.value, WingedVertex(w.leftSuccessor));
  }

  /** Lines 45-48: an existing previous sibling loses its next link, then an existing next sibling its previous link. */
  function DetachSiblings(s: Session, e: EdgeId): (r: Result<Session, MeshError>)
    requires e in s.now.edges
    ensures r.Err? ==> r.error != Unclosed
    ensures r.Ok? ==> r.value.start == s.start && EdgesOnly(s.now, r.value.now)
    ensures r.Ok? ==> forall y :: y in s.now.edges ==> SameLinks(s.now.edges[y], r.value.now.edges[y])
    ensures r.Ok? ==> var w := s.now.edges[e]; var es := r.value.now.edges;
      && (w.previousSibling.Some? ==> w.previousSibling.value in es && es[w.previousSibling.value].nextSibling.None?)
      && (w.previousSibling != Some(e) && w.nextSibling.Some? ==> w.nextSibling.value in es && es[w.nextSibling.value].previousSibling.None?)
  {
    var a := ClearNextOfPrevious(s, e);
    if a.Err? then a
    else ClearPreviousOfNext(a.value, e)
  }

  /** Line 45-46: the previous sibling, if any, no longer has a next sibling. */
  function ClearNextOfPrevious(s: Session, e: EdgeId): (r: Result<Session, MeshError>)
    requires e in s.now.edges
    ensures r.Ok? ==> r.value.start == s.start && EdgesOnly(s.now, r.value.now)
    ensures r.Ok? ==> forall y :: y in s.now.edges ==> SameLinks(s.now.edges[y], r.value.now.edges[y])
    ensures r.Ok? ==> var p := s.now.edges[e].previousSibling;
      && (p.None? ==> r.value == s)
      && (p.Some? ==> p.value in s.now.edges && r.value.now.edges == s.now.edges[p.value := s.now.edges[p.value].(nextSibling := None)])
  {
    var p := s.now.edges[e].previousSibling;
    if p.None? then Ok(s)
    else if p.value !in s.now.edges then Err(NoSuchEdge)
    else Ok(WriteEdge(s, p.value, s.now.edges[p.value].(nextSibling := None)))
  }

  /** Line 47-48: the next sibling, if any, no longer has a previous sibling. */
  function ClearPreviousOfNext(s: Session, e: EdgeId): (r: Result<Session, MeshError>)
    requires e in s.now.edges
    ensures r.Ok? ==> r.value.start == s.start && EdgesOnly(s.now, r.value.now)
    ensures r.Ok? ==> forall y :: y in s.now.edges ==> SameLinks(s.now.edges[y], r.value.now.edges[y])
    ensures r.Ok? ==> var q := s.now.edges[e].nextSibling;
      && (q.None? ==> r.value == s)
      && (q.Some? ==> q.value in s.now.edges && r.value.now.edges == s.now.edges[q.value := s.now.edges[q.value].(previousSibling := None)])
  {
    var q := s.now.edges[e].nextSibling;
    if q.None? then Ok(s)
    else if q.value !in s.now.edges then Err(NoSuchEdge)
    else Ok(WriteEdge(s, q.value, s.now.edges[q.value].(previousSibling := None)))
  }

  lemma DetachSiblingsConsistent(s: Session, e: EdgeId)
    requires Consistent(s) && e in s.now.edges && DetachSiblings(s, e).Ok?
    ensures Consistent(DetachSiblings(s, e).value)
  {
    var p := s.now.edges[e].previousSibling;
    if p.Some? {
      WriteEdgeConsistent(s, p.value, s.now.edges[p.value].(nextSibling := None));
    }
    var a := ClearNextOfPrevious(s, e).value;
    var q := a.now.edges[e].nextSibling;
    if q.Some? {
      WriteEdgeConsistent(a, q.value, a.now.edges[q.value].(previousSibling := None));
    }
  }

  // ---------------------------------------------------------------------
  // Lines 50-56: face links, then the removals

  /**
    Lines 50-53: the kept face's edge becomes the left successor; the
    deleted face's edge and the edge's right face are cleared.
   */
  function ClearFaceLinks(s: Session, e: EdgeId, kept: FaceId, doomed: FaceId): (r: Result<Session, MeshError>)
    requires e in s.now.edges
    ensures r.Err? ==> r.error != Unclosed
    ensures r.Ok? <==> kept in s.now.faces && doomed in s.now.faces
    ensures r.Ok? ==> r.value.start == s.start
    ensures r.Ok? ==> var m := s.now; var m' := r.value.now; var w := m.edges[e];
      && m'.vertices == m.vertices && m'.index == m.index
      && m'.faces == m.faces[kept := WingedFace(w.leftSuccessor)][doomed := WingedFace(None)]
      && m'.edges == m.edges[e := w.(rightFace := None)]
  {
    if kept !in s.now.faces || doomed !in s.now.faces then Err(NoSuchFace)
    else
      var a := WriteFace(s, kept, WingedFace(s.now.edges[e].leftSuccessor));
      var b := WriteFace(a, doomed, WingedFace(None));
      Ok(WriteEdge(b, e, b.now.edges[e].(rightFace := None)))
  }

  lemma ClearFaceLinksConsistent(s: Session, e: EdgeId, kept: FaceId, doomed: FaceId)
    requires Consistent(s) && e in s.now.edges && ClearFaceLinks(s, e, kept, doomed).Ok?
    ensures Consistent(ClearFaceLinks(s, e, kept, doomed).value)
  {
    var a := WriteFace(s, kept, WingedFace(s.now.edges[e].leftSuccessor));
    WriteFaceConsistent(s, kept, WingedFace(s.now.edges[e].leftSuccessor));
    var b := WriteFace(a, doomed, WingedFace(None));
    WriteFaceConsistent(a, doomed, WingedFace(None));
    WriteEdgeConsistent(b, e, b.now.edges[e].(rightFace := None));
  }

  /**
    Lines 55-56: the edge goes (taking its right face with it, which is
    none by now), then the deleted face goes together with its octree
    entry; the triangle is kept so that undo can re-insert it.
   */
  function RemoveEdgeAndFace(s: Session, e: EdgeId, doomed: FaceId, triangle: Face): (r: Session)
    requires e in s.now.edges && s.now.edges[e].rightFace.None? && doomed in s.now.faces
    requires Octree.Valid(s.now.index) && doomed in s.now.index.idMap && s.now.index.idMap[doomed] == triangle
    ensures r.start == s.start && Octree.Valid(r.now.index)
    ensures var m := s.now; var m' := r.now;
      && m'.vertices == m.vertices
      && m'.edges == m.edges - {e}
      && m'.faces == m.faces - {doomed}
      && m'.index.idMap == m.index.idMap - {doomed}
    ensures r.log == s.log + [EdgeRemoval(e, s.now.edges[e], None), FaceRemoval(doomed, s.now.faces[doomed], triangle)]
  {
    var m := s.now;
    var index := Octree.DeleteFace(m.index, doomed).value;
    Session(s.start, Mesh(m.vertices, m.edges - {e}, m.faces - {doomed}, index),
            s.log + [EdgeRemoval(e, m.edges[e], None), FaceRemoval(doomed, m.faces[doomed], triangle)])
  }

  /** Line 55 as one recorded action: the edge goes, its right face already cleared. */
  function RemoveEdge(s: Session, e: EdgeId): (r: Session)
    requires e in s.now.edges && s.now.edges[e].rightFace.None?
    ensures r.start == s.start && r.now == s.now.(edges := s.now.edges - {e})
    ensures r.log == s.log + [EdgeRemoval(e, s.now.edges[e], None)]
  {
    Session(s.start, s.now.(edges := s.now.edges - {e}), s.log + [EdgeRemoval(e, s.now.edges[e], None)])
  }

  lemma RemoveEdgeConsistent(s: Session, e: EdgeId)
    requires Consistent(s) && e in s.now.edges && s.now.edges[e].rightFace.None?
    ensures Consistent(RemoveEdge(s, e))
  {
    assert Record(s, EdgeRemoval(e, s.now.edges[e], None)) == RemoveEdge(s, e);
  }

  lemma RemoveFaceConsistent(s: Session, doomed: FaceId, triangle: Face)
    requires Consistent(s) && doomed in s.now.faces
    requires doomed in s.now.index.idMap && s.now.index.idMap[doomed] == triangle
    ensures Octree.Valid(s.now.index)
    ensures Consistent(Session(s.start,
      s.now.(faces := s.now.faces - {doomed}, index := Octree.DeleteFace(s.now.index, doomed).value),
      s.log + [FaceRemoval(doomed, s.now.faces[doomed], triangle)]))
  {
    ConsistentNowValid(s);
    var b := Record(s, FaceRemoval(doomed, s.now.faces[doomed], triangle));
  }

  lemma RemoveEdgeAndFaceConsistent(s: Session, e: EdgeId, doomed: FaceId, triangle: Face)
    requires Consistent(s) && e in s.now.edges && s.now.edges[e].rightFace.None? && doomed in s.now.faces
    requires doomed in s.now.index.idMap && s.now.index.idMap[doomed] == triangle
    ensures Octree.Valid(s.now.index)
    ensures Consistent(RemoveEdgeAndFace(s, e, doomed, triangle))
  {
    ConsistentNowValid(s);
    RemoveEdgeConsistent(s, e);
    var a := RemoveEdge(s, e);
    RemoveFaceConsistent(a, doomed, triangle);
    var b := Session(a.start,
      a.now.(faces := a.now.faces - {doomed}, index := Octree.DeleteFace(a.now.index, doomed).value),
      a.log + [FaceRemoval(doomed, a.now.faces[doomed], triangle)]);
    assert Consistent(b);
    RemovalsCombine(s, e, doomed, triangle);
  }

  /** Removing the edge and then the face is the two-entry removal. */
  lemma RemovalsCombine(s: Session, e: EdgeId, doomed: FaceId, triangle: Face)
    requires e in s.now.edges && s.now.edges[e].rightFace.None? && doomed in s.now.faces
    requires Octree.Valid(s.now.index) && doomed in s.now.index.idMap && s.now.index.idMap[doomed] == triangle
    ensures var a := RemoveEdge(s, e);
      Session(a.start,
        a.now.(faces := a.now.faces - {doomed}, index := Octree.DeleteFace(a.now.index, doomed).value),
        a.log + [FaceRemoval(doomed, a.now.faces[doomed], triangle)])
      == RemoveEdgeAndFace(s, e, doomed, triangle)
  {
    var a := RemoveEdge(s, e);
    assert a.log + [FaceRemoval(doomed, a.now.faces[doomed], triangle)]
      == s.log + [EdgeRemoval(e, s.now.edges[e], None), FaceRemoval(doomed, s.now.faces[doomed], triangle)];
  }

  // ---------------------------------------------------------------------
  // The whole edit

  /** What `run` reads before its first write (lines 19-24). */
  datatype Plan = Plan(doomed: FaceId, kept: FaceId, triangle: Face, start: EdgeId)

  /**
    The faces of edge e: the right one is deleted, the left one kept; the
    deleted face must be indexed in the octree (its triangle is taken from
    there) and have an edge to start the walk around it from.
   */
  function Prepare(m: Mesh, e: EdgeId): (r: Result<Plan, MeshError>)
    ensures r.Ok? <==>
      && e in m.edges && m.edges[e].rightFace.Some? && m.edges[e].leftFace.Some?
      && m.edges[e].rightFace.value in m.faces && m.edges[e].rightFace.value in m.index.idMap
      && m.faces[m.edges[e].rightFace.value].edge.Some?
    ensures e !in m.edges ==> r == Err(NoSuchEdge)
    ensures r.Ok? ==> var w := m.edges[e];
      && r.value.doomed == w.rightFace.value && r.value.kept == w.leftFace.value
      && r.value.triangle == m.index.idMap[r.value.doomed]
      && r.value.start == m.faces[r.value.doomed].edge.value
  {
    if e !in m.edges then Err(NoSuchEdge)
    else
      var w := m.edges[e];
      if w.rightFace.None? || w.leftFace.None? then Err(NullReference)
      else
        var doomed := w.rightFace.value;
        if doomed !in m.faces then Err(NoSuchFace)
        else if doomed !in m.index.idMap then Err(NotIndexed)
        else if m.faces[doomed].edge.None? then Err(NullReference)
        else Ok(Plan(doomed, w.leftFace.value, m.index.idMap[doomed], m.faces[doomed].edge.value))
  }

  /** The mesh after `run` and the partial actions it recorded. */
  datatype Performed = Performed(mesh: Mesh, actions: seq<Action>)

  /** The plan and the session after each phase of a run. */
  datatype Stages = Stages(p: Plan, s1: Session, s2: Session, s3: Session, s4: Session, s5: Session, s6: Session)

  /** g holds the plan and the sessions after each phase of a run of e from m. */
  ghost predicate Staged(m: Mesh, e: EdgeId, g: Stages) {
    && Prepare(m, e) == Ok(g.p)
    && MergeAround(Session(m, m, []), g.p.doomed, g.p.kept, g.p.start, g.p.start, 2 * |m.edges|) == Ok(g.s1)
    && e in g.s1.now.edges && Relink(g.s1, e, g.p.kept) == Ok(g.s2)
    && e in g.s2.now.edges && RepointVertices(g.s2, e) == Ok(g.s3)
    && e in g.s3.now.edges && DetachSiblings(g.s3, e) == Ok(g.s4)
    && e in g.s4.now.edges && ClearFaceLinks(g.s4, e, g.p.kept, g.p.doomed) == Ok(g.s5)
    && g.s6.start == m
    && g.s6.now.vertices == g.s5.now.vertices
    && g.s6.now.edges == g.s5.now.edges - {e}
    && g.s6.now.faces == g.s5.now.faces - {g.p.doomed}
  }

  /**
    The phases of `PADeleteEdgeFace::run` in order, starting from an empty
    action list: the first phase that fails ends the run with its error.
   */
  function Phases(m: Mesh, e: EdgeId): (r: Result<Stages, MeshError>)
    requires Octree.Valid(m.index)
    ensures r.Ok? ==> Staged(m, e, r.value)
    ensures r.Ok? ==> var g := r.value;
      && e in g.s5.now.edges && g.s5.now.edges[e].rightFace.None? && g.p.doomed in g.s5.now.faces
      && Octree.Valid(g.s5.now.index) && g.p.doomed in g.s5.now.index.idMap && g.s5.now.index.idMap[g.p.doomed] == g.p.triangle
      && g.s6 == RemoveEdgeAndFace(g.s5, e, g.p.doomed, g.p.triangle)
    ensures Prepare(m, e).Err? ==> r == Err(Prepare(m, e).error)
    ensures r == Err(Unclosed) ==> Prepare(m, e).Ok? && var p := Prepare(m, e).value;
      MergeAround(Session(m, m, []), p.doomed, p.kept, p.start, p.start, 2 * |m.edges|) == Err(Unclosed)
  {
    var plan := Prepare(m, e);
    if plan.Err? then Err(plan.error)
    else
      var p := plan.value;
      var s1 := MergeAround(Session(m, m, []), p.doomed, p.kept, p.start, p.start, 2 * |m.edges|);
      if s1.Err? then Err(s1.error)
      else
        var s2 := Relink(s1.value, e, p.kept);
        if s2.Err? then Err(s2.error)
        else
          var s3 := RepointVertices(s2.value, e);
          if s3.Err? then Err(s3.error)
          else
            var s4 := DetachSiblings(s3.value, e);
            if s4.Err? then Err(s4.error)
            else
              var s5 := ClearFaceLinks(s4.value, e, p.kept, p.doomed);
              if s5.Err? then Err(s5.error)
              else
                var s6 := RemoveEdgeAndFace(s5.value, e, p.doomed, p.triangle);
                Ok(Stages(p, s1.value, s2.value, s3.value, s4.value, s5.value, s6))
  }

  /** `PADeleteEdgeFace::run`: the mesh after the last phase and the actions recorded on the way. */
  function Run(m: Mesh, e: EdgeId): (r: Result<Performed, MeshError>)
    requires Octree.Valid(m.index)
    ensures r.Ok? ==> Prepare(m, e).Ok?
    ensures Prepare(m, e).Err? ==> r == Err(Prepare(m, e).error)
  {
    var ph := Phases(m, e);
    if ph.Err? then Err(ph.error) else Ok(Performed(ph.value.s6.now, ph.value.s6.log))
  }
}

=== FILE: delete_edge_face_runs.dfy ===
/**
  What a run of `PADeleteEdgeFace` does, proved over the phases it is
  made of: the records it leaves, the actions it logs, and that undo and
  redo restore what an observer saw. Line numbers in the comments below
  refer to `src/partial-action/delete-edge-face.cpp`.
 */
module DeleteEdgeFaceRuns {
  import opened Outcomes
  import opened OctreeNode
  import Octree
  import opened WingedMesh
  import opened PartialActions
  import opened DeleteEdgeFace

  // ---------------------------------------------------------------------
  // What a run does

  /** A run records its partial actions against the mesh it starts from, and redoing them from there reaches the run's result. */
  lemma RunRecorded(m: Mesh, e: EdgeId)
    requires Octree.Valid(m.index) && Run(m, e).Ok?
    ensures Traced(m, Run(m, e).value.actions)
    ensures ApplyAll(m, Run(m, e).value.actions) == Ok(Run(m, e).value.mesh)
  {
    var g := Phases(m, e).value;
    StagedConsistent(m, e, g);
    RemoveEdgeAndFaceConsistent(g.s5, e, g.p.doomed, g.p.triangle);
  }

  /** Every phase keeps the log replaying to the mesh reached. */
  lemma StagedConsistent(m: Mesh, e: EdgeId, g: Stages)
    requires Octree.Valid(m.index) && Staged(m, e, g)
    ensures Consistent(g.s5)
  {
    StagedConsistentHalf(m, e, g);
    RepointVerticesConsistent(g.s2, e);
    DetachSiblingsConsistent(g.s3, e);
    ClearFaceLinksConsistent(g.s4, e, g.p.kept, g.p.doomed);
  }

  lemma StagedConsistentHalf(m: Mesh, e: EdgeId, g: Stages)
    requires Octree.Valid(m.index) && Staged(m, e, g)
    ensures Consistent(g.s2)
  {
    StagedMergeConsistent(m, e, g);
    RelinkConsistent(g.s1, e, g.p.kept);
  }

  lemma StagedMergeConsistent(m: Mesh, e: EdgeId, g: Stages)
    requires Octree.Valid(m.index) && Staged(m, e, g)
    ensures Consistent(g.s1)
  {
    MergeAroundConsistent(Begin(m), g.p.doomed, g.p.kept, g.p.start, g.p.start, 2 * |m.edges|);
  }

  /**
    After a run the edge is gone, the deleted face is gone from the mesh
    and from the octree, and nothing else came or went.
   */
  lemma RunOutcome(m: Mesh, e: EdgeId, p: Plan, r: Performed)
    requires Octree.Valid(m.index) && Prepare(m, e) == Ok(p) && Run(m, e) == Ok(r)
    ensures p.kept in m.faces
    ensures r.mesh.edges.Keys == m.edges.Keys - {e}
    ensures r.mesh.vertices.Keys == m.vertices.Keys
    ensures r.mesh.faces.Keys == m.faces.Keys - {p.doomed}
    ensures Octree.Valid(r.mesh.index) && r.mesh.index.idMap == m.index.idMap - {p.doomed}
  {
    var g := Phases(m, e).value;
    StagedOutcome(m, e, g);
    assert r.mesh == g.s6.now;
    assert p == g.p;
  }

  /**
    The log ends with the removal of the edge (its right face already
    cleared) and then of the face (its edge already cleared, its triangle
    kept for undo).
   */
  predicate EndsWithRemovals(log: seq<Action>, e: EdgeId, p: Plan) {
    && |log| >= 2
    && (var a := log[|log| - 2]; a.EdgeRemoval? && a.edge == e && a.removedEdge.rightFace.None?)
    && log[|log| - 1] == FaceRemoval(p.doomed, WingedFace(None), p.triangle)
  }

  /** The last two actions a run records are its two removals. */
  lemma RunRemovalsLogged(m: Mesh, e: EdgeId, p: Plan, r: Performed)
    requires Octree.Valid(m.index) && Prepare(m, e) == Ok(p) && Run(m, e) == Ok(r)
    ensures EndsWithRemovals(r.actions, e, p)
  {
    var g := Phases(m, e).value;
    StagedRemovalsLogged(m, e, g);
  }

  /** RunOutcome in terms of the phases of the run. */
  lemma StagedOutcome(m: Mesh, e: EdgeId, g: Stages)
    requires Staged(m, e, g)
    requires Octree.Valid(g.s5.now.index) && g.p.doomed in g.s5.now.index.idMap && g.s5.now.index.idMap[g.p.doomed] == g.p.triangle
    requires e in g.s5.now.edges && g.s5.now.edges[e].rightFace.None? && g.p.doomed in g.s5.now.faces
    requires g.s6 == RemoveEdgeAndFace(g.s5, e, g.p.doomed, g.p.triangle)
    ensures g.p.kept in m.faces
    ensures g.s6.now.edges.Keys == m.edges.Keys - {e}
    ensures g.s6.now.vertices.Keys == m.vertices.Keys
    ensures g.s6.now.faces.Keys == m.faces.Keys - {g.p.doomed}
    ensures Octree.Valid(g.s6.now.index) && g.s6.now.index.idMap == m.index.idMap - {g.p.doomed}
  {
    StagedFrames(m, e, g);
  }

  /** RunRemovalsLogged in terms of the phases of the run. */
  lemma StagedRemovalsLogged(m: Mesh, e: EdgeId, g: Stages)
    requires Staged(m, e, g)
    requires Octree.Valid(g.s5.now.index) && g.p.doomed in g.s5.now.index.idMap && g.s5.now.index.idMap[g.p.doomed] == g.p.triangle
    requires e in g.s5.now.edges && g.s5.now.edges[e].rightFace.None? && g.p.doomed in g.s5.now.faces
    requires g.s6 == RemoveEdgeAndFace(g.s5, e, g.p.doomed, g.p.triangle)
    ensures EndsWithRemovals(g.s6.log, e, g.p)
  {
    StagedDoomedCleared(m, e, g);
  }

  /** By the removal the deleted face's record has lost its edge. */
  lemma StagedDoomedCleared(m: Mesh, e: EdgeId, g: Stages)
    requires Staged(m, e, g)
    ensures g.p.doomed in g.s5.now.faces && g.s5.now.faces[g.p.doomed] == WingedFace(None)
  {
  }

  /** How the key sets and the index move from phase to phase. */
  lemma StagedFrames(m: Mesh, e: EdgeId, g: Stages)
    requires Staged(m, e, g)
    ensures g.p.kept in m.faces && g.p.doomed in m.faces
    ensures g.s5.now.index == m.index
    ensures g.s6.now.edges.Keys == m.edges.Keys - {e}
    ensures g.s6.now.vertices.Keys == m.vertices.Keys
    ensures g.s6.now.faces.Keys == m.faces.Keys - {g.p.doomed}
  {
    StagedIndex(m, e, g);
    StagedEdgeKeys(m, e, g);
    StagedVertexKeys(m, e, g);
    StagedFaceKeys(m, e, g);
  }

  lemma StagedIndex(m: Mesh, e: EdgeId, g: Stages)
    requires Staged(m, e, g)
    ensures g.p.kept in m.faces && g.p.doomed in m.faces && g.s5.now.index == m.index
  {
    StagedUntilRemoval(m, e, g);
  }

  lemma StagedEdgeKeys(m: Mesh, e: EdgeId, g: Stages)
    requires Staged(m, e, g)
    ensures g.s6.now.edges.Keys == m.edges.Keys - {e}
  {
    StagedUntilRemoval(m, e, g);
  }

  lemma StagedVertexKeys(m: Mesh, e: EdgeId, g: Stages)
    requires Staged(m, e, g)
    ensures g.s6.now.vertices.Keys == m.vertices.Keys
  {
    StagedUntilRemoval(m, e, g);
  }

  lemma StagedFaceKeys(m: Mesh, e: EdgeId, g: Stages)
    requires Staged(m, e, g)
    ensures g.s6.now.faces.Keys == m.faces.Keys - {g.p.doomed}
  {
    StagedUntilRemoval(m, e, g);
  }

  lemma StagedUntilRemoval(m: Mesh, e: EdgeId, g: Stages)
    requires Staged(m, e, g)
    ensures g.s4.now.faces == m.faces && g.s4.now.index == m.index
    ensures g.s4.now.vertices.Keys == m.vertices.Keys && g.s4.now.edges.Keys == m.edges.Keys
  {
    assert EdgesOnly(m, g.s1.now);
    assert EdgesOnly(g.s1.now, g.s2.now);
    assert VerticesOnly(g.s2.now, g.s3.now);
    assert EdgesOnly(g.s3.now, g.s4.now);
  }

  /** `undo` after a run gives back the mesh as observed before it: the same records, and the same faces indexed. */
  lemma RunUndo(m: Mesh, e: EdgeId)
    requires Octree.Valid(m.index) && Run(m, e).Ok?
    ensures var d := Run(m, e).value;
      && Octree.Valid(d.mesh.index) && AllReversible(d.actions)
      && RevertAll(d.mesh, d.actions).Ok? && ViewOf(RevertAll(d.mesh, d.actions).value) == ViewOf(m)
  {
    RunRecorded(m, e);
    UndoRestores(m, Run(m, e).value.actions);
  }

  /**
    `redo` after `undo` gives back the mesh as the run left it, and a
    second `undo` the mesh as it was before the run.
   */
  lemma RunRedo(m: Mesh, e: EdgeId)
    requires Octree.Valid(m.index) && Run(m, e).Ok?
    ensures var d := Run(m, e).value;
      && Octree.Valid(d.mesh.index) && AllReversible(d.actions) && RevertAll(d.mesh, d.actions).Ok?
      && var undone := RevertAll(d.mesh, d.actions).value;
         && ApplyAll(undone, d.actions).Ok? && ViewOf(ApplyAll(undone, d.actions).value) == ViewOf(d.mesh)
         && RevertAll(ApplyAll(undone, d.actions).value, d.actions).Ok?
         && ViewOf(RevertAll(ApplyAll(undone, d.actions).value, d.actions).value) == ViewOf(m)
  {
    RunRecorded(m, e);
    RunUndo(m, e);
    var d := Run(m, e).value;
    var undone := RevertAll(d.mesh, d.actions).value;
    ApplyAllRespectsView(m, undone, d.actions);
    var redone := ApplyAll(undone, d.actions).value;
    RevertAllRespectsView(redone, d.mesh, d.actions);
  }

  /** Changing only an edge's sibling links keeps where it sits around each face. */
  lemma AroundSameLinks(es: map<EdgeId, WingedEdge>, es': map<EdgeId, WingedEdge>, x: EdgeId, f: FaceId)
    requires x in es && x in es' && SameLinks(es[x], es'[x])
    ensures forall n :: NextAround(es, x, f, n) ==> NextAround(es', x, f, n)
    ensures forall n :: PrevAround(es, x, f, n) ==> PrevAround(es', x, f, n)
  {
  }

  /** None of the wings of w is the edge e itself. */
  predicate WingsElsewhere(w: WingedEdge, e: EdgeId) {
    w.leftPredecessor != Some(e) && w.leftSuccessor != Some(e) && w.rightPredecessor != Some(e) && w.rightSuccessor != Some(e)
  }

  /** Relinking leaves the edge's own record alone when none of its wings is the edge itself. */
  lemma RelinkKeepsEdge(s: Session, e: EdgeId, kept: FaceId)
    requires e in s.now.edges && WingsElsewhere(s.now.edges[e], e) && Relink(s, e, kept).Ok?
    ensures Relink(s, e, kept).value.now.edges[e] == s.now.edges[e]
  {
    var w := s.now.edges[e];
    var a := SetSuccessor(s, w.leftPredecessor, kept, w.rightSuccessor).value;
    assert a.now.edges[e] == w;
    var b := SetPredecessor(a, w.leftSuccessor, kept, w.rightPredecessor).value;
    assert b.now.edges[e] == w;
    var c := SetSuccessor(b, w.rightPredecessor, kept, w.leftSuccessor).value;
    assert c.now.edges[e] == w;
  }

  /**
    After a run whose edge has four distinct wings, the kept face's cycle
    goes from the edge's left predecessor straight on to its right
    successor, and from its right predecessor to its left successor —
    the edge is spliced out of both cycles, which are now one.
   */
  lemma RunRelinks(m: Mesh, e: EdgeId)
    requires Octree.Valid(m.index) && Run(m, e).Ok? && DistinctWings(m.edges[e], e)
    ensures var w := m.edges[e]; var kept := w.leftFace.value; var es := Run(m, e).value.mesh.edges;
      && NextAround(es, w.leftPredecessor.value, kept, w.rightSuccessor)
      && PrevAround(es, w.leftSuccessor.value, kept, w.rightPredecessor)
      && NextAround(es, w.rightPredecessor.value, kept, w.leftSuccessor)
      && PrevAround(es, w.rightSuccessor.value, kept, w.leftPredecessor)
  {
    var g := Phases(m, e).value;
    var w := m.edges[e];
    StagedRelinkRead(m, e, g);
    RelinkEffect(g.s1, e, g.p.kept);
    StagedTail(m, e, g);
    assert g.s3.now.edges == g.s2.now.edges;
    RelinksSurvive(g.s2.now.edges, g.s4.now.edges, g.s6.now.edges, w, e, g.p.kept);
  }

  /** The wings the relink phase reads are the edge's wings before the run. */
  lemma StagedRelinkRead(m: Mesh, e: EdgeId, g: Stages)
    requires Staged(m, e, g)
    ensures SameButFaces(m.edges[e], g.s1.now.edges[e])
  {
    MergeAroundKeepsLinks(Session(m, m, []), g.p.doomed, g.p.kept, g.p.start, g.p.start, 2 * |m.edges|, e);
  }

  /** The face references the merge phase leaves on the cycle it walked. */
  lemma StagedMergeRead(m: Mesh, e: EdgeId, g: Stages, cycle: seq<EdgeId>)
    requires Staged(m, e, g)
    requires EdgesAround(m.edges, g.p.doomed, g.p.start, g.p.start, 2 * |m.edges|) == Some(cycle) && NoDuplicates(cycle)
    ensures g.s1.now.edges.Keys == m.edges.Keys
    ensures forall y :: y in cycle ==>
      y in m.edges && SideOf(m.edges[y], g.p.doomed).Some? && FaceOn(g.s1.now.edges[y], SideOf(m.edges[y], g.p.doomed).value) == Some(g.p.kept)
  {
    FaceRefsMerged(Session(m, m, []), g.p.doomed, g.p.kept, g.p.start, 2 * |m.edges|, cycle);
  }

  /** The relink phase changes wings only. */
  lemma StagedWingsOnly(m: Mesh, e: EdgeId, g: Stages)
    requires Staged(m, e, g)
    ensures g.s2.now.edges.Keys == g.s1.now.edges.Keys
    ensures forall x :: x in g.s1.now.edges ==> SameButWings(g.s1.now.edges[x], g.s2.now.edges[x])
  {
  }

  /** The vertex and sibling phases change no edge field but the sibling links. */
  lemma StagedLinksOnly(m: Mesh, e: EdgeId, g: Stages)
    requires Staged(m, e, g)
    ensures g.s4.now.edges.Keys == g.s2.now.edges.Keys
    ensures forall x :: x in g.s2.now.edges ==> SameLinks(g.s2.now.edges[x], g.s4.now.edges[x])
  {
    assert g.s3.now.edges == g.s2.now.edges;
  }

  lemma StagedTail(m: Mesh, e: EdgeId, g: Stages)
    requires Staged(m, e, g)
    ensures e in g.s4.now.edges
    ensures g.s6.now.edges == g.s4.now.edges[e := g.s4.now.edges[e].(rightFace := None)] - {e}
  {
  }

  /** What the relink phase left around the kept face survives the later phases. */
  lemma RelinksSurvive(es2: map<EdgeId, WingedEdge>, es4: map<EdgeId, WingedEdge>, es: map<EdgeId, WingedEdge>, w: WingedEdge, e: EdgeId, kept: FaceId)
    requires DistinctWings(w, e)
    requires NextAround(es2, w.leftPredecessor.value, kept, w.rightSuccessor)
    requires PrevAround(es2, w.leftSuccessor.value, kept, w.rightPredecessor)
    requires NextAround(es2, w.rightPredecessor.value, kept, w.leftSuccessor)
    requires PrevAround(es2, w.rightSuccessor.value, kept, w.leftPredecessor)
    requires es4.Keys == es2.Keys && forall y :: y in es2 ==> SameLinks(es2[y], es4[y])
    requires e in es4 && es == es4[e := es4[e].(rightFace := None)] - {e}
    ensures NextAround(es, w.leftPredecessor.value, kept, w.rightSuccessor)
    ensures PrevAround(es, w.leftSuccessor.value, kept, w.rightPredecessor)
    ensures NextAround(es, w.rightPredecessor.value, kept, w.leftSuccessor)
    ensures PrevAround(es, w.rightSuccessor.value, kept, w.leftPredecessor)
  {
    var lp, ls, rp, rs := w.leftPredecessor.value, w.leftSuccessor.value, w.rightPredecessor.value, w.rightSuccessor.value;
    assert es[lp] == es4[lp] && es[ls] == es4[ls] && es[rp] == es4[rp] && es[rs] == es4[rs];
    AroundSameLinks(es2, es, lp, kept);
    AroundSameLinks(es2, es, ls, kept);
    AroundSameLinks(es2, es, rp, kept);
    AroundSameLinks(es2, es, rs, kept);
  }

  /**
    Lines 42-43 and 50, seen after the run: the first endpoint now names
    the left predecessor, the second the left successor (which wins when
    both endpoints are one vertex), and the kept face the left successor.
   */
  lemma RunRepoints(m: Mesh, e: EdgeId)
    requires Octree.Valid(m.index) && Run(m, e).Ok? && WingsElsewhere(m.edges[e], e)
    ensures var w := m.edges[e]; var p := Prepare(m, e).value; var m' := Run(m, e).value.mesh;
      && w.vertex1.Some? && w.vertex2.Some?
      && m'.vertices == m.vertices[w.vertex1.value := WingedVertex(w.leftPredecessor)][w.vertex2.value := WingedVertex(w.leftSuccessor)]
      && (p.kept != p.doomed ==> p.kept in m'.faces && m'.faces[p.kept] == WingedFace(w.leftSuccessor))
  {
    StagedRepoints(m, e, Phases(m, e).value);
  }

  lemma StagedRepoints(m: Mesh, e: EdgeId, g: Stages)
    requires Staged(m, e, g) && WingsElsewhere(m.edges[e], e)
    ensures var w := m.edges[e]; var m' := g.s6.now;
      && w.vertex1.Some? && w.vertex2.Some?
      && m'.vertices == m.vertices[w.vertex1.value := WingedVertex(w.leftPredecessor)][w.vertex2.value := WingedVertex(w.leftSuccessor)]
      && (g.p.kept != g.p.doomed ==> g.p.kept in m'.faces && m'.faces[g.p.kept] == WingedFace(w.leftSuccessor))
  {
    StagedEdgeRead(m, e, g);
    StagedVertices(m, e, g);
    StagedFaces(m, e, g);
    KeptFaceSurvives(m.edges[e], g.s2.now.edges[e], g.s4.now.edges[e],
                     g.s4.now.faces, g.s5.now.faces, g.s6.now.faces, g.p.kept, g.p.doomed);
  }

  /** Up to the sibling phase the edge's own record keeps its endpoints and wings. */
  lemma StagedEdgeRead(m: Mesh, e: EdgeId, g: Stages)
    requires Staged(m, e, g) && WingsElsewhere(m.edges[e], e)
    ensures SameButFaces(m.edges[e], g.s2.now.edges[e])
    ensures SameLinks(g.s2.now.edges[e], g.s4.now.edges[e])
    ensures g.s2.now.vertices == m.vertices
  {
    MergeAroundKeepsLinks(Session(m, m, []), g.p.doomed, g.p.kept, g.p.start, g.p.start, 2 * |m.edges|, e);
    assert WingsElsewhere(g.s1.now.edges[e], e);
    RelinkKeepsEdge(g.s1, e, g.p.kept);
    assert g.s3.now.edges == g.s2.now.edges;
  }

  /** The endpoints written by the vertex phase are what the run leaves. */
  lemma StagedVertices(m: Mesh, e: EdgeId, g: Stages)
    requires Staged(m, e, g)
    requires SameButFaces(m.edges[e], g.s2.now.edges[e]) && g.s2.now.vertices == m.vertices
    ensures var w := m.edges[e];
      && w.vertex1.Some? && w.vertex2.Some?
      && g.s6.now.vertices == m.vertices[w.vertex1.value := WingedVertex(w.leftPredecessor)][w.vertex2.value := WingedVertex(w.leftSuccessor)]
  {
    assert g.s4.now.vertices == g.s3.now.vertices;
  }

  /** The face records after the face phase and after the removals. */
  lemma StagedFaces(m: Mesh, e: EdgeId, g: Stages)
    requires Staged(m, e, g)
    ensures g.s5.now.faces == g.s4.now.faces[g.p.kept := WingedFace(g.s4.now.edges[e].leftSuccessor)][g.p.doomed := WingedFace(None)]
    ensures g.s6.now.faces == g.s5.now.faces - {g.p.doomed}
  {
  }

  /** The kept face's edge, written in the face phase, is the edge's left successor, and the removals leave it. */
  lemma KeptFaceSurvives(w: WingedEdge, w2: WingedEdge, w4: WingedEdge, f4: map<FaceId, WingedFace>,
                         f5: map<FaceId, WingedFace>, f6: map<FaceId, WingedFace>, kept: FaceId, doomed: FaceId)
    requires SameButFaces(w, w2) && SameLinks(w2, w4)
    requires f5 == f4[kept := WingedFace(w4.leftSuccessor)][doomed := WingedFace(None)]
    requires f6 == f5 - {doomed}
    ensures kept != doomed ==> kept in f6 && f6[kept] == WingedFace(w.leftSuccessor)
  {
  }

  /**
    Lines 45-48, seen after the run: the edge's previous sibling no longer
    has a next sibling, and its next sibling no longer a previous one
    (unless the edge was its own sibling).
   */
  lemma RunSiblings(m: Mesh, e: EdgeId)
    requires Octree.Valid(m.index) && Run(m, e).Ok?
    ensures var w := m.edges[e]; var es := Run(m, e).value.mesh.edges;
      && (w.previousSibling.Some? && w.previousSibling.value != e ==>
            w.previousSibling.value in es && es[w.previousSibling.value].nextSibling.None?)
      && (w.nextSibling.Some? && w.nextSibling.value != e && w.previousSibling != Some(e) ==>
            w.nextSibling.value in es && es[w.nextSibling.value].previousSibling.None?)
  {
    var g := Phases(m, e).value;
    var w := m.edges[e];
    StagedSiblingsRead(m, e, g);
    StagedTail(m, e, g);
    if w.previousSibling.Some? && w.previousSibling.value != e {
      SiblingsSurvive(g.s4.now.edges, g.s6.now.edges, e, w.previousSibling.value);
    }
    if w.nextSibling.Some? && w.nextSibling.value != e && w.previousSibling != Some(e) {
      SiblingsSurvive(g.s4.now.edges, g.s6.now.edges, e, w.nextSibling.value);
    }
  }

  /** The sibling links the sibling phase reads are the edge's links before the run. */
  lemma StagedSiblingsRead(m: Mesh, e: EdgeId, g: Stages)
    requires Staged(m, e, g)
    ensures e in g.s3.now.edges
    ensures g.s3.now.edges[e].previousSibling == m.edges[e].previousSibling
    ensures g.s3.now.edges[e].nextSibling == m.edges[e].nextSibling
  {
    MergeAroundKeepsLinks(Session(m, m, []), g.p.doomed, g.p.kept, g.p.start, g.p.start, 2 * |m.edges|, e);
    assert SameButWings(g.s1.now.edges[e], g.s2.now.edges[e]);
  }

  /** What the sibling phase cleared stays cleared. */
  lemma SiblingsSurvive(es4: map<EdgeId, WingedEdge>, es: map<EdgeId, WingedEdge>, e: EdgeId, q: EdgeId)
    requires q != e && q in es4 && e in es4 && es == es4[e := es4[e].(rightFace := None)] - {e}
    ensures q in es && es[q] == es4[q]
  {
  }

  // ---------------------------------------------------------------------
  // The walk's bound, and what it leaves behind

  /** A walk that closes within some bound closes, the same way, within any bound at least its length. */
  lemma {:induction false} EdgesAroundFuel(es: map<EdgeId, WingedEdge>, f: FaceId, start: EdgeId, current: EdgeId, fuel: nat, fuel': nat)
    requires EdgesAround(es, f, start, current, fuel).Some?
    requires fuel' >= |EdgesAround(es, f, start, current, fuel).value|
    ensures EdgesAround(es, f, start, current, fuel') == EdgesAround(es, f, start, current, fuel)
    decreases fuel
  {
    var side := SideOf(es[current], f);
    var next := SuccessorOn(es[current], side.value);
    if next != Some(start) {
      EdgesAroundFuel(es, f, start, next.value, fuel - 1, fuel' - 1);
    }
  }

  /** A duplicate-free sequence drawn from a set is no longer than the set is large. */
  lemma {:induction false} DistinctFits(xs: seq<EdgeId>, keys: set<EdgeId>)
    requires NoDuplicates(xs) && forall i :: 0 <= i < |xs| ==> xs[i] in keys
    ensures |xs| <= |keys|
    decreases |xs|
  {
    if |xs| > 0 {
      TailDistinct(xs);
      var rest := xs[1..];
      forall i | 0 <= i < |rest| ensures rest[i] in keys - {xs[0]} {
        assert rest[i] == xs[i + 1];
      }
      DistinctFits(rest, keys - {xs[0]});
    }
  }

  /**
    The run's bound never cuts a simple cycle short: a face whose edges
    form a duplicate-free cycle is walked in full within twice as many
    steps as the mesh has edges (it needs no more than one per edge).
   */
  lemma WalkFuelSuffices(es: map<EdgeId, WingedEdge>, f: FaceId, start: EdgeId, fuel: nat, cycle: seq<EdgeId>)
    requires EdgesAround(es, f, start, start, fuel) == Some(cycle) && NoDuplicates(cycle)
    ensures EdgesAround(es, f, start, start, 2 * |es|) == Some(cycle)
  {
    DistinctFits(cycle, es.Keys);
    EdgesAroundFuel(es, f, start, start, fuel, 2 * |es|);
  }

  /**
    A run never gives up on the walk when the edge has two different
    faces: any failure it reports is one the source would also meet.
   */
  lemma RunWalkCloses(m: Mesh, e: EdgeId)
    requires Octree.Valid(m.index)
    requires e in m.edges && m.edges[e].leftFace != m.edges[e].rightFace
    ensures Run(m, e) != Err(Unclosed)
  {
    var plan := Prepare(m, e);
    if plan.Ok? {
      WalkBoundSuffices(Session(m, m, []), plan.value.doomed, plan.value.kept, plan.value.start, 0);
    }
  }

  /** Faces written by the walk are not written again, except on the edge itself. */
  lemma FaceRefsSurvive(es1: map<EdgeId, WingedEdge>, es2: map<EdgeId, WingedEdge>, es4: map<EdgeId, WingedEdge>, es: map<EdgeId, WingedEdge>, e: EdgeId, y: EdgeId)
    requires y in es1 && y != e
    requires es2.Keys == es1.Keys && forall x :: x in es1 ==> SameButWings(es1[x], es2[x])
    requires es4.Keys == es2.Keys && forall x :: x in es2 ==> SameLinks(es2[x], es4[x])
    requires e in es4 && es == es4[e := es4[e].(rightFace := None)] - {e}
    ensures y in es && es[y].leftFace == es1[y].leftFace && es[y].rightFace == es1[y].rightFace
  {
    assert es[y] == es4[y];
    assert SameButWings(es1[y], es2[y]) && SameLinks(es2[y], es4[y]);
  }

  /**
    Lines 26-30, seen after the run: when the deleted face's edges form a
    simple cycle, every one of them but the deleted edge now has the kept
    face where the deleted face was.
   */
  lemma RunFaceRefs(m: Mesh, e: EdgeId, fuel: nat, cycle: seq<EdgeId>)
    requires Octree.Valid(m.index) && Run(m, e).Ok?
    requires var p := Prepare(m, e).value;
      EdgesAround(m.edges, p.doomed, p.start, p.start, fuel) == Some(cycle) && NoDuplicates(cycle)
    ensures var p := Prepare(m, e).value; var es := Run(m, e).value.mesh.edges;
      forall y :: y in cycle && y != e ==>
        && y in m.edges && SideOf(m.edges[y], p.doomed).Some? && y in es
        && FaceOn(es[y], SideOf(m.edges[y], p.doomed).value) == Some(p.kept)
  {
    var g := Phases(m, e).value;
    WalkFuelSuffices(m.edges, g.p.doomed, g.p.start, fuel, cycle);
    StagedFaceRefs(m, e, g, cycle);
  }

  lemma StagedFaceRefs(m: Mesh, e: EdgeId, g: Stages, cycle: seq<EdgeId>)
    requires Staged(m, e, g)
    requires EdgesAround(m.edges, g.p.doomed, g.p.start, g.p.start, 2 * |m.edges|) == Some(cycle) && NoDuplicates(cycle)
    ensures var es := g.s6.now.edges;
      forall y :: y in cycle && y != e ==>
        && y in m.edges && SideOf(m.edges[y], g.p.doomed).Some? && y in es
        && FaceOn(es[y], SideOf(m.edges[y], g.p.doomed).value) == Some(g.p.kept)
  {
    StagedMergeRead(m, e, g, cycle);
    StagedWingsOnly(m, e, g);
    StagedLinksOnly(m, e, g);
    StagedTail(m, e, g);
    FaceRefsKept(m.edges, g.s1.now.edges, g.s2.now.edges, g.s4.now.edges, g.s6.now.edges, e, g.p.doomed, g.p.kept, cycle);
  }

  lemma FaceRefsKept(es0: map<EdgeId, WingedEdge>, es1: map<EdgeId, WingedEdge>, es2: map<EdgeId, WingedEdge>,
                     es4: map<EdgeId, WingedEdge>, es: map<EdgeId, WingedEdge>, e: EdgeId, doomed: FaceId, kept: FaceId, cycle: seq<EdgeId>)
    requires es1.Keys == es0.Keys
    requires forall y :: y in cycle ==> y in es0 && SideOf(es0[y], doomed).Some? && FaceOn(es1[y], SideOf(es0[y], doomed).value) == Some(kept)
    requires es2.Keys == es1.Keys && forall x :: x in es1 ==> SameButWings(es1[x], es2[x])
    requires es4.Keys == es2.Keys && forall x :: x in es2 ==> SameLinks(es2[x], es4[x])
    requires e in es4 && es == es4[e := es4[e].(rightFace := None)] - {e}
    ensures forall y :: y in cycle && y != e ==>
        && y in es0 && SideOf(es0[y], doomed).Some? && y in es
        && FaceOn(es[y], SideOf(es0[y], doomed).value) == Some(kept)
  {
    forall y | y in cycle && y != e
      ensures y in es && FaceOn(es[y], SideOf(es0[y], doomed).value) == Some(kept)
    {
      FaceRefsSurvive(es1, es2, es4, es, e, y);
    }
  }
}

=== FILE: geometry.dfy ===
/**
  Points and axis-aligned cubes. The source works on single-precision
  vectors; the model uses exact reals, so no rounding is represented.
 */
module Geometry {

  /** A point or an offset in three dimensions. */
  datatype Vec3 = Vec3(x: real, y: real, z: real)

  function Add(a: Vec3, b: Vec3): Vec3 {
    Vec3(a.x + b.x, a.y + b.y, a.z + b.z)
  }

  /** The midpoint of a and b. */
  function Mid(a: Vec3, b: Vec3): Vec3 {
    Vec3((a.x + b.x) * 0.5, (a.y + b.y) * 0.5, (a.z + b.z) * 0.5)
  }

  /** v lies in the closed interval c - w/2 .. c + w/2. */
  predicate InInterval(v: real, c: real, w: real) {
    c - w * 0.5 <= v <= c + w * 0.5
  }

  /** v lies in the closed cube with center c and edge length w. */
  predicate InCube(v: Vec3, c: Vec3, w: real) {
    InInterval(v.x, c.x, w) && InInterval(v.y, c.y, w) && InInterval(v.z, c.z, w)
  }

  /** Componentwise a <= b. */
  predicate AllLessEq(a: Vec3, b: Vec3) {
    a.x <= b.x && a.y <= b.y && a.z <= b.z
  }
}

=== FILE: growth.dfy ===
/**
  Growing the root (`Octree::Impl::makeParent`): a root that does not
  contain a face gets a parent of twice its width, shifted half a root
  width towards the face on every axis, in which the old root takes the
  place of one of the eight children `makeChildren` creates.

  The source repeats this until the root contains the face and shows no
  bound for the repetition. `GrowthMeasure` is one: it is zero exactly when
  the root contains the face, and every growth step lowers it.
 */
module Growth {
  import opened Geometry
  import opened Outcomes
  import opened OctreeNode
  import opened NodeInsertion

  // ---------------------------------------------------------------------
  // Growth steps

  /** One coordinate of the new root's center: half a root width towards the face. */
  function ParentCoord(c: real, v: real, half: real): real {
    if c < v then c + half else c - half
  }

  /** The new root's center: half a root width towards the face on every axis. */
  function ParentCenter(c: Vec3, v: Vec3, half: real): Vec3 {
    Vec3(ParentCoord(c.x, v.x, half), ParentCoord(c.y, v.y, half), ParentCoord(c.z, v.z, half))
  }

  /**
    The slot of the old root among the new root's children: the old root
    lies on the negative side of an axis exactly when the face lies beyond
    it on that axis.
   */
  function ParentIndex(c: Vec3, v: Vec3): nat {
    (if c.x < v.x then 0 else 4) + (if c.y < v.y then 0 else 2) + (if c.z < v.z then 0 else 1)
  }

  /**
    `makeParent`: the new root gets id next, its eight children the ids
    next + 1 .. next + 8, and the child at `ParentIndex` is then replaced
    by the old root.
   */
  function MakeParent(root: Node, f: Face, next: NodeId): (p: Node)
    requires WellFormed(root) && IdsBelow(root, next)
    ensures var k := ParentIndex(root.center, f.center);
      && k < 8 && |p.children| == 8 && p.children[k] == root
      && ChildPlaced(p, k, root)
      && (forall j :: 0 <= j < 8 && j != k ==> IsEmpty(p.children[j]))
    ensures p.id == next && p.faces == [] && p.width == root.width * 2.0 && p.depth == root.depth - 1
    ensures p.center == ParentCenter(root.center, f.center, root.width * 0.5)
    ensures WellFormed(p)
    ensures Faces(p) == Faces(root)
    ensures Fresh(root, next, p, next + 9)
    ensures Tidy(root) && Faces(root) != multiset{} ==> Tidy(p)
  {
    var center := ParentCenter(root.center, f.center, root.width * 0.5);
    var k := ParentIndex(root.center, f.center);
    var shell := MakeChildren(Leaf(next, center, root.width * 2.0, root.depth - 1), next + 1);
    ParentFacts(root, f, next, shell);
    shell.(children := shell.children[k := root])
  }

  lemma ParentFacts(root: Node, f: Face, next: NodeId, shell: Node)
    requires WellFormed(root) && IdsBelow(root, next)
    requires shell == MakeChildren(Leaf(next, ParentCenter(root.center, f.center, root.width * 0.5),
                                        root.width * 2.0, root.depth - 1), next + 1)
    ensures var k := ParentIndex(root.center, f.center);
      var p := shell.(children := shell.children[k := root]);
      && k < 8
      && ChildPlaced(p, k, root)
      && WellFormed(p)
      && Faces(p) == Faces(root)
      && Fresh(root, next, p, next + 9)
      && (Tidy(root) && Faces(root) != multiset{} ==> Tidy(p))
  {
    var k := ParentIndex(root.center, f.center);
    var p := shell.(children := shell.children[k := root]);
    OldRootPlaced(root.center, f.center, root.width);
    assert ChildPlaced(p, k, root);
    ShellWellFormed(Leaf(next, ParentCenter(root.center, f.center, root.width * 0.5), root.width * 2.0, root.depth - 1), next + 1);
    ReplaceWellFormed(shell, k, root);
    ParentFaces(root, shell, k);
    ParentIds(root, next, shell, k);
    if Tidy(root) && Faces(root) != multiset{} {
      ParentTidy(root, shell, k);
    }
  }

  /** The children `makeChildren` gives a bare leaf of positive width make a well-formed node. */
  lemma ShellWellFormed(n: Node, next: NodeId)
    requires n.width > 0.0 && n.faces == [] && n.children == []
    ensures WellFormed(MakeChildren(n, next))
    ensures var cs := MakeChildren(n, next).children;
      forall j :: 0 <= j < 8 ==> IsEmpty(cs[j]) && cs[j].id == next + j
  {
    var shell := MakeChildren(n, next);
    forall j | 0 <= j < 8 ensures ChildPlaced(shell, j, shell.children[j]) && WellFormed(shell.children[j]) {
    }
  }

  /** Putting a tidy root with faces among empty leaves gives a tidy node. */
  lemma ParentTidy(root: Node, shell: Node, k: nat)
    requires k < |shell.children| && Tidy(root) && Faces(root) != multiset{}
    requires forall j :: 0 <= j < |shell.children| ==> IsEmpty(shell.children[j])
    ensures Tidy(shell.(children := shell.children[k := root]))
  {
    var p := shell.(children := shell.children[k := root]);
    forall j | 0 <= j < |p.children| ensures Tidy(p.children[j]) {
      if j != k {
        assert IsEmpty(p.children[j]);
      }
    }
    GatherAllIncludes(p.children, k, FaceBag);
    var g :| g in Faces(root);
    assert g in GatherAll(p.children, FaceBag);
  }

  /** The new root holds exactly the old root's faces. */
  lemma ParentFaces(root: Node, shell: Node, k: nat)
    requires k < |shell.children| && shell.faces == []
    requires forall j :: 0 <= j < |shell.children| ==> IsEmpty(shell.children[j])
    ensures Faces(shell.(children := shell.children[k := root])) == Faces(root)
  {
    var p := shell.(children := shell.children[k := root]);
    var old' := shell.children[k];
    ReplaceChild(shell, k, root, FaceBag);
    GatherAllBareLeaves(shell.children, FaceBag);
    assert Faces(shell) == multiset(shell.faces) + GatherAll(shell.children, FaceBag);
    assert Faces(old') == multiset{} by {
      assert old'.faces == [] && old'.children == [];
      assert Faces(old') == multiset(old'.faces) + GatherAll(old'.children, FaceBag);
    }
    var a := Faces(p);
    assert a + multiset{} == multiset{} + Faces(root);
    assert a + multiset{} == a;
    assert multiset{} + Faces(root) == Faces(root);
  }

  /** The ids of the new root: the old root's, the new root's own and those of its seven new children. */
  lemma ParentIds(root: Node, next: NodeId, shell: Node, k: nat)
    requires IdsBelow(root, next) && k < 8
    requires |shell.children| == 8 && shell.id == next
    requires forall j :: 0 <= j < 8 ==> IsEmpty(shell.children[j]) && shell.children[j].id == next + 1 + j
    ensures Fresh(root, next, shell.(children := shell.children[k := root]), next + 9)
  {
    var p := shell.(children := shell.children[k := root]);
    var old' := shell.children[k];
    var own: NodeId := next + 1 + k;
    ReplaceChild(shell, k, root, IdBag);
    LeafIds(shell.children, next + 1);
    var s := NodeIds(shell);
    assert s == multiset{next} + GatherAll(shell.children, IdBag);
    assert NodeIds(old') == multiset{own} by {
      assert old'.children == [];
      assert NodeIds(old') == multiset{old'.id} + GatherAll(old'.children, IdBag);
    }
    var a, r := NodeIds(p), NodeIds(root);
    assert a + multiset{own} == s + r;
    ShellCounts(a, r, s, GatherAll(shell.children, IdBag), next, own);
  }

  /** Counting the ids after the swap: a plus the dropped leaf's id is the shell's ids plus the old root's. */
  lemma ShellCounts(a: multiset<NodeId>, r: multiset<NodeId>, s: multiset<NodeId>, leaves: multiset<NodeId>,
                    next: NodeId, own: NodeId)
    requires next < own < next + 9
    requires forall id :: id in r ==> id < next
    requires s == multiset{next} + leaves
    requires forall id: NodeId :: leaves[id] == (if next + 1 <= id < next + 9 then 1 else 0)
    requires a + multiset{own} == s + r
    ensures forall id: NodeId :: id < next ==> a[id] == r[id]
    ensures forall id: NodeId :: next <= id ==> a[id] <= 1
    ensures forall id :: id in a ==> id < next + 9
  {
    forall id: NodeId ensures a[id] == r[id] + (if next <= id < next + 9 && id != own then 1 else 0) {
      assert (a + multiset{own})[id] == (s + r)[id];
      if next <= id {
        assert id !in r;
      }
    }
    forall id | id in a ensures id < next + 9 {
      if id !in r {
        assert a[id] > 0;
      }
    }
  }

  /** The old root's center and width are those of the slot it takes. */
  lemma OldRootPlaced(c: Vec3, v: Vec3, w: real)
    ensures ParentIndex(c, v) < 8
    ensures OctantCenter(ParentCenter(c, v, w * 0.5), w * 2.0, ParentIndex(c, v)) == c
  {
    var k := ParentIndex(c, v);
    assert k / 4 % 2 == 1 <==> !(c.x < v.x);
    assert k / 2 % 2 == 1 <==> !(c.y < v.y);
    assert k % 2 == 1 <==> !(c.z < v.z);
  }

  // ---------------------------------------------------------------------
  // The growth measure

  function Abs(d: real): real {
    if d < 0.0 then -d else d
  }

  /** Roughly how many root widths separate the face's centroid from the cube on one axis. */
  function AxisGap(d: real, w: real): nat
    requires w > 0.0
  {
    if Abs(d) <= w * 0.5 then 0 else (Abs(d) / w).Floor + 1
  }

  /** Roughly how many times the face is wider than the root. */
  function WidthGap(fw: real, w: real): nat
    requires w > 0.0
  {
    if fw <= w then 0 else (fw / w).Floor
  }

  /** How far the root is from containing f. */
  function GrowthMeasure(n: Node, f: Face): nat
    requires n.width > 0.0
  {
    MeasureAt(f, n.center, n.width)
  }

  /** How far the cube with center c and width w is from containing f. */
  function MeasureAt(f: Face, c: Vec3, w: real): nat
    requires w > 0.0
  {
    AxisGap(f.center.x - c.x, w) + AxisGap(f.center.y - c.y, w) + AxisGap(f.center.z - c.z, w) + WidthGap(f.width, w)
  }

  /** The measure is zero exactly for a root that contains the face. */
  lemma GrowthMeasureZero(n: Node, f: Face)
    requires n.width > 0.0
    ensures GrowthMeasure(n, f) == 0 <==> Contains(n, f)
  {
    MeasureAtZero(f, n.center, n.width);
  }

  lemma MeasureAtZero(f: Face, c: Vec3, w: real)
    requires w > 0.0
    ensures MeasureAt(f, c, w) == 0 <==> InCube(f.center, c, w) && f.width <= w
  {
    RatioFloorPositive(f.width, w);
  }

  lemma RatioFloorPositive(a: real, w: real)
    requires w > 0.0
    ensures a > w ==> (a / w).Floor >= 1
  {
    if a > w {
      assert (a / w) * w == a;
      assert a / w > 1.0;
    }
  }

  lemma FloorMono(a: real, b: real)
    requires a <= b
    ensures a.Floor <= b.Floor
  {
  }

  lemma FloorMinusOne(a: real)
    ensures (a - 1.0).Floor == a.Floor - 1
  {
  }

  lemma ScaleMono(a: real, b: real, w: real)
    requires a <= b && w > 0.0
    ensures a * w <= b * w
  {
    assert b * w - a * w == (b - a) * w;
  }

  /** A quotient exceeds k when the dividend exceeds k times the divisor. */
  lemma RatioAbove(d: real, w: real, k: real)
    requires w > 0.0 && d > k * w
    ensures d / w > k
  {
    var x := d / w;
    assert x * w == d;
    if x <= k {
      ScaleMono(x, k, w);
    }
  }

  /** Dividing a product by one of its factors. */
  lemma DivideProduct(a: real, b: real, c: real)
    requires b > 0.0 && a * b == c
    ensures c / b == a
  {
  }

  /** One growth step never widens the gap on an axis, and narrows a positive one. */
  lemma AxisGapShrinks(c: real, v: real, w: real)
    requires w > 0.0
    ensures var c' := ParentCoord(c, v, w * 0.5);
      && AxisGap(v - c', w * 2.0) <= AxisGap(v - c, w)
      && (AxisGap(v - c, w) > 0 ==> AxisGap(v - c', w * 2.0) < AxisGap(v - c, w))
  {
    var c' := ParentCoord(c, v, w * 0.5);
    var d, d' := Abs(v - c), Abs(v - c');
    if d > w * 0.5 {
      assert d' == d - w * 0.5;
      if d' > w {
        var x := d / w;
        assert x * w == d;
        RatioAbove(d, w, 1.5);
        DivideProduct(x * 0.5 - 0.25, w * 2.0, d') by {
          assert (x * 0.5 - 0.25) * (w * 2.0) == x * w - w * 0.5;
        }
        FloorMono(x * 0.5 - 0.25, x - 1.0);
        FloorMinusOne(x);
      }
    }
  }

  /** One growth step never widens the width gap, and narrows a positive one. */
  lemma WidthGapShrinks(fw: real, w: real)
    requires w > 0.0
    ensures WidthGap(fw, w * 2.0) <= WidthGap(fw, w)
    ensures WidthGap(fw, w) > 0 ==> WidthGap(fw, w * 2.0) < WidthGap(fw, w)
  {
    if w < fw {
      RatioFloorPositive(fw, w);
      if w * 2.0 < fw {
        HalfRatio(fw, w);
        FloorHalfLess(fw / w);
      }
    }
  }

  lemma HalfRatio(fw: real, w: real)
    requires w > 0.0 && w * 2.0 < fw
    ensures fw / (w * 2.0) == (fw / w) * 0.5
    ensures fw / w > 2.0
  {
    var y := fw / w;
    assert y * w == fw;
    DivideProduct(y * 0.5, w * 2.0, fw);
    if y <= 2.0 {
      ScaleMono(y, 2.0, w);
    }
  }

  lemma FloorHalfLess(y: real)
    requires y > 2.0
    ensures (y * 0.5).Floor < y.Floor
  {
    FloorMono(y * 0.5, y - 1.0);
    FloorMinusOne(y);
  }

  /** Growing a root that does not contain f brings it strictly closer to containing f. */
  lemma GrowthProgress(root: Node, f: Face, p: Node)
    requires root.width > 0.0 && !Contains(root, f)
    requires p.center == ParentCenter(root.center, f.center, root.width * 0.5) && p.width == root.width * 2.0
    ensures GrowthMeasure(p, f) < GrowthMeasure(root, f)
  {
    FrameProgress(f, root.center, root.width);
  }

  /** The measure drops from a cube that misses f to the cube `makeParent` puts around it. */
  lemma FrameProgress(f: Face, c: Vec3, w: real)
    requires w > 0.0 && !(InCube(f.center, c, w) && f.width <= w)
    ensures MeasureAt(f, ParentCenter(c, f.center, w * 0.5), w * 2.0) < MeasureAt(f, c, w)
  {
    MeasureAtZero(f, c, w);
    AxisGapShrinks(c.x, f.center.x, w);
    AxisGapShrinks(c.y, f.center.y, w);
    AxisGapShrinks(c.z, f.center.z, w);
    WidthGapShrinks(f.width, w);
  }

  // ---------------------------------------------------------------------
  // Insertion with growth

  /**
    The recursion of the tree-level `insertFace` once a root exists: grow
    until the root contains f, then insert at the root.
   */
  function GrowAndInsert(root: Node, f: Face, next: NodeId): (r: Placement)
    requires WellFormed(root) && IdsBelow(root, next) && f.width > 0.0
    ensures WellFormed(r.node) && Contains(r.node, f)
    ensures Faces(r.node) == Faces(root) + multiset{f}
    ensures f !in Faces(root) ==> HolderOf(r.node, f) == Some(r.holder)
    ensures Fresh(root, next, r.node, r.next)
    ensures Tidy(root) && (Contains(root, f) || Faces(root) != multiset{}) ==> Tidy(r.node)
    ensures Contains(root, f) ==> SameFrame(r.node, root)
    ensures r.node.width >= root.width
    decreases GrowthMeasure(root, f)
  {
    if Contains(root, f) then
      NodeInsert(root, f, next)
    else
      var p := MakeParent(root, f, next);
      GrowthProgress(root, f, p);
      var r := GrowAndInsert(p, f, next + 9);
      FreshTrans(root, next, p, next + 9, r.node, r.next);
      r
  }
}

=== FILE: node_delete.dfy ===
/**
  Node-level deletion (`OctreeNode::Impl::deleteFace` with
  `childEmptyNotification`) and the tree-level `shrinkRoot`.

  In the source a node that becomes empty notifies its parent, which drops
  all of its children once every one of them is empty and, if that leaves
  it empty in turn, notifies its own parent. Here the same chain runs on
  the way back up the recursion: after the child holding the face has
  been updated, the parent is notified exactly when that child is empty.
 */
module NodeDeletion {
  import opened Outcomes
  import opened OctreeNode

  /** The position of the first occurrence of x in s. */
  function IndexOf(s: seq<Face>, x: Face): (k: nat)
    requires x in s
    ensures k < |s| && s[k] == x && x !in s[..k]
  {
    if s[0] == x then 0
    else
      var k := 1 + IndexOf(s[1..], x);
      assert s[..k] == [s[0]] + s[1..][..k - 1];
      k
  }

  /**
    s without its first occurrence of x, the others in their order: the
    list erase of the face the node holds.
   */
  function RemoveFirst(s: seq<Face>, x: Face): (r: seq<Face>)
    requires x in s
    ensures |r| == |s| - 1
    ensures multiset(r) == multiset(s) - multiset{x}
    ensures forall j :: 0 <= j < IndexOf(s, x) ==> r[j] == s[j]
    ensures forall j :: IndexOf(s, x) <= j < |r| ==> r[j] == s[j + 1]
  {
    var k := IndexOf(s, x);
    DropAt(s, k);
    s[..k] + s[k + 1..]
  }

  /** Dropping the element at k leaves the others, in order, and takes one copy of it from the bag. */
  lemma DropAt(s: seq<Face>, k: nat)
    requires k < |s|
    ensures var r := s[..k] + s[k + 1..];
      && |r| == |s| - 1
      && multiset(r) == multiset(s) - multiset{s[k]}
      && (forall j :: 0 <= j < k ==> r[j] == s[j])
      && (forall j :: k <= j < |r| ==> r[j] == s[j + 1])
  {
    assert s == s[..k] + [s[k]] + s[k + 1..];
    assert multiset(s) == multiset(s[..k]) + multiset{s[k]} + multiset(s[k + 1..]);
  }

  /** The index of the first child whose subtree stores f. */
  function FirstHolding(cs: seq<Node>, f: Face): (i: nat)
    requires f in GatherAll(cs, FaceBag)
    ensures i < |cs| && f in Faces(cs[i])
    ensures forall j :: 0 <= j < i ==> f !in Faces(cs[j])
    decreases |cs|
  {
    var l := |cs| - 1;
    if f in GatherAll(cs[..l], FaceBag) then
      var i := FirstHolding(cs[..l], f);
      PrefixAgrees(cs, l);
      i
    else
      LastHolds(cs, f);
      l
  }

  lemma PrefixAgrees(cs: seq<Node>, l: nat)
    requires l <= |cs|
    ensures forall j :: 0 <= j < l ==> cs[..l][j] == cs[j]
  {
  }

  /** When the children before the last do not store f, the last one does and no earlier one does. */
  lemma LastHolds(cs: seq<Node>, f: Face)
    requires f in GatherAll(cs, FaceBag) && |cs| > 0
    requires f !in GatherAll(cs[..|cs| - 1], FaceBag)
    ensures f in Faces(cs[|cs| - 1])
    ensures forall j :: 0 <= j < |cs| - 1 ==> f !in Faces(cs[j])
  {
    var l := |cs| - 1;
    assert GatherAll(cs, FaceBag) == GatherAll(cs[..l], FaceBag) + Faces(cs[l]);
    GatherAllIncludesAll(cs[..l], FaceBag);
    forall j | 0 <= j < l ensures f !in Faces(cs[j]) {
      assert cs[..l][j] == cs[j];
    }
  }

  /** A node with nothing in it contributes no faces. */
  lemma EmptyHasNoFaces(n: Node)
    requires IsEmpty(n)
    ensures Faces(n) == multiset{}
  {
    assert n.faces == [] && n.children == [];
    assert Faces(n) == multiset(n.faces) + GatherAll(n.children, FaceBag);
  }

  /** When every node but the k-th yields nothing, the joint bag is the k-th node's bag. */
  lemma {:induction false} GatherAllOnly<T>(cs: seq<Node>, k: nat, local: Node -> multiset<T>)
    requires k < |cs|
    requires forall j :: 0 <= j < |cs| && j != k ==> Gather(cs[j], local) == multiset{}
    ensures GatherAll(cs, local) == Gather(cs[k], local)
    decreases |cs|
  {
    var l := |cs| - 1;
    if k == l {
      GatherAllNothing(cs[..l], local);
    } else {
      assert forall j :: 0 <= j < l ==> cs[..l][j] == cs[j];
      GatherAllOnly(cs[..l], k, local);
    }
  }

  /** Nodes that each yield nothing jointly yield nothing. */
  lemma {:induction false} GatherAllNothing<T>(cs: seq<Node>, local: Node -> multiset<T>)
    requires forall j :: 0 <= j < |cs| ==> Gather(cs[j], local) == multiset{}
    ensures GatherAll(cs, local) == multiset{}
    decreases |cs|
  {
    if |cs| > 0 {
      var l := |cs| - 1;
      assert forall j :: 0 <= j < l ==> cs[..l][j] == cs[j];
      GatherAllNothing(cs[..l], local);
    }
  }

  /** A non-empty tidy node stores at least one face. */
  lemma TidyNonEmptyHasFaces(n: Node)
    requires Tidy(n) && !IsEmpty(n)
    ensures Faces(n) != multiset{}
  {
    if Faces(n) == multiset{} {
      TidyWithoutFacesIsEmpty(n);
    }
  }

  // ---------------------------------------------------------------------
  // Deletion

  /**
    `childEmptyNotification` without the upward call: the children are
    dropped when every one of them is empty, otherwise nothing changes.
   */
  function ChildEmptyNotification(n: Node): (r: Node)
    ensures r.id == n.id && r.center == n.center && r.width == n.width && r.depth == n.depth
    ensures r.faces == n.faces
    ensures r.children == [] <==> forall j :: 0 <= j < |n.children| ==> IsEmpty(n.children[j])
    ensures r.children != [] ==> r == n
    ensures Faces(r) == Faces(n)
    ensures NodeIds(r) <= NodeIds(n)
  {
    if forall j :: 0 <= j < |n.children| ==> IsEmpty(n.children[j]) then
      forall j | 0 <= j < |n.children| ensures Gather(n.children[j], FaceBag) == multiset{} {
        EmptyHasNoFaces(n.children[j]);
      }
      GatherAllNothing(n.children, FaceBag);
      var r := n.(children := []);
      assert Faces(r) == multiset(n.faces) + GatherAll(r.children, FaceBag);
      assert Gather(r, IdBag) == IdBag(r) + GatherAll(r.children, IdBag);
      assert NodeIds(r) == multiset{n.id};
      assert NodeIds(n) == multiset{n.id} + GatherAll(n.children, IdBag);
      r
    else
      n
  }

  /**
    `deleteFace` of the node holding f, reached from n: f leaves the face
    list of the first node, in pre-order, that holds it, and every node on
    the way back up is notified while the node below it is empty.
   */
  function NodeDelete(n: Node, f: Face): (r: Node)
    requires f in Faces(n)
    ensures SameFrame(r, n)
    ensures Faces(r) == Faces(n) - multiset{f}
    ensures NodeIds(r) <= NodeIds(n)
    ensures WellFormed(n) ==> WellFormed(r)
    ensures Tidy(n) ==> Tidy(r)
    ensures f in n.faces ==> r == n.(faces := RemoveFirst(n.faces, f))
    decreases n
  {
    if f in n.faces then
      DeleteHere(n, f);
      n.(faces := RemoveFirst(n.faces, f))
    else
      var i := FirstHolding(n.children, f);
      var c := NodeDelete(n.children[i], f);
      DeleteBelow(n, i, c, f);
      Notify(n.(children := n.children[i := c]), i)
  }

  /** The notification a parent receives when its child i has become empty. */
  function Notify(m: Node, i: nat): (r: Node)
    requires i < |m.children|
    ensures r == (if IsEmpty(m.children[i]) then ChildEmptyNotification(m) else m)
  {
    if IsEmpty(m.children[i]) then ChildEmptyNotification(m) else m
  }

  /** Deleting from the node's own face list. */
  lemma DeleteHere(n: Node, f: Face)
    requires f in n.faces
    ensures var r := n.(faces := RemoveFirst(n.faces, f));
      && Faces(r) == Faces(n) - multiset{f}
      && NodeIds(r) == NodeIds(n)
      && (WellFormed(n) ==> WellFormed(r))
      && (Tidy(n) ==> Tidy(r))
  {
    DeleteHereBags(n, f);
    if WellFormed(n) {
      DeleteHereWellFormed(n, f);
    }
  }

  lemma DeleteHereBags(n: Node, f: Face)
    requires f in n.faces
    ensures var r := n.(faces := RemoveFirst(n.faces, f));
      Faces(r) == Faces(n) - multiset{f} && NodeIds(r) == NodeIds(n)
  {
    var r := n.(faces := RemoveFirst(n.faces, f));
    assert Faces(r) == multiset(r.faces) + GatherAll(n.children, FaceBag);
    assert Faces(n) == multiset(n.faces) + GatherAll(n.children, FaceBag);
    assert NodeIds(r) == IdBag(r) + GatherAll(n.children, IdBag);
    assert NodeIds(n) == IdBag(n) + GatherAll(n.children, IdBag);
  }

  lemma DeleteHereWellFormed(n: Node, f: Face)
    requires f in n.faces && WellFormed(n)
    ensures WellFormed(n.(faces := RemoveFirst(n.faces, f)))
  {
    var r := n.(faces := RemoveFirst(n.faces, f));
    RemovedFromList(n.faces, f);
    assert r.width == n.width && r.children == n.children;
    forall g | g in r.faces ensures Fits(r, g) {
      assert g in n.faces;
    }
  }

  /** What is left after the removal was in the list. */
  lemma RemovedFromList(s: seq<Face>, x: Face)
    requires x in s
    ensures forall g :: g in RemoveFirst(s, x) ==> g in s
  {
    forall g | g in RemoveFirst(s, x) ensures g in s {
      assert multiset(RemoveFirst(s, x))[g] > 0;
    }
  }

  /** Replacing child i by the child with f deleted, then notifying. */
  lemma DeleteBelow(n: Node, i: nat, c: Node, f: Face)
    requires f !in n.faces && i < |n.children| && f in Faces(n.children[i])
    requires SameFrame(c, n.children[i])
    requires Faces(c) == Faces(n.children[i]) - multiset{f}
    requires NodeIds(c) <= NodeIds(n.children[i])
    requires WellFormed(n.children[i]) ==> WellFormed(c)
    requires Tidy(n.children[i]) ==> Tidy(c)
    ensures var r := Notify(n.(children := n.children[i := c]), i);
      && SameFrame(r, n)
      && Faces(r) == Faces(n) - multiset{f}
      && NodeIds(r) <= NodeIds(n)
      && (WellFormed(n) ==> WellFormed(r))
      && (Tidy(n) ==> Tidy(r))
  {
    var m := n.(children := n.children[i := c]);
    FacesAfterDelete(n, i, c, f);
    IdsAfterDelete(n, i, c);
    if WellFormed(n) {
      ReplaceWellFormed(n, i, c);
    }
    if Tidy(n) {
      TidyAfterDelete(n, i, c);
    }
  }

  lemma FacesAfterDelete(n: Node, i: nat, c: Node, f: Face)
    requires f !in n.faces && i < |n.children| && f in Faces(n.children[i])
    requires Faces(c) == Faces(n.children[i]) - multiset{f}
    ensures Faces(n.(children := n.children[i := c])) == Faces(n) - multiset{f}
  {
    var m := n.(children := n.children[i := c]);
    var ci := n.children[i];
    ReplaceChild(n, i, c, FaceBag);
    var a, b, x, y := Faces(m), Faces(n), Faces(ci), Faces(c);
    assert a + x == b + y;
    GatherAllIncludes(n.children, i, FaceBag);
    assert b == multiset(n.faces) + GatherAll(n.children, FaceBag);
    forall g ensures a[g] == (b - multiset{f})[g] {
      assert (a + x)[g] == (b + y)[g];
      if g == f {
        assert b[f] >= x[f];
      }
    }
  }

  lemma IdsAfterDelete(n: Node, i: nat, c: Node)
    requires i < |n.children|
    requires NodeIds(c) <= NodeIds(n.children[i])
    ensures NodeIds(n.(children := n.children[i := c])) <= NodeIds(n)
  {
    var m := n.(children := n.children[i := c]);
    ReplaceChild(n, i, c, IdBag);
    var p, q, u, v := NodeIds(m), NodeIds(n), NodeIds(n.children[i]), NodeIds(c);
    assert p + u == q + v;
    forall k ensures p[k] <= q[k] {
      assert (p + u)[k] == (q + v)[k];
    }
  }

  lemma TidyAfterDelete(n: Node, i: nat, c: Node)
    requires i < |n.children| && Tidy(n) && Tidy(c)
    ensures Tidy(Notify(n.(children := n.children[i := c]), i))
  {
    var m := n.(children := n.children[i := c]);
    forall j | 0 <= j < |m.children| ensures Tidy(m.children[j]) {
      if j != i {
        assert m.children[j] == n.children[j];
      }
    }
    var r := Notify(m, i);
    if r.children != [] {
      assert r == m;
      var k :| 0 <= k < |m.children| && !IsEmpty(m.children[k]);
      TidyNonEmptyHasFaces(m.children[k]);
      GatherAllIncludes(m.children, k, FaceBag);
      var g :| g in Faces(m.children[k]);
      assert g in GatherAll(m.children, FaceBag);
    }
  }

  /** Under the tidy invariant a subtree whose last face is deleted is empty, ready to be discarded. */
  lemma DeleteLastFaceEmpties(n: Node, f: Face)
    requires f in Faces(n) && Tidy(n) && Faces(n) == multiset{f}
    ensures IsEmpty(NodeDelete(n, f))
  {
    var r := NodeDelete(n, f);
    assert Faces(r) == multiset{};
    TidyWithoutFacesIsEmpty(r);
  }

  // ---------------------------------------------------------------------
  // Shrinking the root

  /** The indices of the non-empty nodes among the first `upto` of cs. */
  function NonEmptyBelow(cs: seq<Node>, upto: nat): (s: set<nat>)
    requires upto <= |cs|
    ensures forall k: nat :: k in s <==> k < upto && !IsEmpty(cs[k])
  {
    set k: nat | k < upto && !IsEmpty(cs[k])
  }

  /** What the counting loop of `shrinkRoot` finds. */
  datatype Scan = NoneNonEmpty | Sole(index: nat) | Several

  /**
    The loop of `shrinkRoot` from index i on, `found` being the index of
    the one non-empty node seen so far: it stops at the second non-empty
    node.
   */
  function ScanFrom(cs: seq<Node>, i: nat, found: Option<nat>): (s: Scan)
    requires i <= |cs|
    requires found.None? ==> NonEmptyBelow(cs, i) == {}
    requires found.Some? ==> NonEmptyBelow(cs, i) == {found.value}
    ensures s.NoneNonEmpty? ==> NonEmptyBelow(cs, |cs|) == {}
    ensures s.Sole? ==> NonEmptyBelow(cs, |cs|) == {s.index}
    ensures s.Several? ==> |NonEmptyBelow(cs, |cs|)| >= 2
    decreases |cs| - i
  {
    if i == |cs| then
      if found.Some? then Sole(found.value) else NoneNonEmpty
    else if IsEmpty(cs[i]) then
      assert NonEmptyBelow(cs, i + 1) == NonEmptyBelow(cs, i);
      ScanFrom(cs, i + 1, found)
    else if found.None? then
      assert NonEmptyBelow(cs, i + 1) == {i};
      ScanFrom(cs, i + 1, Some(i))
    else
      TwoNonEmpty(cs, found.value, i);
      Several
  }

  lemma TwoNonEmpty(cs: seq<Node>, j: nat, k: nat)
    requires j < k < |cs| && !IsEmpty(cs[j]) && !IsEmpty(cs[k])
    ensures |NonEmptyBelow(cs, |cs|)| >= 2
  {
    var s := NonEmptyBelow(cs, |cs|);
    assert {j, k} <= s;
    assert |{j, k}| == 2;
    SubsetCard({j, k}, s);
  }

  /** A subset is no larger than the set it is drawn from. */
  lemma SubsetCard<T>(a: set<T>, b: set<T>)
    requires a <= b
    ensures |a| <= |b|
  {
    assert b == a + (b - a);
  }

  /** The count of non-empty children decides the outcome of the scan. */
  lemma ScanOutcome(cs: seq<Node>)
    ensures var s := ScanFrom(cs, 0, None);
      && (s.NoneNonEmpty? <==> |NonEmptyBelow(cs, |cs|)| == 0)
      && (s.Sole? <==> |NonEmptyBelow(cs, |cs|)| == 1)
      && (s.Several? <==> |NonEmptyBelow(cs, |cs|)| >= 2)
  {
    assert NonEmptyBelow(cs, 0) == {};
  }

  /** A face-less inner node with exactly one non-empty child, which `shrinkRoot` replaces by that child. */
  predicate Collapsible(n: Node) {
    |n.faces| == 0 && |n.children| > 0 && |NonEmptyBelow(n.children, |n.children|)| == 1
  }

  /**
    `shrinkRoot`: while the root has no faces of its own and exactly one
    non-empty child among its eight, that child becomes the root.
   */
  function ShrinkRoot(n: Node): (r: Node)
    requires WellFormed(n)
    ensures WellFormed(r) && !Collapsible(r)
    ensures Faces(r) == Faces(n)
    ensures r in Subtrees(n)
    ensures NodeIds(r) <= NodeIds(n)
    ensures Tidy(n) ==> Tidy(r)
    ensures !Collapsible(n) ==> r == n
    decreases n
  {
    ScanOutcome(n.children);
    if |n.faces| == 0 && |n.children| > 0 then
      match ScanFrom(n.children, 0, None)
      case Sole(k) =>
        PromoteChild(n, k);
        ShrinkRoot(n.children[k])
      case _ => n
    else n
  }

  /** Promoting the one non-empty child loses no face and yields a subtree. */
  lemma PromoteChild(n: Node, k: nat)
    requires |n.faces| == 0 && k < |n.children| && NonEmptyBelow(n.children, |n.children|) == {k}
    ensures Faces(n.children[k]) == Faces(n)
    ensures Subtrees(n.children[k]) <= Subtrees(n)
    ensures NodeIds(n.children[k]) <= NodeIds(n)
    ensures Tidy(n) ==> Tidy(n.children[k])
  {
    var cs := n.children;
    forall j | 0 <= j < |cs| && j != k ensures Gather(cs[j], FaceBag) == multiset{} {
      assert j !in NonEmptyBelow(cs, |cs|);
      EmptyHasNoFaces(cs[j]);
    }
    GatherAllOnly(cs, k, FaceBag);
    assert Faces(n) == multiset(n.faces) + GatherAll(cs, FaceBag);
    GatherAllIncludes(cs, k, NodeBag);
    GatherAllIncludes(cs, k, IdBag);
  }

  /** `shrinkRoot` is idempotent. */
  lemma ShrinkRootIdempotent(n: Node)
    requires WellFormed(n)
    ensures ShrinkRoot(ShrinkRoot(n)) == ShrinkRoot(n)
  {
  }
}

=== FILE: node_insert.dfy ===
/**
  Node-level insertion (`OctreeNode::Impl::insertFace` and
  `insertIntoChild`): a face is stored at the first node on its way down
  whose width it exceeds by more than the relative threshold; smaller faces
  go to the first child, in octant order, that contains them, and children
  are created when a leaf has to pass a face down.
 */
module NodeInsertion {
  import opened Geometry
  import opened Outcomes
  import opened OctreeNode

  /**
    The outcome of an insertion: the updated subtree, the next unused node
    id, and the id of the node whose face list now holds the face.
   */
  datatype Placement = Placement(node: Node, next: NodeId, holder: NodeId)

  /** A face of positive width that descends is at most a tenth of the node's width. */
  lemma RatioAtLeastTen(w: real, fw: real)
    requires fw > 0.0 && fw <= w * RelativeMinFaceSize
    ensures w / fw >= 10.0
  {
    assert (w / fw) * fw == w;
  }

  /**
    How many more levels a face of width fw may still descend below a node
    of width w: zero once the face is stored, else the floor of w / fw.
   */
  function DescentMeasure(w: real, fw: real): nat
    requires fw > 0.0
  {
    if fw <= w * RelativeMinFaceSize then RatioAtLeastTen(w, fw); (w / fw).Floor else 0
  }

  /** Halving the node width strictly lowers the measure of a face that descends. */
  lemma DescentShrinks(w: real, fw: real)
    requires fw > 0.0 && fw <= w * RelativeMinFaceSize
    ensures DescentMeasure(w * 0.5, fw) < DescentMeasure(w, fw)
  {
    RatioAtLeastTen(w, fw);
    var p := w / fw;
    assert (w * 0.5) / fw == p * 0.5 by {
      assert p * fw == w;
    }
    assert p * 0.5 <= p - 1.0;
    if fw <= w * 0.5 * RelativeMinFaceSize {
      assert (p * 0.5).Floor <= (p - 1.0).Floor;
    }
  }

  /**
    Node ids of m relative to n: ids below `next` are exactly as in n, ids
    from `next` on occur at most once, and all ids are below `next'`.
   */
  ghost predicate Fresh(n: Node, next: NodeId, m: Node, next': NodeId) {
    && next <= next'
    && (forall k: NodeId :: k < next ==> NodeIds(m)[k] == NodeIds(n)[k])
    && (forall k: NodeId :: next <= k ==> NodeIds(m)[k] <= 1)
    && IdsBelow(m, next')
  }

  /** Ids allocated fresh keep every id unique. */
  lemma FreshKeepsUnique(n: Node, next: NodeId, m: Node, next': NodeId)
    requires UniqueIds(n) && Fresh(n, next, m, next')
    ensures UniqueIds(m)
  {
    forall k: NodeId ensures NodeIds(m)[k] <= 1 {
      if k < next {
        assert NodeIds(m)[k] == NodeIds(n)[k];
      }
    }
  }

  /** Fresh allocation composes. */
  lemma FreshTrans(a: Node, na: NodeId, b: Node, nb: NodeId, c: Node, nc: NodeId)
    requires IdsBelow(a, na)
    requires Fresh(a, na, b, nb) && Fresh(b, nb, c, nc)
    ensures Fresh(a, na, c, nc)
  {
    forall k: NodeId | na <= k ensures NodeIds(c)[k] <= 1 {
      if k < nb {
        assert NodeIds(c)[k] == NodeIds(b)[k];
      }
    }
  }

  /** Replacing child i by c' that gained face f adds f to the subtree. */
  lemma FacesAfterReplace(n: Node, i: nat, c': Node, f: Face)
    requires i < |n.children|
    requires Faces(c') == Faces(n.children[i]) + multiset{f}
    ensures Faces(n.(children := n.children[i := c'])) == Faces(n) + multiset{f}
  {
    var m := n.(children := n.children[i := c']);
    assert FaceBag(m) == FaceBag(n);
    ReplaceChild(n, i, c', FaceBag);
    var a, b, ci := Faces(m), Faces(n), Faces(n.children[i]);
    assert a + ci == b + (ci + multiset{f});
    forall x ensures a[x] == (b + multiset{f})[x] {
      assert (a + ci)[x] == (b + (ci + multiset{f}))[x];
    }
  }

  /** Replacing child i by c' trades the old child's ids for the new child's, id by id. */
  lemma IdCountsAfterReplace(n: Node, i: nat, c': Node)
    requires i < |n.children|
    ensures forall k: NodeId ::
      NodeIds(n.(children := n.children[i := c']))[k] + NodeIds(n.children[i])[k] == NodeIds(n)[k] + NodeIds(c')[k]
  {
    var m := n.(children := n.children[i := c']);
    assert IdBag(m) == IdBag(n);
    ReplaceChild(n, i, c', IdBag);
    var a, b, x, y := NodeIds(m), NodeIds(n), NodeIds(n.children[i]), NodeIds(c');
    assert a + x == b + y;
    forall k: NodeId ensures a[k] + x[k] == b[k] + y[k] {
      assert (a + x)[k] == (b + y)[k];
    }
  }

  /** Replacing child i by c' whose new ids are fresh keeps the new ids of the whole subtree fresh. */
  lemma FreshAfterReplace(n: Node, i: nat, c': Node, next: NodeId, next': NodeId)
    requires i < |n.children| && IdsBelow(n, next)
    requires Fresh(n.children[i], next, c', next')
    ensures Fresh(n, next, n.(children := n.children[i := c']), next')
  {
    var m := n.(children := n.children[i := c']);
    IdCountsAfterReplace(n, i, c');
    ChildIdsBelow(n, i, next);
    var a, b, x, y := NodeIds(m), NodeIds(n), NodeIds(n.children[i]), NodeIds(c');
    forall k: NodeId | k < next ensures a[k] == b[k] {
      assert a[k] + x[k] == b[k] + y[k];
      assert x[k] == y[k];
    }
    forall k: NodeId | next <= k ensures a[k] <= 1 {
      assert a[k] + x[k] == b[k] + y[k];
      assert k !in b && k !in x;
    }
    forall k: NodeId | k in a ensures k < next' {
      assert a[k] + x[k] == b[k] + y[k];
      if k !in y {
        assert k in b;
      }
    }
  }

  /**
    The index of the first node of cs, in order, that contains f; |cs|
    when none does.
   */
  function FirstContaining(cs: seq<Node>, f: Face): (i: nat)
    ensures i <= |cs|
    ensures i < |cs| ==> Contains(cs[i], f)
    ensures forall j :: 0 <= j < i ==> !Contains(cs[j], f)
  {
    if |cs| == 0 then 0
    else if Contains(cs[0], f) then 0
    else 1 + FirstContaining(cs[1..], f)
  }

  /** The children a face is passed down among: the existing ones or, for a leaf, those `makeChildren` creates. */
  function ChildrenFor(n: Node, next: NodeId): seq<Node> {
    if |n.children| == 0 then MakeChildren(n, next).children else n.children
  }

  /**
    `insertFace` of a node: a face wider than a tenth of the node is
    appended to the node's own list; a smaller one is passed to a child.
   */
  function NodeInsert(n: Node, f: Face, next: NodeId): (r: Placement)
    requires WellFormed(n) && IdsBelow(n, next)
    requires Contains(n, f) && f.width > 0.0
    ensures WellFormed(r.node) && SameFrame(r.node, n)
    ensures Faces(r.node) == Faces(n) + multiset{f}
    ensures f !in Faces(n) ==> HolderOf(r.node, f) == Some(r.holder)
    ensures Fresh(n, next, r.node, r.next)
    ensures Tidy(n) ==> Tidy(r.node)
    ensures Descends(n, f) ==> r.node.faces == n.faces && |r.node.children| == 8
    ensures !Descends(n, f) ==> r.node.faces == n.faces + [f] && r.node.children == n.children && r.holder == n.id
    decreases DescentMeasure(n.width, f.width), 2
  {
    if Descends(n, f) then
      InsertIntoChild(n, f, next)
    else
      Placement(n.(faces := n.faces + [f]), next, n.id)
  }

  /**
    `insertIntoChild`: a leaf first gets its eight children (ids next to
    next + 7); the face then goes to the first child in octant order that
    contains it.
   */
  function InsertIntoChild(n: Node, f: Face, next: NodeId): (r: Placement)
    requires WellFormed(n) && IdsBelow(n, next)
    requires Contains(n, f) && f.width > 0.0 && Descends(n, f)
    ensures WellFormed(r.node) && SameFrame(r.node, n) && r.node.faces == n.faces
    ensures Faces(r.node) == Faces(n) + multiset{f}
    ensures f !in Faces(n) ==> HolderOf(r.node, f) == Some(r.holder)
    ensures Fresh(n, next, r.node, r.next)
    ensures (forall j :: 0 <= j < |n.children| ==> Tidy(n.children[j])) ==> Tidy(r.node)
    ensures var cs := ChildrenFor(n, next); var i := FirstContaining(cs, f);
      && i < 8 && |r.node.children| == 8
      && r.node.children == cs[i := r.node.children[i]]
      && Faces(r.node.children[i]) == Faces(cs[i]) + multiset{f}
    decreases DescentMeasure(n.width, f.width), 1
  {
    if |n.children| == 0 then
      var m := MakeChildren(n, next);
      SplitLeaf(n, next);
      var r := InsertIntoExistingChild(m, f, next + 8);
      FreshTrans(n, next, m, next + 8, r.node, r.next);
      r
    else
      InsertIntoExistingChild(n, f, next)
  }

  /** The eight children `makeChildren` gives a well-formed leaf keep it well formed, hold no faces, and take fresh ids. */
  lemma SplitLeaf(n: Node, next: NodeId)
    requires WellFormed(n) && IdsBelow(n, next) && |n.children| == 0
    ensures var m := MakeChildren(n, next);
      && WellFormed(m) && SameFrame(m, n) && m.faces == n.faces
      && Faces(m) == Faces(n) && IdsBelow(m, next + 8) && Fresh(n, next, m, next + 8)
      && (forall j :: 0 <= j < |m.children| ==> Tidy(m.children[j]))
  {
    var m := MakeChildren(n, next);
    MakeChildrenBags(n, next);
    assert WellFormed(m);
    forall k | k in NodeIds(m) ensures k < next + 8 {
      assert NodeIds(m)[k] == NodeIds(n)[k] + (if next <= k < next + 8 then 1 else 0);
    }
  }

  /**
    The second half of `insertIntoChild`: the face goes to the first child
    that contains it. That such a child exists is `SomeChildContains`, so
    the source's failure branch is never taken.
   */
  function InsertIntoExistingChild(n: Node, f: Face, next: NodeId): (r: Placement)
    requires WellFormed(n) && IdsBelow(n, next) && |n.children| == 8
    requires Contains(n, f) && f.width > 0.0 && Descends(n, f)
    ensures WellFormed(r.node) && SameFrame(r.node, n) && r.node.faces == n.faces
    ensures Faces(r.node) == Faces(n) + multiset{f}
    ensures f !in Faces(n) ==> HolderOf(r.node, f) == Some(r.holder)
    ensures Fresh(n, next, r.node, r.next)
    ensures (forall j :: 0 <= j < |n.children| ==> Tidy(n.children[j])) ==> Tidy(r.node)
    ensures var i := FirstContaining(n.children, f);
      && i < 8 && |r.node.children| == 8
      && r.node.children == n.children[i := r.node.children[i]]
      && Faces(r.node.children[i]) == Faces(n.children[i]) + multiset{f}
    decreases DescentMeasure(n.width, f.width), 0
  {
    SomeChildContains(n, f);
    var i := FirstContaining(n.children, f);
    DescentShrinks(n.width, f.width);
    ChildIdsBelow(n, i, next);
    var p := NodeInsert(n.children[i], f, next);
    ReplaceWellFormed(n, i, p.node);
    FacesAfterReplace(n, i, p.node, f);
    FreshAfterReplace(n, i, p.node, next, p.next);
    HolderAndTidyAfterReplace(n, i, p.node, f, p.holder);
    Placement(n.(children := n.children[i := p.node]), p.next, p.holder)
  }

  /** A face new to the subtree and now held below child i is found there. */
  lemma HolderAfterReplace(n: Node, i: nat, c': Node, f: Face, holder: NodeId)
    requires i < |n.children|
    requires f !in Faces(n) && HolderOf(c', f) == Some(holder)
    ensures HolderOf(n.(children := n.children[i := c']), f) == Some(holder)
  {
    var m := n.(children := n.children[i := c']);
    GatherAllIncludesAll(n.children, FaceBag);
    assert f !in n.faces;
    forall j | 0 <= j < |m.children| && j != i ensures f !in Faces(m.children[j]) {
      assert m.children[j] == n.children[j];
      assert Faces(n.children[j]) <= GatherAll(n.children, FaceBag);
    }
    HolderAmongAt(m.children, i, f);
  }

  /** A child that gained a face makes its parent tidy when the other children are. */
  lemma TidyAfterReplace(n: Node, i: nat, c': Node, f: Face)
    requires i < |n.children|
    requires f in Faces(c') && Tidy(c')
    requires forall j :: 0 <= j < |n.children| ==> Tidy(n.children[j])
    ensures Tidy(n.(children := n.children[i := c']))
  {
    var m := n.(children := n.children[i := c']);
    GatherAllIncludes(m.children, i, FaceBag);
    assert f in GatherAll(m.children, FaceBag);
    forall j | 0 <= j < |m.children| ensures Tidy(m.children[j]) {
      if j != i {
        assert m.children[j] == n.children[j];
      }
    }
  }

  lemma HolderAndTidyAfterReplace(n: Node, i: nat, c': Node, f: Face, holder: NodeId)
    requires i < |n.children|
    requires Faces(c') == Faces(n.children[i]) + multiset{f}
    requires f !in Faces(n.children[i]) ==> HolderOf(c', f) == Some(holder)
    requires Tidy(n.children[i]) ==> Tidy(c')
    ensures f !in Faces(n) ==> HolderOf(n.(children := n.children[i := c']), f) == Some(holder)
    ensures (forall j :: 0 <= j < |n.children| ==> Tidy(n.children[j])) ==> Tidy(n.(children := n.children[i := c']))
  {
    if f !in Faces(n) {
      GatherAllIncludes(n.children, i, FaceBag);
      HolderAfterReplace(n, i, c', f, holder);
    }
    if forall j :: 0 <= j < |n.children| ==> Tidy(n.children[j]) {
      TidyAfterReplace(n, i, c', f);
    }
  }
}

=== FILE: octree.dfy ===
/**
  The octree as a whole (`Octree::Impl`): an optional root, the id map
  from face ids to the faces the tree stores, and the counter from which
  new nodes take their ids.
 */
module Octree {
  import opened Geometry
  import opened Outcomes
  import opened OctreeNode
  import opened NodeInsertion
  import opened NodeDeletion
  import opened Growth

  datatype Tree = Tree(root: Option<Node>, idMap: map<FaceId, Face>, next: NodeId)

  /** The source's failed preconditions, as results. */
  datatype Error = DuplicateFace | FaceNotFound

  datatype Inserted = Inserted(tree: Tree, holder: NodeId)

  /** The outcome of a realignment: the tree, the node now holding the face, and whether that node held it before. */
  datatype Realigned = Realigned(tree: Tree, holder: NodeId, sameNode: bool)

  /** The faces the tree stores, with multiplicity. */
  function Stored(t: Tree): multiset<Face> {
    if t.root.None? then multiset{} else Faces(t.root.value)
  }

  /**
    The id map indexes the bag s: it is keyed by face id, and every face
    occurs in s once when the map holds it and not at all otherwise.
   */
  ghost predicate Indexed(s: multiset<Face>, m: map<FaceId, Face>) {
    && (forall id :: id in m ==> m[id].id == id)
    && (forall f :: s[f] == if f.id in m && m[f.id] == f then 1 else 0)
  }

  /** The root's invariants: well-formed, with distinct node ids below the counter. */
  ghost predicate RootValid(root: Node, next: NodeId) {
    WellFormed(root) && UniqueIds(root) && IdsBelow(root, next)
  }

  /** The invariants of the tree. */
  ghost predicate Valid(t: Tree) {
    && (t.root.Some? ==> RootValid(t.root.value, t.next))
    && Indexed(Stored(t), t.idMap)
  }

  /** Indexing a face under a new id. */
  lemma IndexedAdd(s: multiset<Face>, m: map<FaceId, Face>, f: Face)
    requires Indexed(s, m) && f.id !in m
    ensures Indexed(s + multiset{f}, m[f.id := f])
  {
    forall g ensures (s + multiset{f})[g] == if g.id in m[f.id := f] && m[f.id := f][g.id] == g then 1 else 0 {
      assert (s + multiset{f})[g] == s[g] + multiset{f}[g];
    }
  }

  /** Unindexing the face under an id. */
  lemma IndexedRemove(s: multiset<Face>, m: map<FaceId, Face>, id: FaceId)
    requires Indexed(s, m) && id in m
    ensures Indexed(s - multiset{m[id]}, m - {id})
  {
    var f := m[id];
    var m' := m - {id};
    forall g ensures (s - multiset{f})[g] == if g.id in m' && m'[g.id] == g then 1 else 0 {
      if g == f {
        assert s[g] == 1;
      }
    }
  }

  /** An indexed bag is empty exactly when its map is. */
  lemma IndexedEmpty(s: multiset<Face>, m: map<FaceId, Face>)
    requires Indexed(s, m)
    ensures s == multiset{} <==> m == map[]
  {
    if m != map[] {
      var id :| id in m;
      assert s[m[id]] == 1;
    }
    if s != multiset{} {
      var f :| f in s;
      assert f.id in m;
    }
  }

  /**
    The tree is compact: either there is no root, or every inner node has
    a face below it and the tree stores at least one face. Every operation
    but `InitRoot` keeps this.
   */
  ghost predicate Compact(t: Tree) {
    t.root.Some? ==> Tidy(t.root.value) && Stored(t) != multiset{}
  }

  /** The tree without a root. */
  function Empty(next: NodeId): (t: Tree)
    ensures Valid(t) && Compact(t) && t.idMap == map[] && Stored(t) == multiset{}
  {
    Tree(None, map[], next)
  }

  // ---------------------------------------------------------------------
  // Lookups

  /** `hasFace`: whether the id map holds the id. */
  function HasFace(t: Tree, id: FaceId): (b: bool)
    requires Valid(t)
    ensures b <==> exists f :: f in Stored(t) && f.id == id
  {
    if id in t.idMap then
      assert t.idMap[id] in Stored(t);
      true
    else
      false
  }

  /** `face`: the face the id map holds under the id. */
  function FaceOf(t: Tree, id: FaceId): (r: Option<Face>)
    requires Valid(t)
    ensures r.Some? <==> HasFace(t, id)
    ensures r.Some? ==> r.value.id == id && r.value in Stored(t)
  {
    if id in t.idMap then Some(t.idMap[id]) else None
  }

  /** A valid tree stores faces exactly when its id map is non-empty. */
  lemma StoredEmptyIffNoIds(t: Tree)
    requires Valid(t)
    ensures Stored(t) == multiset{} <==> t.idMap == map[]
  {
    IndexedEmpty(Stored(t), t.idMap);
  }

  // ---------------------------------------------------------------------
  // Insertion

  /** The root `insertFace` creates when there is none: centered on the face's bounding box, as wide as the face. */
  function LazyRoot(f: Face, id: NodeId): Node {
    Leaf(id, Mid(f.minimum, f.maximum), f.width, 0)
  }

  /** A root created for a face of sane geometry already contains it, so no growth follows. */
  lemma LazyRootContains(f: Face, id: NodeId)
    ensures Sane(f) ==> Contains(LazyRoot(f, id), f)
  {
  }

  /** The root insertion starts from, and the counter after creating it. */
  function StartRoot(t: Tree, f: Face): (r: (Node, NodeId))
    requires Valid(t) && f.width > 0.0
    ensures WellFormed(r.0) && UniqueIds(r.0) && IdsBelow(r.0, r.1) && t.next <= r.1
    ensures Faces(r.0) == Stored(t)
    ensures t.root.Some? ==> r == (t.root.value, t.next)
    ensures t.root.None? ==> Tidy(r.0) && |r.0.children| == 0
  {
    if t.root.Some? then (t.root.value, t.next)
    else
      var n := LazyRoot(f, t.next);
      assert NodeIds(n) == multiset{t.next} + GatherAll(n.children, IdBag);
      assert Faces(n) == multiset(n.faces) + GatherAll(n.children, FaceBag);
      (n, t.next + 1)
  }

  /**
    Tree-level `insertFace`: refused for an id already indexed; otherwise
    a root is created if there is none, grown until it contains the face,
    and the face is inserted there and indexed.
   */
  function InsertFace(t: Tree, f: Face): (r: Result<Inserted, Error>)
    requires Valid(t) && f.width > 0.0
    ensures r.Err? <==> f.id in t.idMap
    ensures r.Err? ==> r.error == DuplicateFace
    ensures r.Ok? ==> var t' := r.value.tree;
      && Valid(t')
      && t'.idMap == t.idMap[f.id := f]
      && Stored(t') == Stored(t) + multiset{f}
      && t'.root.Some? && HolderOf(t'.root.value, f) == Some(r.value.holder)
      && Contains(t'.root.value, f)
    ensures r.Ok? && Compact(t) && Sane(f) ==> Compact(r.value.tree)
  {
    if f.id in t.idMap then Err(DuplicateFace)
    else
      var (root, next) := StartRoot(t, f);
      var p := GrowAndInsert(root, f, next);
      var t' := Tree(Some(p.node), t.idMap[f.id := f], p.next);
      InsertKeepsValid(t, f, root, next, p);
      LazyRootContains(f, t.next);
      Ok(Inserted(t', p.holder))
  }

  lemma InsertKeepsValid(t: Tree, f: Face, root: Node, next: NodeId, p: Placement)
    requires Valid(t) && f.id !in t.idMap
    requires UniqueIds(root) && IdsBelow(root, next) && Faces(root) == Stored(t)
    requires WellFormed(p.node) && Fresh(root, next, p.node, p.next)
    requires Faces(p.node) == Faces(root) + multiset{f}
    ensures Valid(Tree(Some(p.node), t.idMap[f.id := f], p.next))
  {
    FreshKeepsUnique(root, next, p.node, p.next);
    IndexedAdd(Stored(t), t.idMap, f);
  }

  /** Insertion keeps every indexed id and adds the new one. */
  lemma InsertKeepsIds(t: Tree, f: Face, id: FaceId)
    requires Valid(t) && f.width > 0.0 && InsertFace(t, f).Ok?
    ensures HasFace(InsertFace(t, f).value.tree, f.id)
    ensures HasFace(t, id) ==> HasFace(InsertFace(t, f).value.tree, id)
  {
    var t' := InsertFace(t, f).value.tree;
    assert f.id in t'.idMap;
    if id in t.idMap {
      assert id in t'.idMap;
    }
  }

  // ---------------------------------------------------------------------
  // Deletion

  /**
    Tree-level `deleteFace`: refused for an id not indexed; otherwise the
    face is unindexed and deleted from its node, then the root is dropped
    if it is empty and shrunk if not.
   */
  function DeleteFace(t: Tree, id: FaceId): (r: Result<Tree, Error>)
    requires Valid(t)
    ensures r.Err? <==> id !in t.idMap
    ensures r.Err? ==> r.error == FaceNotFound
    ensures r.Ok? ==> var t' := r.value;
      && Valid(t')
      && t'.idMap == t.idMap - {id}
      && Stored(t') == Stored(t) - multiset{t.idMap[id]}
      && (t'.root.Some? ==> !Collapsible(t'.root.value))
    ensures r.Ok? && Compact(t) ==> Compact(r.value) && (r.value.root.None? <==> r.value.idMap == map[])
  {
    if id !in t.idMap then Err(FaceNotFound)
    else
      var f := t.idMap[id];
      assert Stored(t)[f] == 1;
      var n := NodeDelete(t.root.value, f);
      var root := if IsEmpty(n) then None else Some(ShrinkRoot(n));
      var t' := Tree(root, t.idMap - {id}, t.next);
      DeleteKeepsValid(t, id, n, t');
      Ok(t')
  }

  lemma DeleteKeepsValid(t: Tree, id: FaceId, n: Node, t': Tree)
    requires Valid(t) && id in t.idMap && t.root.Some?
    requires t.idMap[id] in Faces(t.root.value) && n == NodeDelete(t.root.value, t.idMap[id])
    requires t' == Tree(if IsEmpty(n) then None else Some(ShrinkRoot(n)), t.idMap - {id}, t.next)
    ensures Valid(t')
    ensures Stored(t') == Stored(t) - multiset{t.idMap[id]}
    ensures Compact(t) ==> Compact(t') && (t'.root.None? <==> t'.idMap == map[])
  {
    var f := t.idMap[id];
    assert Stored(t') == Faces(n) by {
      if IsEmpty(n) {
        EmptyHasNoFaces(n);
      }
    }
    if !IsEmpty(n) {
      ShrunkRootValid(t.root.value, t.next, n);
    }
    IndexedRemove(Stored(t), t.idMap, id);
    if Compact(t) {
      DeleteKeepsCompact(t, n, t');
    }
  }

  /** The shrunk root keeps the root invariants. */
  lemma ShrunkRootValid(root: Node, next: NodeId, n: Node)
    requires RootValid(root, next) && WellFormed(n) && NodeIds(n) <= NodeIds(root)
    ensures RootValid(ShrinkRoot(n), next)
  {
    var s := ShrinkRoot(n);
    assert NodeIds(s) <= NodeIds(root);
    forall k ensures NodeIds(s)[k] <= 1 {
      assert NodeIds(s)[k] <= NodeIds(root)[k];
    }
  }

  lemma DeleteKeepsCompact(t: Tree, n: Node, t': Tree)
    requires Compact(t) && t.root.Some? && Tidy(n) && Valid(t') && WellFormed(n)
    requires t'.root == (if IsEmpty(n) then None else Some(ShrinkRoot(n)))
    requires Stored(t') == Faces(n)
    ensures Compact(t') && (t'.root.None? <==> t'.idMap == map[])
  {
    StoredEmptyIffNoIds(t');
    if !IsEmpty(n) {
      TidyNonEmptyHasFaces(n);
    }
  }

  // ---------------------------------------------------------------------
  // Realignment

  /**
    `realignFace`: the face under id f.id is deleted and f, its new
    geometry, inserted; `sameNode` reports whether the node holding it
    afterwards is the node that held it before. Node ids are never
    reused, so equal ids mean the same node.
   */
  function RealignFace(t: Tree, f: Face): (r: Result<Realigned, Error>)
    requires Valid(t) && f.width > 0.0
    ensures r.Err? <==> f.id !in t.idMap
    ensures r.Err? ==> r.error == FaceNotFound
    ensures r.Ok? ==> var t' := r.value.tree;
      && Valid(t')
      && t'.idMap == t.idMap[f.id := f]
      && Stored(t') == Stored(t) - multiset{t.idMap[f.id]} + multiset{f}
      && t'.root.Some? && HolderOf(t'.root.value, f) == Some(r.value.holder)
      && t.root.Some?
      && (r.value.sameNode <==> HolderOf(t.root.value, t.idMap[f.id]) == Some(r.value.holder))
    ensures r.Ok? && Compact(t) && Sane(f) ==> Compact(r.value.tree)
  {
    if f.id !in t.idMap then Err(FaceNotFound)
    else
      var prev := t.idMap[f.id];
      StoredHasRoot(t, f.id);
      var former := HolderOf(t.root.value, prev);
      var d := DeleteFace(t, f.id).value;
      var i := InsertFace(d, f).value;
      RealignMaps(t, d, i.tree, f);
      Ok(Realigned(i.tree, i.holder, former == Some(i.holder)))
  }

  /** An indexed id means a root that stores its face. */
  lemma StoredHasRoot(t: Tree, id: FaceId)
    requires Valid(t) && id in t.idMap
    ensures t.root.Some? && t.idMap[id] in Faces(t.root.value)
  {
    assert Stored(t)[t.idMap[id]] == 1;
  }

  /** Every indexed face has positive width, so it can be inserted again. */
  lemma IndexedWidthPositive(t: Tree, id: FaceId)
    requires Valid(t) && id in t.idMap
    ensures t.idMap[id].width > 0.0 && t.idMap[id].id == id
  {
    StoredHasRoot(t, id);
    StoredFacesPositive(t.root.value, t.idMap[id]);
  }

  lemma RealignMaps(t: Tree, d: Tree, t': Tree, f: Face)
    requires f.id in t.idMap
    requires d.idMap == t.idMap - {f.id} && Stored(d) == Stored(t) - multiset{t.idMap[f.id]}
    requires t'.idMap == d.idMap[f.id := f] && Stored(t') == Stored(d) + multiset{f}
    ensures t'.idMap == t.idMap[f.id := f]
    ensures Stored(t') == Stored(t) - multiset{t.idMap[f.id]} + multiset{f}
  {
    assert d.idMap[f.id := f] == t.idMap[f.id := f];
  }

  /** Realigning a face to its current geometry keeps the id map. */
  lemma RealignSameGeometry(t: Tree, id: FaceId)
    requires Valid(t) && id in t.idMap && t.idMap[id].width > 0.0
    ensures RealignFace(t, t.idMap[id]).Ok?
    ensures RealignFace(t, t.idMap[id]).value.tree.idMap == t.idMap
    ensures Stored(RealignFace(t, t.idMap[id]).value.tree) == Stored(t)
  {
    var f := t.idMap[id];
    assert Stored(t)[f] == 1;
    assert t.idMap[f.id := f] == t.idMap;
    assert Stored(t) - multiset{f} + multiset{f} == Stored(t);
  }

  // ---------------------------------------------------------------------
  // Reset and initial root

  /** `reset`: no root and an empty id map. */
  function Reset(t: Tree): (r: Tree)
    ensures Valid(r) && Compact(r)
    ensures r.idMap == map[] && Stored(r) == multiset{}
    ensures forall id :: !HasFace(r, id)
    ensures r.next == t.next
  {
    Tree(None, map[], t.next)
  }

  /**
    `initRoot`: an empty leaf root of the given center and width, at depth
    0. The source asserts there is no root; a zero width would never grow.
   */
  function InitRoot(t: Tree, center: Vec3, width: real): (r: Tree)
    requires Valid(t) && t.root.None? && width > 0.0
    ensures Valid(r)
    ensures r.root == Some(Leaf(t.next, center, width, 0))
    ensures r.idMap == t.idMap == map[]
  {
    StoredEmptyIffNoIds(t);
    var n := Leaf(t.next, center, width, 0);
    assert NodeIds(n) == multiset{t.next} + GatherAll(n.children, IdBag);
    assert Faces(n) == multiset(n.faces) + GatherAll(n.children, FaceBag);
    Tree(Some(n), t.idMap, t.next + 1)
  }

  /** Deleting a face just inserted gives back the id map and the stored faces. */
  lemma InsertThenDelete(t: Tree, f: Face)
    requires Valid(t) && f.width > 0.0 && f.id !in t.idMap
    ensures var t' := InsertFace(t, f).value.tree;
      && DeleteFace(t', f.id).Ok?
      && DeleteFace(t', f.id).value.idMap == t.idMap
      && Stored(DeleteFace(t', f.id).value) == Stored(t)
  {
    var t' := InsertFace(t, f).value.tree;
    DeleteAfterInsert(t, t', f);
  }

  lemma DeleteAfterInsert(t: Tree, t': Tree, f: Face)
    requires Valid(t') && f.id !in t.idMap
    requires t'.idMap == t.idMap[f.id := f] && Stored(t') == Stored(t) + multiset{f}
    ensures DeleteFace(t', f.id).Ok?
    ensures DeleteFace(t', f.id).value.idMap == t.idMap
    ensures Stored(DeleteFace(t', f.id).value) == Stored(t)
  {
    DeleteAfterInsertMap(t, t', f);
    DeleteAfterInsertStored(t, t', f);
  }

  lemma DeleteAfterInsertMap(t: Tree, t': Tree, f: Face)
    requires Valid(t') && f.id !in t.idMap && t'.idMap == t.idMap[f.id := f]
    ensures DeleteFace(t', f.id).Ok? && DeleteFace(t', f.id).value.idMap == t.idMap
  {
    assert t'.idMap - {f.id} == t.idMap;
  }

  lemma DeleteAfterInsertStored(t: Tree, t': Tree, f: Face)
    requires Valid(t') && t'.idMap[f.id := f] == t'.idMap && Stored(t') == Stored(t) + multiset{f}
    ensures DeleteFace(t', f.id).Ok? && Stored(DeleteFace(t', f.id).value) == Stored(t)
  {
    assert f.id in t'.idMap;
    assert t'.idMap[f.id] == f;
    AddThenRemove(Stored(t), f);
  }

  lemma AddThenRemove(s: multiset<Face>, f: Face)
    ensures s + multiset{f} - multiset{f} == s
  {
  }
}

=== FILE: octree_iterators.dfy ===
/**
  The octree's iterators. The face iterator keeps a queue of per-node face
  iterators: the front one yields its node's faces in list order, and once
  it runs out it is replaced at the back of the queue by iterators over
  the node's children (`skipEmptyNodes`). The node iterator keeps a queue
  of nodes and, on each step, replaces the front node by its children at
  the back. Both visit the tree breadth first.
 */
module OctreeIterators {
  import opened Outcomes
  import opened OctreeNode
  import opened Octree

  // ---------------------------------------------------------------------
  // Per-node face iterators

  /** `OctreeNodeFaceIterator`: a node and the position of the next face in its list. */
  datatype Cursor = Cursor(node: Node, index: nat)

  /** The per-node iterator still has a face to yield. */
  predicate CursorValid(c: Cursor) {
    c.index < |c.node.faces|
  }

  /** The faces of its own node the cursor has still to yield. */
  function Rest(c: Cursor): seq<Face> {
    if c.index <= |c.node.faces| then c.node.faces[c.index..] else []
  }

  /** The faces the queue entry c stands for: its own rest and the whole subtrees below its node. */
  function Unvisited(c: Cursor): multiset<Face> {
    multiset(Rest(c)) + GatherAll(c.node.children, FaceBag)
  }

  /** The sub-nodes c stands for, its own node included. */
  function Unexpanded(c: Cursor): multiset<Node> {
    Subtrees(c.node)
  }

  /** Everything `bag` yields for the entries of a queue. */
  function QueueBag<T>(q: seq<Cursor>, bag: Cursor -> multiset<T>): multiset<T>
    decreases |q|
  {
    if |q| == 0 then multiset{} else QueueBag(q[..|q| - 1], bag) + bag(q[|q| - 1])
  }

  /** Fresh per-node iterators over the nodes cs, in order. */
  function Cursors(cs: seq<Node>): (r: seq<Cursor>)
    ensures |r| == |cs|
    ensures forall i :: 0 <= i < |cs| ==> r[i] == Cursor(cs[i], 0)
  {
    seq(|cs|, i requires 0 <= i < |cs| => Cursor(cs[i], 0))
  }

  lemma {:induction false} QueueBagConcat<T>(a: seq<Cursor>, b: seq<Cursor>, bag: Cursor -> multiset<T>)
    ensures QueueBag(a + b, bag) == QueueBag(a, bag) + QueueBag(b, bag)
    decreases |b|
  {
    if |b| == 0 {
      assert a + b == a;
    } else {
      var l := |b| - 1;
      assert (a + b)[..|a + b| - 1] == a + b[..l];
      assert (a + b)[|a + b| - 1] == b[l];
      QueueBagConcat(a, b[..l], bag);
    }
  }

  /** The queue that starts with c. */
  lemma QueueBagCons<T>(c: Cursor, rest: seq<Cursor>, bag: Cursor -> multiset<T>)
    ensures QueueBag([c] + rest, bag) == bag(c) + QueueBag(rest, bag)
  {
    QueueBagConcat([c], rest, bag);
    assert [c][..0] == [];
  }

  /** Fresh iterators over nodes stand for what the nodes' subtrees hold. */
  lemma {:induction false} CursorsBag<T>(cs: seq<Node>, bag: Cursor -> multiset<T>, local: Node -> multiset<T>)
    requires forall i :: 0 <= i < |cs| ==> bag(Cursor(cs[i], 0)) == Gather(cs[i], local)
    ensures QueueBag(Cursors(cs), bag) == GatherAll(cs, local)
    decreases |cs|
  {
    if |cs| > 0 {
      var l := |cs| - 1;
      assert Cursors(cs)[..l] == Cursors(cs[..l]);
      CursorsBag(cs[..l], bag, local);
    }
  }

  /** A fresh iterator over n stands for every face of n's subtree. */
  lemma FreshCursorFaces(n: Node)
    ensures Unvisited(Cursor(n, 0)) == Faces(n)
  {
    assert Rest(Cursor(n, 0)) == n.faces;
  }

  /** Yielding the current face moves exactly that face out of the entry's bag. */
  lemma AdvanceCursor(c: Cursor)
    requires CursorValid(c)
    ensures Unvisited(c.(index := c.index + 1)) + multiset{c.node.faces[c.index]} == Unvisited(c)
  {
    var fs := c.node.faces;
    assert fs[c.index..] == [fs[c.index]] + fs[c.index + 1..];
  }

  // ---------------------------------------------------------------------
  // The face iterator

  /** `OctreeFaceIterator`: the queue of per-node iterators. */
  datatype FaceIterator = FaceIterator(queue: seq<Cursor>)

  /** The front of the queue has a face to yield, or the queue is empty. */
  predicate Settled(q: seq<Cursor>) {
    |q| == 0 || CursorValid(q[0])
  }

  /** The faces the iterator has still to yield. */
  function Pending(it: FaceIterator): multiset<Face> {
    QueueBag(it.queue, Unvisited)
  }

  /** The nodes the iterator has still to reach or leave. */
  function Unreached(q: seq<Cursor>): multiset<Node> {
    QueueBag(q, Unexpanded)
  }

  /**
    The queue's nodes are well-formed and ordered by depth, the deepest at
    most one level below the shallowest: the shape a breadth-first queue keeps.
   */
  predicate Layered(q: seq<Cursor>) {
    && (forall i :: 0 <= i < |q| ==> WellFormed(q[i].node))
    && (forall i, j :: 0 <= i <= j < |q| ==> q[i].node.depth <= q[j].node.depth <= q[i].node.depth + 1)
  }

  /** Replacing an exhausted front entry by its node's children keeps the faces the queue stands for. */
  lemma ExpandFrontFaces(q: seq<Cursor>)
    requires |q| > 0 && !CursorValid(q[0])
    ensures QueueBag(q[1..] + Cursors(q[0].node.children), Unvisited) == QueueBag(q, Unvisited)
  {
    var c := q[0];
    var cs := c.node.children;
    assert q == [c] + q[1..];
    QueueBagCons(c, q[1..], Unvisited);
    QueueBagConcat(q[1..], Cursors(cs), Unvisited);
    forall i | 0 <= i < |cs| ensures Unvisited(Cursor(cs[i], 0)) == Gather(cs[i], FaceBag) {
      FreshCursorFaces(cs[i]);
    }
    CursorsBag(cs, Unvisited, FaceBag);
    assert Rest(c) == [];
  }

  /** Replacing the front entry by its node's children reaches exactly that node. */
  lemma ExpandFrontNodes(q: seq<Cursor>)
    requires |q| > 0
    ensures Unreached(q[1..] + Cursors(q[0].node.children)) + multiset{q[0].node} == Unreached(q)
  {
    var c := q[0];
    var cs := c.node.children;
    assert q == [c] + q[1..];
    QueueBagCons(c, q[1..], Unexpanded);
    QueueBagConcat(q[1..], Cursors(cs), Unexpanded);
    CursorsBag(cs, Unexpanded, NodeBag);
    assert Unexpanded(c) == multiset{c.node} + GatherAll(cs, NodeBag);
  }

  /** Expanding the front keeps the queue layered and does not move its front up the tree. */
  lemma ExpandFrontLayered(q: seq<Cursor>)
    requires |q| > 0 && Layered(q)
    ensures Layered(q[1..] + Cursors(q[0].node.children))
    ensures |q[1..] + Cursors(q[0].node.children)| > 0 ==>
      (q[1..] + Cursors(q[0].node.children))[0].node.depth >= q[0].node.depth
  {
    var n := q[0].node;
    var r := q[1..] + Cursors(n.children);
    forall i | 0 <= i < |r| ensures WellFormed(r[i].node) && n.depth <= r[i].node.depth <= n.depth + 1 {
      if i >= |q| - 1 {
        assert r[i].node == n.children[i - (|q| - 1)];
      } else {
        assert r[i] == q[i + 1];
      }
    }
    forall i, j | 0 <= i <= j < |r| ensures r[i].node.depth <= r[j].node.depth <= r[i].node.depth + 1 {
      if j < |q| - 1 {
        assert r[i] == q[i + 1] && r[j] == q[j + 1];
      } else if i >= |q| - 1 {
        assert r[i].node == n.children[i - (|q| - 1)];
        assert r[j].node == n.children[j - (|q| - 1)];
      } else {
        assert r[i] == q[i + 1];
        assert r[j].node == n.children[j - (|q| - 1)];
      }
    }
  }

  /**
    `skipEmptyNodes`: while the front iterator is exhausted, replace it by
    iterators over its node's children at the back of the queue.
   */
  function SkipEmptyNodes(q: seq<Cursor>): (r: seq<Cursor>)
    ensures Settled(r)
    ensures QueueBag(r, Unvisited) == QueueBag(q, Unvisited)
    ensures Settled(q) ==> r == q
    ensures Layered(q) ==> Layered(r) && (|r| > 0 ==> r[0].node.depth >= q[0].node.depth)
    decreases |Unreached(q)|
  {
    if |q| > 0 && !CursorValid(q[0]) then
      var q' := q[1..] + Cursors(q[0].node.children);
      ExpandFrontFaces(q);
      ExpandFrontNodes(q);
      if |q| > 0 && Layered(q) then ExpandFrontLayered(q); SkipEmptyNodes(q') else SkipEmptyNodes(q')
    else
      q
  }

  /** The iterator the tree's face iteration starts with. */
  function FaceIteratorStart(t: Tree): (it: FaceIterator)
    ensures Settled(it.queue)
    ensures Pending(it) == Stored(t)
    ensures t.root.Some? && WellFormed(t.root.value) ==> Layered(it.queue)
  {
    if t.root.None? then
      FaceIterator([])
    else
      StartQueue(t.root.value);
      FaceIterator(SkipEmptyNodes([Cursor(t.root.value, 0)]))
  }

  /** A queue holding only a fresh iterator over n stands for n's subtree, and is layered when n is well-formed. */
  lemma StartQueue(n: Node)
    ensures QueueBag([Cursor(n, 0)], Unvisited) == Faces(n)
    ensures WellFormed(n) ==> Layered([Cursor(n, 0)])
  {
    QueueBagCons(Cursor(n, 0), [], Unvisited);
    FreshCursorFaces(n);
  }

  /** `isValid`: a face is left. */
  predicate FaceValid(it: FaceIterator) {
    |it.queue| > 0
  }

  /** `element`: the current face. */
  function FaceElement(it: FaceIterator): (f: Face)
    requires FaceValid(it) && Settled(it.queue)
    ensures f in Pending(it)
  {
    var c := it.queue[0];
    AdvanceCursor(c);
    QueueBagCons(c, it.queue[1..], Unvisited);
    assert it.queue == [c] + it.queue[1..];
    c.node.faces[c.index]
  }

  /** `depth`: the depth of the node holding the current face. */
  function FaceDepth(it: FaceIterator): int
    requires FaceValid(it)
  {
    it.queue[0].node.depth
  }

  /** `next`: advance the front iterator, then skip exhausted ones. */
  function FaceNext(it: FaceIterator): (r: FaceIterator)
    requires FaceValid(it) && Settled(it.queue)
    ensures Settled(r.queue)
    ensures Pending(r) + multiset{FaceElement(it)} == Pending(it)
    ensures Layered(it.queue) ==> Layered(r.queue) && (FaceValid(r) ==> FaceDepth(r) >= FaceDepth(it))
  {
    var q := Advanced(it.queue);
    AdvanceFront(it.queue);
    AdvanceFrontLayered(it.queue);
    FaceIterator(SkipEmptyNodes(q))
  }

  /** The queue after the front iterator moved past its current face. */
  function Advanced(q: seq<Cursor>): seq<Cursor>
    requires |q| > 0
  {
    [q[0].(index := q[0].index + 1)] + q[1..]
  }

  lemma AdvanceFront(q: seq<Cursor>)
    requires |q| > 0 && CursorValid(q[0])
    ensures QueueBag(Advanced(q), Unvisited) + multiset{q[0].node.faces[q[0].index]} == QueueBag(q, Unvisited)
  {
    var c, rest := q[0], q[1..];
    var c' := c.(index := c.index + 1);
    assert q == [c] + rest;
    assert Advanced(q) == [c'] + rest;
    QueueBagCons(c, rest, Unvisited);
    QueueBagCons(c', rest, Unvisited);
    AdvanceCursor(c);
  }

  lemma AdvanceFrontLayered(q: seq<Cursor>)
    requires |q| > 0
    ensures Layered(q) ==> Layered(Advanced(q))
    ensures Advanced(q)[0].node == q[0].node
  {
    var r := Advanced(q);
    forall i | 0 <= i < |q| ensures r[i].node == q[i].node { }
  }

  /** Drives the face iterator to the end: every stored face is yielded, as often as it is stored. */
  method CollectFaces(t: Tree) returns (out: seq<Face>)
    ensures multiset(out) == Stored(t)
  {
    var it := FaceIteratorStart(t);
    out := [];
    while FaceValid(it)
      invariant Settled(it.queue)
      invariant multiset(out) + Pending(it) == Stored(t)
      decreases |Pending(it)|
    {
      var f := FaceElement(it);
      var it' := FaceNext(it);
      out := out + [f];
      it := it';
    }
    assert Pending(it) == multiset{};
  }

  // ---------------------------------------------------------------------
  // The node iterator

  /** `OctreeNodeIterator`: the queue of nodes still to visit. */
  datatype NodeIterator = NodeIterator(nodes: seq<Node>)

  /** The node queue is well-formed and depth-layered, as `Layered` says for face queues. */
  predicate NodesLayered(q: seq<Node>) {
    && (forall i :: 0 <= i < |q| ==> WellFormed(q[i]))
    && (forall i, j :: 0 <= i <= j < |q| ==> q[i].depth <= q[j].depth <= q[i].depth + 1)
  }

  /** The sub-nodes the iterator has still to yield. */
  function Unyielded(it: NodeIterator): multiset<Node> {
    GatherAll(it.nodes, NodeBag)
  }

  /** The nodes of the tree. */
  function AllNodes(t: Tree): multiset<Node> {
    if t.root.None? then multiset{} else Subtrees(t.root.value)
  }

  /** The iterator the tree's node iteration starts with. */
  function NodeIteratorStart(t: Tree): (it: NodeIterator)
    ensures Unyielded(it) == AllNodes(t)
    ensures t.root.Some? && WellFormed(t.root.value) ==> NodesLayered(it.nodes)
  {
    if t.root.None? then
      NodeIterator([])
    else
      GatherAllCons(t.root.value, [], NodeBag);
      assert [t.root.value] + [] == [t.root.value];
      NodeIterator([t.root.value])
  }

  /** `isValid`: a node is left. */
  predicate NodeValid(it: NodeIterator) {
    |it.nodes| > 0
  }

  /** `element`: the current node. */
  function NodeElement(it: NodeIterator): (n: Node)
    requires NodeValid(it)
    ensures n in Unyielded(it)
  {
    var n := it.nodes[0];
    GatherAllIncludes(it.nodes, 0, NodeBag);
    n
  }

  /** `next`: queue the current node's children and drop the node. */
  function NodeNext(it: NodeIterator): (r: NodeIterator)
    requires NodeValid(it)
    ensures Unyielded(r) + multiset{NodeElement(it)} == Unyielded(it)
    ensures NodesLayered(it.nodes) ==> NodesLayered(r.nodes)
    ensures NodesLayered(it.nodes) && NodeValid(r) ==> NodeElement(r).depth >= NodeElement(it).depth
  {
    var n := it.nodes[0];
    var r := it.nodes[1..] + n.children;
    assert it.nodes == [n] + it.nodes[1..];
    GatherAllCons(n, it.nodes[1..], NodeBag);
    GatherAllConcat(it.nodes[1..], n.children, NodeBag);
    NodeNextLayered(it.nodes);
    NodeIterator(r)
  }

  lemma NodeNextLayered(q: seq<Node>)
    requires |q| > 0
    ensures NodesLayered(q) ==> NodesLayered(q[1..] + q[0].children)
    ensures NodesLayered(q) && |q[1..] + q[0].children| > 0 ==> (q[1..] + q[0].children)[0].depth >= q[0].depth
  {
    if NodesLayered(q) {
      var n := q[0];
      var r := q[1..] + n.children;
      forall i | 0 <= i < |r| ensures WellFormed(r[i]) && n.depth <= r[i].depth <= n.depth + 1 {
        if i >= |q| - 1 {
          assert r[i] == n.children[i - (|q| - 1)];
        } else {
          assert r[i] == q[i + 1];
        }
      }
      forall i, j | 0 <= i <= j < |r| ensures r[i].depth <= r[j].depth <= r[i].depth + 1 {
        if j < |q| - 1 {
          assert r[i] == q[i + 1] && r[j] == q[j + 1];
        } else if i >= |q| - 1 {
          assert r[i] == n.children[i - (|q| - 1)];
          assert r[j] == n.children[j - (|q| - 1)];
        } else {
          assert r[i] == q[i + 1];
          assert r[j] == n.children[j - (|q| - 1)];
        }
      }
    }
  }

  /** The nodes come in order of depth. */
  predicate DepthOrdered(ns: seq<Node>) {
    forall i, j :: 0 <= i <= j < |ns| ==> ns[i].depth <= ns[j].depth
  }

  /** No node of ns lies deeper than d. */
  predicate NoDeeper(ns: seq<Node>, d: int) {
    forall i :: 0 <= i < |ns| ==> ns[i].depth <= d
  }

  /** Yielding the front node of a layered queue keeps the yielded nodes in order of depth. */
  lemma YieldInOrder(out: seq<Node>, it: NodeIterator)
    requires NodeValid(it) && NodesLayered(it.nodes)
    requires DepthOrdered(out) && NoDeeper(out, it.nodes[0].depth)
    ensures NodesLayered(NodeNext(it).nodes) && DepthOrdered(out + [it.nodes[0]])
    ensures NodeValid(NodeNext(it)) ==> NoDeeper(out + [it.nodes[0]], NodeNext(it).nodes[0].depth)
  {
  }

  /**
    Drives the node iterator to the end: every node is yielded once, and in
    a well-formed tree in order of depth.
   */
  method CollectNodes(t: Tree) returns (out: seq<Node>)
    ensures multiset(out) == AllNodes(t)
    ensures t.root.Some? && WellFormed(t.root.value) ==> DepthOrdered(out)
  {
    var layered := t.root.Some? && WellFormed(t.root.value);
    var it := NodeIteratorStart(t);
    out := [];
    while NodeValid(it)
      invariant multiset(out) + Unyielded(it) == AllNodes(t)
      invariant layered ==> NodesLayered(it.nodes) && DepthOrdered(out)
      invariant layered && NodeValid(it) ==> NoDeeper(out, it.nodes[0].depth)
      decreases |Unyielded(it)|
    {
      var n := NodeElement(it);
      var it' := NodeNext(it);
      if layered {
        YieldInOrder(out, it);
      }
      out := out + [n];
      it := it';
    }
    assert Unyielded(it) == multiset{};
  }
}

=== FILE: octree_node.dfy ===
/**
  Octree nodes: the per-node data of `OctreeNode::Impl`, the fixed octant
  layout of `makeChildren`, the structural invariants every node keeps, and
  the bags (multisets) of faces, node ids and sub-nodes a subtree holds.
 */
module OctreeNode {
  import opened Geometry
  import opened Outcomes

  type FaceId = nat
  type NodeId = nat

  /** A face is stored at a node unless its width is at most this fraction of the node's width. */
  const RelativeMinFaceSize: real := 0.1

  /**
    What the index knows about a face (the source's FaceToInsert): the
    face's id and, from its triangle, the centroid, the maximal extent
    ("width") and the corners of the bounding box.
   */
  datatype Face = Face(id: FaceId, center: Vec3, width: real, minimum: Vec3, maximum: Vec3)

  /**
    An octree node. The source's parent pointer is the enclosing node of
    this value; `id` is the node's identity, unchanged while it exists.
   */
  datatype Node = Node(id: NodeId, center: Vec3, width: real, depth: int,
                       faces: seq<Face>, children: seq<Node>)

  /** The geometry a triangle gives its centroid, extent and bounding box. */
  predicate Sane(f: Face) {
    && AllLessEq(f.minimum, f.center) && AllLessEq(f.center, f.maximum)
    && f.maximum.x - f.minimum.x <= f.width
    && f.maximum.y - f.minimum.y <= f.width
    && f.maximum.z - f.minimum.z <= f.width
  }

  predicate ContainsPoint(n: Node, v: Vec3) {
    InCube(v, n.center, n.width)
  }

  /** `contains (FaceToInsert)`: centroid inside the node's cube and not wider than the node. */
  predicate Contains(n: Node, f: Face) {
    ContainsPoint(n, f.center) && f.width <= n.width
  }

  /**
    The source states containment with the cube's two corners, center
    minus and plus half the width; that is the same test.
   */
  lemma ContainsByCorners(n: Node, f: Face)
    ensures var h := n.width * 0.5;
      var lo := Add(n.center, Vec3(-h, -h, -h)); var hi := Add(n.center, Vec3(h, h, h));
      Contains(n, f) <==> AllLessEq(lo, f.center) && AllLessEq(f.center, hi) && f.width <= n.width
  {
  }

  predicate IsEmpty(n: Node) {
    |n.faces| == 0 && |n.children| == 0
  }

  /** The size test of `insertFace`: small faces go down to a child. */
  predicate Descends(n: Node, f: Face) {
    f.width <= n.width * RelativeMinFaceSize
  }

  /** A face may be stored at n itself. */
  predicate Fits(n: Node, f: Face) {
    Contains(n, f) && !Descends(n, f)
  }

  /** Same node identity and the same cube at the same depth. */
  predicate SameFrame(a: Node, b: Node) {
    a.id == b.id && a.center == b.center && a.width == b.width && a.depth == b.depth
  }

  // ---------------------------------------------------------------------
  // Octant layout

  function Offset(positive: bool, q: real): real {
    if positive then q else -q
  }

  /**
    Center of child i of a node with center c and width w: the x offset is
    positive iff bit 2 of i is set, y iff bit 1, z iff bit 0.
   */
  function OctantCenter(c: Vec3, w: real, i: nat): Vec3
    requires i < 8
  {
    var q := w * 0.25;
    Vec3(c.x + Offset(i / 4 % 2 == 1, q), c.y + Offset(i / 2 % 2 == 1, q), c.z + Offset(i % 2 == 1, q))
  }

  /** The octant of c that v lies in, ties going to the negative side. */
  function OctantOf(c: Vec3, v: Vec3): nat {
    (if c.x < v.x then 4 else 0) + (if c.y < v.y then 2 else 0) + (if c.z < v.z then 1 else 0)
  }

  /** Child i of p has the place the octant layout gives it. */
  predicate ChildPlaced(p: Node, i: nat, c: Node)
    requires i < 8
  {
    c.center == OctantCenter(p.center, p.width, i) && c.width == p.width * 0.5 && c.depth == p.depth + 1
  }

  /** A fresh empty leaf as `makeChildren` creates it. */
  function Leaf(id: NodeId, center: Vec3, width: real, depth: int): Node {
    Node(id, center, width, depth, [], [])
  }

  /**
    `makeChildren`: eight empty children in the fixed octant order, with
    the ids next .. next + 7.
   */
  function MakeChildren(n: Node, next: NodeId): (r: Node)
    requires |n.children| == 0
    ensures r.id == n.id && r.center == n.center && r.width == n.width && r.depth == n.depth
    ensures r.faces == n.faces && |r.children| == 8
    ensures forall i :: 0 <= i < 8 ==>
      r.children[i] == Leaf(next + i, OctantCenter(n.center, n.width, i), n.width * 0.5, n.depth + 1)
  {
    var q := n.width * 0.25;
    var w := n.width * 0.5;
    var d := n.depth + 1;
    var c := n.center;
    n.(children := [
      Leaf(next,     Add(c, Vec3(-q, -q, -q)), w, d),
      Leaf(next + 1, Add(c, Vec3(-q, -q,  q)), w, d),
      Leaf(next + 2, Add(c, Vec3(-q,  q, -q)), w, d),
      Leaf(next + 3, Add(c, Vec3(-q,  q,  q)), w, d),
      Leaf(next + 4, Add(c, Vec3( q, -q, -q)), w, d),
      Leaf(next + 5, Add(c, Vec3( q, -q,  q)), w, d),
      Leaf(next + 6, Add(c, Vec3( q,  q, -q)), w, d),
      Leaf(next + 7, Add(c, Vec3( q,  q,  q)), w, d)])
  }

  /** The octant a point falls in holds the point: the eight child cubes cover their parent. */
  lemma OctantContains(c: Vec3, w: real, v: Vec3)
    requires w > 0.0 && InCube(v, c, w)
    ensures OctantOf(c, v) < 8
    ensures InCube(v, OctantCenter(c, w, OctantOf(c, v)), w * 0.5)
  {
    var i := OctantOf(c, v);
    assert i / 4 % 2 == 1 <==> c.x < v.x;
    assert i / 2 % 2 == 1 <==> c.y < v.y;
    assert i % 2 == 1 <==> c.z < v.z;
  }

  // ---------------------------------------------------------------------
  // Structural invariants

  /**
    The invariants the source keeps for every node: positive width, no
    children or exactly eight, each child in its octant at half the width
    and one level deeper, and every stored face fitting its node.
   */
  predicate WellFormed(n: Node)
    decreases n
  {
    && n.width > 0.0
    && (|n.children| == 0 || |n.children| == 8)
    && (forall f :: f in n.faces ==> Fits(n, f))
    && (forall i :: 0 <= i < |n.children| ==> ChildPlaced(n, i, n.children[i]) && WellFormed(n.children[i]))
  }

  /** Some child of a well-formed inner node contains a face its parent passes down. */
  lemma SomeChildContains(n: Node, f: Face)
    requires WellFormed(n) && |n.children| == 8
    requires Contains(n, f) && Descends(n, f)
    ensures OctantOf(n.center, f.center) < 8
    ensures Contains(n.children[OctantOf(n.center, f.center)], f)
  {
    OctantContains(n.center, n.width, f.center);
  }

  // ---------------------------------------------------------------------
  // Bags of a subtree

  /** Everything `local` yields for the nodes of the subtree n. */
  function Gather<T>(n: Node, local: Node -> multiset<T>): multiset<T>
    decreases n
  {
    local(n) + GatherAll(n.children, local)
  }

  function GatherAll<T>(cs: seq<Node>, local: Node -> multiset<T>): multiset<T>
    decreases cs
  {
    if |cs| == 0 then multiset{} else GatherAll(cs[..|cs| - 1], local) + Gather(cs[|cs| - 1], local)
  }

  function FaceBag(n: Node): multiset<Face> { multiset(n.faces) }
  function IdBag(n: Node): multiset<NodeId> { multiset{n.id} }
  function NodeBag(n: Node): multiset<Node> { multiset{n} }

  /** The faces stored in the subtree n, with multiplicity. */
  function Faces(n: Node): multiset<Face> { Gather(n, FaceBag) }

  /** The ids of the nodes of the subtree n, with multiplicity. */
  function NodeIds(n: Node): multiset<NodeId> { Gather(n, IdBag) }

  /** The nodes of the subtree n, n itself included. */
  function Subtrees(n: Node): multiset<Node> { Gather(n, NodeBag) }

  ghost predicate UniqueIds(n: Node) {
    forall k :: NodeIds(n)[k] <= 1
  }

  ghost predicate IdsBelow(n: Node, bound: NodeId) {
    forall k :: k in NodeIds(n) ==> k < bound
  }

  /** A multiset identity: adding d on both sides of an equation keeps it. */
  lemma AddBoth<T>(a: multiset<T>, b: multiset<T>, c: multiset<T>, d: multiset<T>, e: multiset<T>)
    requires a + c == b + e
    ensures (a + d) + c == (b + d) + e
  {
    assert forall k :: ((a + d) + c)[k] == (a + c)[k] + d[k];
  }

  /** Replacing child i changes the children's bag by exactly the two subtrees' bags. */
  lemma {:induction false} GatherAllUpdate<T>(cs: seq<Node>, i: nat, c: Node, local: Node -> multiset<T>)
    requires i < |cs|
    ensures GatherAll(cs[i := c], local) + Gather(cs[i], local) == GatherAll(cs, local) + Gather(c, local)
    decreases |cs|
  {
    var l := |cs| - 1;
    var ds := cs[i := c];
    assert GatherAll(ds, local) == GatherAll(ds[..l], local) + Gather(ds[l], local);
    assert GatherAll(cs, local) == GatherAll(cs[..l], local) + Gather(cs[l], local);
    if i == l {
      assert ds[..l] == cs[..l];
    } else {
      GatherAllUpdate(cs[..l], i, c, local);
      assert ds[..l] == cs[..l][i := c];
      assert cs[..l][i] == cs[i];
      AddBoth(GatherAll(ds[..l], local), GatherAll(cs[..l], local), Gather(cs[i], local),
              Gather(cs[l], local), Gather(c, local));
    }
  }

  /** Each child's bag is part of its siblings' joint bag. */
  lemma {:induction false} GatherAllIncludes<T>(cs: seq<Node>, i: nat, local: Node -> multiset<T>)
    requires i < |cs|
    ensures Gather(cs[i], local) <= GatherAll(cs, local)
    decreases |cs|
  {
    var l := |cs| - 1;
    if i < l {
      GatherAllIncludes(cs[..l], i, local);
      assert cs[..l][i] == cs[i];
    }
  }

  /** The joint bag of a concatenation is the sum of the parts' bags. */
  lemma {:induction false} GatherAllConcat<T>(a: seq<Node>, b: seq<Node>, local: Node -> multiset<T>)
    ensures GatherAll(a + b, local) == GatherAll(a, local) + GatherAll(b, local)
    decreases |b|
  {
    if |b| == 0 {
      assert a + b == a;
    } else {
      var l := |b| - 1;
      assert (a + b)[..|a + b| - 1] == a + b[..l];
      assert (a + b)[|a + b| - 1] == b[l];
      GatherAllConcat(a, b[..l], local);
    }
  }

  /** The bag of a sequence that starts with n. */
  lemma GatherAllCons<T>(n: Node, rest: seq<Node>, local: Node -> multiset<T>)
    ensures GatherAll([n] + rest, local) == Gather(n, local) + GatherAll(rest, local)
  {
    GatherAllConcat([n], rest, local);
    assert [n][..0] == [];
  }

  /** Leaves on which `local` yields nothing contribute nothing. */
  lemma {:induction false} GatherAllBareLeaves<T>(cs: seq<Node>, local: Node -> multiset<T>)
    requires forall j :: 0 <= j < |cs| ==> |cs[j].children| == 0 && local(cs[j]) == multiset{}
    ensures GatherAll(cs, local) == multiset{}
    decreases |cs|
  {
    if |cs| > 0 {
      var l := |cs| - 1;
      assert GatherAll(cs[l].children, local) == multiset{};
      GatherAllBareLeaves(cs[..l], local);
    }
  }

  /** The ids of leaves numbered base, base + 1, ... */
  lemma {:induction false} LeafIds(cs: seq<Node>, base: NodeId)
    requires forall j :: 0 <= j < |cs| ==> |cs[j].children| == 0 && cs[j].id == base + j
    ensures forall k: NodeId :: GatherAll(cs, IdBag)[k] == if base <= k < base + |cs| then 1 else 0
    decreases |cs|
  {
    if |cs| > 0 {
      var l := |cs| - 1;
      var last: NodeId := base + l;
      assert GatherAll(cs[l].children, IdBag) == multiset{};
      assert Gather(cs[l], IdBag) == multiset{last};
      LeafIds(cs[..l], base);
      assert GatherAll(cs, IdBag) == GatherAll(cs[..l], IdBag) + multiset{last};
      forall k: NodeId ensures GatherAll(cs, IdBag)[k] == if base <= k < base + |cs| then 1 else 0 {
        assert GatherAll(cs, IdBag)[k] == GatherAll(cs[..l], IdBag)[k] + multiset{last}[k];
        assert GatherAll(cs[..l], IdBag)[k] == if base <= k < base + l then 1 else 0;
      }
    }
  }

  /** The bags of a node created by `MakeChildren`. */
  lemma MakeChildrenBags(n: Node, next: NodeId)
    requires |n.children| == 0
    ensures Faces(MakeChildren(n, next)) == Faces(n)
    ensures forall k: NodeId ::
      NodeIds(MakeChildren(n, next))[k] == NodeIds(n)[k] + (if next <= k < next + 8 then 1 else 0)
  {
    var cs := MakeChildren(n, next).children;
    GatherAllBareLeaves(cs, FaceBag);
    LeafIds(cs, next);
    assert GatherAll(n.children, FaceBag) == multiset{};
    assert GatherAll(n.children, IdBag) == multiset{};
    var m := MakeChildren(n, next);
    assert NodeIds(m) == multiset{n.id} + GatherAll(cs, IdBag);
    assert NodeIds(n) == multiset{n.id};
  }

  /** Replacing one child changes a subtree's bag by exactly the two children's bags. */
  lemma ReplaceChild<T>(n: Node, i: nat, c: Node, local: Node -> multiset<T>)
    requires i < |n.children|
    requires local(n.(children := n.children[i := c])) == local(n)
    ensures Gather(n.(children := n.children[i := c]), local) + Gather(n.children[i], local)
         == Gather(n, local) + Gather(c, local)
  {
    GatherAllUpdate(n.children, i, c, local);
    var m := n.(children := n.children[i := c]);
    assert Gather(m, local) == local(n) + GatherAll(n.children[i := c], local);
    assert forall x :: (Gather(m, local) + Gather(n.children[i], local))[x]
                    == local(n)[x] + (GatherAll(n.children[i := c], local) + Gather(n.children[i], local))[x];
  }

  /** Replacing a child by a well-formed node in the child's place keeps the parent well-formed. */
  lemma ReplaceWellFormed(n: Node, i: nat, c': Node)
    requires WellFormed(n) && i < |n.children|
    requires WellFormed(c') && ChildPlaced(n, i, c')
    ensures WellFormed(n.(children := n.children[i := c']))
  {
    var m := n.(children := n.children[i := c']);
    forall j | 0 <= j < |m.children|
      ensures ChildPlaced(m, j, m.children[j]) && WellFormed(m.children[j])
    {
      if j != i {
        assert m.children[j] == n.children[j];
      }
    }
  }

  /** Every child's bag is part of its siblings' joint bag. */
  lemma GatherAllIncludesAll<T>(cs: seq<Node>, local: Node -> multiset<T>)
    ensures forall j :: 0 <= j < |cs| ==> Gather(cs[j], local) <= GatherAll(cs, local)
  {
    forall j | 0 <= j < |cs| ensures Gather(cs[j], local) <= GatherAll(cs, local) {
      GatherAllIncludes(cs, j, local);
    }
  }

  /** A child's node ids are among its parent's. */
  lemma ChildIdsBelow(n: Node, i: nat, bound: NodeId)
    requires i < |n.children| && IdsBelow(n, bound)
    ensures IdsBelow(n.children[i], bound)
  {
    GatherAllIncludes(n.children, i, IdBag);
    assert NodeIds(n) == multiset{n.id} + GatherAll(n.children, IdBag);
    forall k | k in NodeIds(n.children[i]) ensures k < bound {
      assert k in NodeIds(n);
    }
  }

  // ---------------------------------------------------------------------
  // Where a face is stored

  /** `face.octreeNode ()`: the first node, in pre-order, whose own face list holds f. */
  function HolderOf(n: Node, f: Face): Option<NodeId>
    decreases n
  {
    if f in n.faces then Some(n.id) else HolderAmong(n.children, f)
  }

  function HolderAmong(cs: seq<Node>, f: Face): Option<NodeId>
    decreases cs
  {
    if |cs| == 0 then None
    else
      var h := HolderAmong(cs[..|cs| - 1], f);
      if h.Some? then h else HolderOf(cs[|cs| - 1], f)
  }

  /** A face has a holder exactly when the subtree stores it. */
  lemma {:induction false} HolderIffStored(n: Node, f: Face)
    ensures HolderOf(n, f).Some? <==> f in Faces(n)
    decreases n, 1
  {
    HolderAmongIffStored(n.children, f);
  }

  lemma {:induction false} HolderAmongIffStored(cs: seq<Node>, f: Face)
    ensures HolderAmong(cs, f).Some? <==> f in GatherAll(cs, FaceBag)
    decreases cs, 0
  {
    if |cs| > 0 {
      HolderAmongIffStored(cs[..|cs| - 1], f);
      HolderIffStored(cs[|cs| - 1], f);
    }
  }

  /** When only child i can store f, the search among the children ends at child i. */
  lemma {:induction false} HolderAmongAt(cs: seq<Node>, i: nat, f: Face)
    requires i < |cs|
    requires forall j :: 0 <= j < |cs| && j != i ==> f !in Faces(cs[j])
    ensures HolderAmong(cs, f) == HolderOf(cs[i], f)
    decreases |cs|
  {
    var l := |cs| - 1;
    if i == l {
      HolderAmongNone(cs[..l], f);
    } else {
      HolderAmongAt(cs[..l], i, f);
      HolderIffStored(cs[l], f);
    }
  }

  lemma {:induction false} HolderAmongNone(cs: seq<Node>, f: Face)
    requires forall j :: 0 <= j < |cs| ==> f !in Faces(cs[j])
    ensures HolderAmong(cs, f) == None
    decreases |cs|
  {
    if |cs| > 0 {
      HolderAmongNone(cs[..|cs| - 1], f);
      HolderIffStored(cs[|cs| - 1], f);
    }
  }

  // ---------------------------------------------------------------------
  // Tidiness: no inner node with nothing below it

  /**
    Every inner node has a face somewhere among its children. The source
    keeps this as long as the tree is grown only around faces: an empty
    child set is cleared as soon as its last face goes.
   */
  predicate Tidy(n: Node)
    decreases n
  {
    && (|n.children| > 0 ==> GatherAll(n.children, FaceBag) != multiset{})
    && (forall i :: 0 <= i < |n.children| ==> Tidy(n.children[i]))
  }

  /** A tidy node without faces in its subtree is an empty leaf. */
  lemma TidyWithoutFacesIsEmpty(n: Node)
    requires Tidy(n) && Faces(n) == multiset{}
    ensures IsEmpty(n)
  {
    assert Faces(n) == multiset(n.faces) + GatherAll(n.children, FaceBag);
    assert multiset(n.faces) == multiset{};
    assert |n.faces| == |multiset(n.faces)|;
  }

  /** Every face a well-formed subtree stores has positive width: it fits the node holding it. */
  lemma {:induction false} StoredFacesPositive(n: Node, f: Face)
    requires WellFormed(n) && f in Faces(n)
    ensures f.width > 0.0
    decreases n, 1
  {
    assert Faces(n) == multiset(n.faces) + GatherAll(n.children, FaceBag);
    if f !in n.faces {
      StoredAmongPositive(n.children, f);
    }
  }

  lemma {:induction false} StoredAmongPositive(cs: seq<Node>, f: Face)
    requires forall i :: 0 <= i < |cs| ==> WellFormed(cs[i])
    requires f in GatherAll(cs, FaceBag)
    ensures f.width > 0.0
    decreases cs, 0
  {
    var l := |cs| - 1;
    if f in GatherAll(cs[..l], FaceBag) {
      StoredAmongPositive(cs[..l], f);
    } else {
      StoredFacesPositive(cs[l], f);
    }
  }
}

=== FILE: outcomes.dfy ===
/** Optional values and success-or-error results shared by the model. */
module Outcomes {

  /** A value that may be absent (a nullable pointer in the source). */
  datatype Option<+T> = None | Some(value: T)

  /** Either a value or the reason the operation was refused. */
  datatype Result<+T, +E> = Ok(value: T) | Err(error: E)
}

=== FILE: partial_actions.dfy ===
/**
  Partial actions: single reversible writes to the mesh, recorded with the
  value they overwrite, and the action unit that runs them in order and
  undoes them in reverse (`ActionUnitOnWMesh`).
 */
module PartialActions {
  import opened Outcomes
  import opened OctreeNode
  import Octree
  import opened WingedMesh

  /**
    A recorded write. Field writes keep the record before and after;
    removing an edge keeps the edge and the record of its right face,
    which goes with it; removing a face keeps its record and the triangle
    its octree entry was made from.
   */
  datatype Action =
    | EdgeWrite(edge: EdgeId, edgeBefore: WingedEdge, edgeAfter: WingedEdge)
    | FaceWrite(face: FaceId, faceBefore: WingedFace, faceAfter: WingedFace)
    | VertexWrite(vertex: VertexId, vertexBefore: WingedVertex, vertexAfter: WingedVertex)
    | EdgeRemoval(edge: EdgeId, removedEdge: WingedEdge, rightRecord: Option<WingedFace>)
    | FaceRemoval(face: FaceId, removedFace: WingedFace, triangle: Face)

  /** The action was recorded against m: what it remembers as overwritten is what m holds. */
  predicate Matches(m: Mesh, a: Action) {
    match a
    case EdgeWrite(id, before, _) => id in m.edges && m.edges[id] == before
    case FaceWrite(id, before, _) => id in m.faces && m.faces[id] == before
    case VertexWrite(id, before, _) => id in m.vertices && m.vertices[id] == before
    case EdgeRemoval(id, e, right) =>
      && id in m.edges && m.edges[id] == e
      && (if e.rightFace.None? then right.None?
          else e.rightFace.value in m.faces && right == Some(m.faces[e.rightFace.value]))
    case FaceRemoval(id, f, tri) =>
      id in m.faces && m.faces[id] == f && id in m.index.idMap && m.index.idMap[id] == tri
  }

  /** Undoing the action can re-insert what it removed from the index. */
  predicate Reversible(a: Action) {
    a.FaceRemoval? ==> a.triangle.width > 0.0
  }

  /** `redo` of one partial action: write the new value, or remove again. */
  function Apply(m: Mesh, a: Action): (r: Result<Mesh, MeshError>)
    requires Octree.Valid(m.index)
    ensures r.Ok? ==> Octree.Valid(r.value.index)
    ensures r.Err? <==> a.FaceRemoval? && a.face !in m.index.idMap
  {
    match a
    case EdgeWrite(id, _, after) => Ok(m.(edges := m.edges[id := after]))
    case FaceWrite(id, _, after) => Ok(m.(faces := m.faces[id := after]))
    case VertexWrite(id, _, after) => Ok(m.(vertices := m.vertices[id := after]))
    case EdgeRemoval(id, e, _) =>
      Ok(m.(edges := m.edges - {id}, faces := if e.rightFace.Some? then m.faces - {e.rightFace.value} else m.faces))
    case FaceRemoval(id, _, _) =>
      var d := Octree.DeleteFace(m.index, id);
      if d.Err? then Err(IndexError(d.error)) else Ok(m.(faces := m.faces - {id}, index := d.value))
  }

  /** `undo` of one partial action: write the old value back, or restore what was removed. */
  function Revert(m: Mesh, a: Action): (r: Result<Mesh, MeshError>)
    requires Octree.Valid(m.index) && Reversible(a)
    ensures r.Ok? ==> Octree.Valid(r.value.index)
    ensures r.Err? <==> a.FaceRemoval? && a.triangle.id in m.index.idMap
  {
    match a
    case EdgeWrite(id, before, _) => Ok(m.(edges := m.edges[id := before]))
    case FaceWrite(id, before, _) => Ok(m.(faces := m.faces[id := before]))
    case VertexWrite(id, before, _) => Ok(m.(vertices := m.vertices[id := before]))
    case EdgeRemoval(id, e, right) =>
      Ok(m.(edges := m.edges[id := e],
            faces := if e.rightFace.Some? && right.Some? then m.faces[e.rightFace.value := right.value] else m.faces))
    case FaceRemoval(id, f, tri) =>
      var i := Octree.InsertFace(m.index, tri);
      if i.Err? then Err(IndexError(i.error)) else Ok(m.(faces := m.faces[id := f], index := i.value.tree))
  }

  /** An action recorded against a valid mesh can be applied and later reverted. */
  lemma MatchedIsReversible(m: Mesh, a: Action)
    requires Octree.Valid(m.index) && Matches(m, a)
    ensures Apply(m, a).Ok? && Reversible(a)
  {
    if a.FaceRemoval? {
      Octree.IndexedWidthPositive(m.index, a.face);
    }
  }

  /** Undoing an action right after doing it gives back what an observer saw before. */
  lemma RevertAfterApply(m: Mesh, a: Action)
    requires Octree.Valid(m.index) && Matches(m, a)
    ensures Apply(m, a).Ok? && Reversible(a)
    ensures Revert(Apply(m, a).value, a).Ok?
    ensures ViewOf(Revert(Apply(m, a).value, a).value) == ViewOf(m)
  {
    MatchedIsReversible(m, a);
    if a.FaceRemoval? {
      RevertFaceRemoval(m, a);
    } else {
      RevertWrite(m, a);
    }
  }

  lemma RevertWrite(m: Mesh, a: Action)
    requires Octree.Valid(m.index) && Matches(m, a) && !a.FaceRemoval?
    ensures Apply(m, a).Ok? && Revert(Apply(m, a).value, a).Ok?
    ensures ViewOf(Revert(Apply(m, a).value, a).value) == ViewOf(m)
  {
    var p := Apply(m, a).value;
    match a
    case EdgeWrite(id, _, _) => assert p.edges[id := m.edges[id]] == m.edges;
    case FaceWrite(id, _, _) => assert p.faces[id := m.faces[id]] == m.faces;
    case VertexWrite(id, _, _) => assert p.vertices[id := m.vertices[id]] == m.vertices;
    case EdgeRemoval(id, e, right) =>
      assert p.edges[id := e] == m.edges;
      if e.rightFace.Some? {
        assert p.faces[e.rightFace.value := right.value] == m.faces;
      }
  }

  /** Removing a face and putting it back: the index deletes the entry and re-inserts the recorded triangle under the same id. */
  lemma RevertFaceRemoval(m: Mesh, a: Action)
    requires Octree.Valid(m.index) && Matches(m, a) && a.FaceRemoval?
    ensures Apply(m, a).Ok? && Reversible(a)
    ensures Revert(Apply(m, a).value, a).Ok?
    ensures ViewOf(Revert(Apply(m, a).value, a).value) == ViewOf(m)
  {
    Octree.IndexedWidthPositive(m.index, a.face);
    var p := Apply(m, a).value;
    RemovedFromIndex(m, a);
    ReinsertedIntoIndex(m, p, a);
  }

  lemma RemovedFromIndex(m: Mesh, a: Action)
    requires Octree.Valid(m.index) && Matches(m, a) && a.FaceRemoval?
    ensures Apply(m, a).Ok?
    ensures Apply(m, a).value.index.idMap == m.index.idMap - {a.face}
    ensures Apply(m, a).value.faces == m.faces - {a.face}
    ensures Apply(m, a).value.vertices == m.vertices && Apply(m, a).value.edges == m.edges
  {
  }

  lemma ReinsertedIntoIndex(m: Mesh, p: Mesh, a: Action)
    requires a.FaceRemoval? && a.face in m.faces && m.faces[a.face] == a.removedFace
    requires a.face in m.index.idMap && m.index.idMap[a.face] == a.triangle
    requires Octree.Valid(p.index) && a.triangle.width > 0.0 && a.triangle.id == a.face
    requires p.index.idMap == m.index.idMap - {a.face} && p.faces == m.faces - {a.face}
    requires p.vertices == m.vertices && p.edges == m.edges
    ensures Revert(p, a).Ok? && ViewOf(Revert(p, a).value) == ViewOf(m)
  {
    var t := ReinsertedMap(p.index, a.triangle);
    assert Revert(p, a) == Ok(p.(faces := p.faces[a.face := a.removedFace], index := t));
    MapsBack(m.index.idMap, a.face, a.triangle);
    MapsBack(m.faces, a.face, a.removedFace);
  }

  /** The tree after inserting f, and its id map. */
  function ReinsertedMap(t: Octree.Tree, f: Face): (r: Octree.Tree)
    requires Octree.Valid(t) && f.width > 0.0 && f.id !in t.idMap
    ensures Octree.InsertFace(t, f).Ok? && Octree.InsertFace(t, f).value.tree == r
    ensures r.idMap == t.idMap[f.id := f]
  {
    Octree.InsertFace(t, f).value.tree
  }

  lemma MapsBack<K, V>(m: map<K, V>, k: K, v: V)
    requires k in m && m[k] == v
    ensures (m - {k})[k := v] == m
  {
  }

  /** Doing an action depends only on what an observer sees. */
  lemma ApplyRespectsView(x: Mesh, y: Mesh, a: Action)
    requires Octree.Valid(x.index) && Octree.Valid(y.index) && ViewOf(x) == ViewOf(y)
    ensures Apply(x, a).Ok? == Apply(y, a).Ok?
    ensures Apply(x, a).Ok? ==> ViewOf(Apply(x, a).value) == ViewOf(Apply(y, a).value)
  {
  }

  /** Undoing an action depends only on what an observer sees. */
  lemma RevertRespectsView(x: Mesh, y: Mesh, a: Action)
    requires Octree.Valid(x.index) && Octree.Valid(y.index) && ViewOf(x) == ViewOf(y) && Reversible(a)
    ensures Revert(x, a).Ok? == Revert(y, a).Ok?
    ensures Revert(x, a).Ok? ==> ViewOf(Revert(x, a).value) == ViewOf(Revert(y, a).value)
  {
  }

  // ---------------------------------------------------------------------
  // Sequences of actions

  /** `redo` of an action unit: the actions in recorded order. */
  function ApplyAll(m: Mesh, log: seq<Action>): (r: Result<Mesh, MeshError>)
    requires Octree.Valid(m.index)
    ensures r.Ok? ==> Octree.Valid(r.value.index)
    decreases |log|
  {
    if |log| == 0 then Ok(m)
    else
      var p := ApplyAll(m, log[..|log| - 1]);
      if p.Err? then p else Apply(p.value, log[|log| - 1])
  }

  predicate AllReversible(log: seq<Action>) {
    forall i :: 0 <= i < |log| ==> Reversible(log[i])
  }

  /** `undo` of an action unit: the actions reverted, last first. */
  function RevertAll(m: Mesh, log: seq<Action>): (r: Result<Mesh, MeshError>)
    requires Octree.Valid(m.index) && AllReversible(log)
    ensures r.Ok? ==> Octree.Valid(r.value.index)
    decreases |log|
  {
    if |log| == 0 then Ok(m)
    else
      var p := Revert(m, log[|log| - 1]);
      if p.Err? then p else RevertAll(p.value, log[..|log| - 1])
  }

  /** Each action of the log was recorded against the state the earlier ones led to from m. */
  ghost predicate Traced(m: Mesh, log: seq<Action>)
    requires Octree.Valid(m.index)
    decreases |log|
  {
    |log| == 0 ||
    (var l := |log| - 1;
     Traced(m, log[..l]) && ApplyAll(m, log[..l]).Ok? && Matches(ApplyAll(m, log[..l]).value, log[l]))
  }

  lemma {:induction false} ApplyAllRespectsView(x: Mesh, y: Mesh, log: seq<Action>)
    requires Octree.Valid(x.index) && Octree.Valid(y.index) && ViewOf(x) == ViewOf(y)
    ensures ApplyAll(x, log).Ok? == ApplyAll(y, log).Ok?
    ensures ApplyAll(x, log).Ok? ==> ViewOf(ApplyAll(x, log).value) == ViewOf(ApplyAll(y, log).value)
    decreases |log|
  {
    if |log| > 0 {
      var l := |log| - 1;
      ApplyAllRespectsView(x, y, log[..l]);
      if ApplyAll(x, log[..l]).Ok? {
        ApplyRespectsView(ApplyAll(x, log[..l]).value, ApplyAll(y, log[..l]).value, log[l]);
      }
    }
  }

  lemma {:induction false} RevertAllRespectsView(x: Mesh, y: Mesh, log: seq<Action>)
    requires Octree.Valid(x.index) && Octree.Valid(y.index) && ViewOf(x) == ViewOf(y) && AllReversible(log)
    ensures RevertAll(x, log).Ok? == RevertAll(y, log).Ok?
    ensures RevertAll(x, log).Ok? ==> ViewOf(RevertAll(x, log).value) == ViewOf(RevertAll(y, log).value)
    decreases |log|
  {
    if |log| > 0 {
      var l := |log| - 1;
      RevertRespectsView(x, y, log[l]);
      assert AllReversible(log[..l]) by {
        forall i | 0 <= i < l ensures Reversible(log[..l][i]) { assert log[..l][i] == log[i]; }
      }
      var px, py := Revert(x, log[l]), Revert(y, log[l]);
      if px.Ok? {
        RevertAllRespectsView(px.value, py.value, log[..l]);
        assert RevertAll(x, log) == RevertAll(px.value, log[..l]);
        assert RevertAll(y, log) == RevertAll(py.value, log[..l]);
      }
    }
  }

  /**
    The undo theorem: undoing a log recorded against m, from the state the
    log leads to, succeeds and gives back everything an observer of m saw.
   */
  lemma {:induction false} UndoRestores(m: Mesh, log: seq<Action>)
    requires Octree.Valid(m.index) && Traced(m, log)
    ensures ApplyAll(m, log).Ok? && AllReversible(log)
    ensures RevertAll(ApplyAll(m, log).value, log).Ok?
    ensures ViewOf(RevertAll(ApplyAll(m, log).value, log).value) == ViewOf(m)
    decreases |log|
  {
    if |log| > 0 {
      var l := |log| - 1;
      UndoRestores(m, log[..l]);
      UndoLast(m, log, ApplyAll(m, log[..l]).value);
    }
  }

  /** The step of the undo theorem: one more action, undone first, leaves the rest of the log to undo. */
  lemma UndoLast(m: Mesh, log: seq<Action>, p: Mesh)
    requires Octree.Valid(m.index) && |log| > 0
    requires ApplyAll(m, log[..|log| - 1]) == Ok(p) && Matches(p, log[|log| - 1])
    requires AllReversible(log[..|log| - 1]) && RevertAll(p, log[..|log| - 1]).Ok?
    requires ViewOf(RevertAll(p, log[..|log| - 1]).value) == ViewOf(m)
    ensures ApplyAll(m, log).Ok? && AllReversible(log)
    ensures RevertAll(ApplyAll(m, log).value, log).Ok?
    ensures ViewOf(RevertAll(ApplyAll(m, log).value, log).value) == ViewOf(m)
  {
    var l := |log| - 1;
    RevertAfterApply(p, log[l]);
    ReversibleSnoc(log);
    var q := Apply(p, log[l]).value;
    assert ApplyAll(m, log) == Ok(q);
    var back := Revert(q, log[l]).value;
    assert RevertAll(q, log) == RevertAll(back, log[..l]);
    RevertAllRespectsView(back, p, log[..l]);
  }

  lemma ReversibleSnoc(log: seq<Action>)
    requires |log| > 0 && AllReversible(log[..|log| - 1]) && Reversible(log[|log| - 1])
    ensures AllReversible(log)
  {
    var l := |log| - 1;
    forall i | 0 <= i < |log| ensures Reversible(log[i]) {
      if i < l { assert log[..l][i] == log[i]; }
    }
  }

  // ---------------------------------------------------------------------
  // Recording

  /**
    An action unit being run: the state it started from, the state
    reached, and the actions recorded so far, which lead from the one to
    the other.
   */
  datatype Session = Session(start: Mesh, now: Mesh, log: seq<Action>)

  ghost predicate Consistent(s: Session) {
    && Octree.Valid(s.start.index)
    && Traced(s.start, s.log)
    && ApplyAll(s.start, s.log) == Ok(s.now)
  }

  lemma ConsistentNowValid(s: Session)
    requires Consistent(s)
    ensures Octree.Valid(s.now.index)
  {
  }

  /** `actions.reset ()`: a unit with no actions. */
  function Begin(m: Mesh): (s: Session)
    requires Octree.Valid(m.index)
    ensures Consistent(s) && s.start == m && s.now == m && s.log == []
  {
    Session(m, m, [])
  }

  /** `actions.add <...> ()->...`: perform one action and record it. */
  function Record(s: Session, a: Action): (r: Session)
    requires Consistent(s) && Matches(s.now, a)
    ensures Consistent(r)
    ensures r.start == s.start && r.log == s.log + [a]
    ensures Apply(s.now, a).Ok? && r.now == Apply(s.now, a).value
  {
    MatchedIsReversible(s.now, a);
    var r := Session(s.start, Apply(s.now, a).value, s.log + [a]);
    assert r.log[..|s.log|] == s.log;
    r
  }
}

=== FILE: sphere_query.dfy ===
/**
  Sphere queries (`intersects (mesh, sphere, ids)` and
  `intersects (mesh, sphere, vertices)`). A query enters a node only when
  the node's cube meets the sphere, tests the faces stored there, and
  recurses into the children. The sphere tests themselves belong to the
  geometry library and are parameters here: `nodeHit` says whether a
  node's cube meets the sphere; `collect` yields what one stored face
  contributes — its id when the face meets the sphere, or those of its
  vertices that do.
 */
module SphereQuery {
  import opened Outcomes
  import opened OctreeNode
  import opened Octree

  /** What the faces fs contribute. */
  function Local<T>(fs: seq<Face>, collect: Face -> set<T>): set<T> {
    set f, x | f in fs && x in collect(f) :: x
  }

  /** What the faces of the bag s contribute: the answer a query without pruning gives. */
  function Reach<T>(s: multiset<Face>, collect: Face -> set<T>): set<T> {
    set f, x | f in s && x in collect(f) :: x
  }

  /** The node-level query: nothing when the node's cube misses, otherwise its faces' and its children's contributions. */
  function Query<T>(n: Node, nodeHit: Node -> bool, collect: Face -> set<T>): (r: set<T>)
    ensures r <= Reach(Faces(n), collect)
    ensures !nodeHit(n) ==> r == {}
    decreases n
  {
    if nodeHit(n) then
      ReachSplit(n.faces, GatherAll(n.children, FaceBag), collect);
      Local(n.faces, collect) + QueryAll(n.children, nodeHit, collect)
    else
      {}
  }

  /** The query over each of the children, joined. */
  function QueryAll<T>(cs: seq<Node>, nodeHit: Node -> bool, collect: Face -> set<T>): (r: set<T>)
    ensures r <= Reach(GatherAll(cs, FaceBag), collect)
    decreases cs
  {
    if |cs| == 0 then
      {}
    else
      var l := |cs| - 1;
      ReachSplit2(GatherAll(cs[..l], FaceBag), Gather(cs[l], FaceBag), collect);
      QueryAll(cs[..l], nodeHit, collect) + Query(cs[l], nodeHit, collect)
  }

  /** A node's faces contribute its own list's and its children's. */
  lemma ReachSplit<T>(fs: seq<Face>, below: multiset<Face>, collect: Face -> set<T>)
    ensures Reach(multiset(fs) + below, collect) == Local(fs, collect) + Reach(below, collect)
  {
  }

  /** Contributions of a sum of bags. */
  lemma ReachSplit2<T>(a: multiset<Face>, b: multiset<Face>, collect: Face -> set<T>)
    ensures Reach(a + b, collect) == Reach(a, collect) + Reach(b, collect)
  {
  }

  /**
    The node test never prunes a contribution: every node of the subtree
    that holds a face contributing something is entered. A cube test that
    meets this gives exact answers.
   */
  ghost predicate Conservative<T>(n: Node, nodeHit: Node -> bool, collect: Face -> set<T>) {
    forall m :: m in Subtrees(n) ==> Reach(Faces(m), collect) != {} ==> nodeHit(m)
  }

  /** Under a conservative node test the query finds everything the faces contribute, whatever the tree's shape. */
  lemma {:induction false} QueryComplete<T>(n: Node, nodeHit: Node -> bool, collect: Face -> set<T>)
    requires Conservative(n, nodeHit, collect)
    ensures Query(n, nodeHit, collect) == Reach(Faces(n), collect)
    decreases n
  {
    assert n in Subtrees(n);
    if nodeHit(n) {
      forall i | 0 <= i < |n.children| ensures Conservative(n.children[i], nodeHit, collect) {
        GatherAllIncludes(n.children, i, NodeBag);
      }
      QueryAllComplete(n.children, nodeHit, collect);
      ReachSplit(n.faces, GatherAll(n.children, FaceBag), collect);
    }
  }

  lemma QueryExactWhenConservative<T>(n: Node, nodeHit: Node -> bool, collect: Face -> set<T>)
    ensures Conservative(n, nodeHit, collect) ==> Query(n, nodeHit, collect) == Reach(Faces(n), collect)
  {
    if Conservative(n, nodeHit, collect) {
      QueryComplete(n, nodeHit, collect);
    }
  }

  lemma {:induction false} QueryAllComplete<T>(cs: seq<Node>, nodeHit: Node -> bool, collect: Face -> set<T>)
    requires forall i :: 0 <= i < |cs| ==> Conservative(cs[i], nodeHit, collect)
    ensures QueryAll(cs, nodeHit, collect) == Reach(GatherAll(cs, FaceBag), collect)
    decreases cs
  {
    if |cs| > 0 {
      var l := |cs| - 1;
      QueryAllComplete(cs[..l], nodeHit, collect);
      QueryComplete(cs[l], nodeHit, collect);
      ReachSplit2(GatherAll(cs[..l], FaceBag), Gather(cs[l], FaceBag), collect);
    }
  }

  // ---------------------------------------------------------------------
  // The two queries of the tree

  /** The contribution of a face to the id query: its id when the face meets the sphere. */
  function IdOf(faceHit: Face -> bool): Face -> set<FaceId> {
    f => if faceHit(f) then {f.id} else {}
  }

  /** The ids of the stored faces that meet the sphere. */
  function HitIds(s: multiset<Face>, faceHit: Face -> bool): set<FaceId> {
    set f | f in s && faceHit(f) :: f.id
  }

  /** `Octree::intersects (mesh, sphere, ids)`: no root, no ids. */
  function SphereFaceIds(t: Tree, nodeHit: Node -> bool, faceHit: Face -> bool): (ids: set<FaceId>)
    ensures ids <= HitIds(Stored(t), faceHit)
    ensures t.root.Some? && Conservative(t.root.value, nodeHit, IdOf(faceHit)) ==> ids == HitIds(Stored(t), faceHit)
  {
    if t.root.None? then
      {}
    else
      var r := t.root.value;
      HitIdsReach(Faces(r), faceHit);
      QueryExactWhenConservative(r, nodeHit, IdOf(faceHit));
      Query(r, nodeHit, IdOf(faceHit))
  }

  lemma HitIdsReach(s: multiset<Face>, faceHit: Face -> bool)
    ensures Reach(s, IdOf(faceHit)) == HitIds(s, faceHit)
  {
    forall id | id in HitIds(s, faceHit) ensures id in Reach(s, IdOf(faceHit)) {
      var f :| f in s && faceHit(f) && f.id == id;
      assert id in IdOf(faceHit)(f);
    }
  }

  /**
    The contribution of a face to the vertex query: those of its vertices
    (as the mesh's adjacency gives them) that meet the sphere.
   */
  function VerticesOf<V>(around: Face -> seq<V>, vertexHit: V -> bool): Face -> set<V> {
    f => set v | v in around(f) && vertexHit(v)
  }

  /** The vertices of stored faces that meet the sphere. */
  function HitVertices<V>(s: multiset<Face>, around: Face -> seq<V>, vertexHit: V -> bool): set<V> {
    set f, v | f in s && v in around(f) && vertexHit(v) :: v
  }

  /** `Octree::intersects (mesh, sphere, vertices)`: no root, no vertices. */
  function SphereVertices<V>(t: Tree, nodeHit: Node -> bool, around: Face -> seq<V>, vertexHit: V -> bool): (vs: set<V>)
    ensures vs <= HitVertices(Stored(t), around, vertexHit)
    ensures t.root.Some? && Conservative(t.root.value, nodeHit, VerticesOf(around, vertexHit)) ==>
      vs == HitVertices(Stored(t), around, vertexHit)
  {
    if t.root.None? then
      {}
    else
      var r := t.root.value;
      HitVerticesReach(Faces(r), around, vertexHit);
      QueryExactWhenConservative(r, nodeHit, VerticesOf(around, vertexHit));
      Query(r, nodeHit, VerticesOf(around, vertexHit))
  }

  lemma HitVerticesReach<V>(s: multiset<Face>, around: Face -> seq<V>, vertexHit: V -> bool)
    ensures Reach(s, VerticesOf(around, vertexHit)) == HitVertices(s, around, vertexHit)
  {
    forall v | v in HitVertices(s, around, vertexHit) ensures v in Reach(s, VerticesOf(around, vertexHit)) {
      var f :| f in s && v in around(f) && vertexHit(v);
      assert v in VerticesOf(around, vertexHit)(f);
    }
  }
}

=== FILE: winged_mesh.dfy ===
/**
  The winged-edge mesh as the partial actions see it: vertex, edge and
  face records in maps keyed by id, next to the octree that indexes the
  faces. Pointers of the source are optional ids; a null pointer is
  `None`.
 */
module WingedMesh {
  import opened Outcomes
  import opened OctreeNode
  import Octree

  type EdgeId = nat
  type VertexId = nat

  /**
    An edge: its two endpoints, the faces on its left and right, the four
    wing edges (the predecessor and successor of this edge around the left
    face and around the right face), and the sibling links of edges that
    share both endpoints.
   */
  datatype WingedEdge = WingedEdge(
    vertex1: Option<VertexId>, vertex2: Option<VertexId>,
    leftFace: Option<FaceId>, rightFace: Option<FaceId>,
    leftPredecessor: Option<EdgeId>, leftSuccessor: Option<EdgeId>,
    rightPredecessor: Option<EdgeId>, rightSuccessor: Option<EdgeId>,
    previousSibling: Option<EdgeId>, nextSibling: Option<EdgeId>)

  /** A face: one edge on its boundary. */
  datatype WingedFace = WingedFace(edge: Option<EdgeId>)

  /** A vertex: one edge incident to it. */
  datatype WingedVertex = WingedVertex(edge: Option<EdgeId>)

  /** The mesh's records and the octree over its faces. */
  datatype Mesh = Mesh(
    vertices: map<VertexId, WingedVertex>,
    edges: map<EdgeId, WingedEdge>,
    faces: map<FaceId, WingedFace>,
    index: Octree.Tree)

  /** Why an edit was refused: a null or dangling pointer, a face that is not on an edge, a broken face cycle, an unindexed face. */
  datatype MeshError =
    | NullReference
    | NoSuchEdge
    | NoSuchFace
    | NoSuchVertex
    | NotAdjacent
    | Unclosed
    | NotIndexed
    | IndexError(cause: Octree.Error)

  /**
    What an observer of the mesh sees: the three record maps and the id
    map of the index. The octree's shape is not part of it; a valid tree's
    stored faces are fixed by its id map.
   */
  datatype View = View(
    vertices: map<VertexId, WingedVertex>,
    edges: map<EdgeId, WingedEdge>,
    faces: map<FaceId, WingedFace>,
    indexed: map<FaceId, Face>)

  function ViewOf(m: Mesh): View {
    View(m.vertices, m.edges, m.faces, m.index.idMap)
  }

  // ---------------------------------------------------------------------
  // Face-relative access to an edge

  /** The two sides of an edge. */
  datatype Side = Left | Right

  /**
    The side of e that face f is on: left when f is e's left face, else
    right when it is e's right face, else none.
   */
  function SideOf(e: WingedEdge, f: FaceId): (r: Option<Side>)
    ensures r == Some(Left) <==> e.leftFace == Some(f)
    ensures r == Some(Right) <==> e.leftFace != Some(f) && e.rightFace == Some(f)
  {
    if e.leftFace == Some(f) then Some(Left)
    else if e.rightFace == Some(f) then Some(Right)
    else None
  }

  function FaceOn(e: WingedEdge, s: Side): Option<FaceId> {
    if s == Left then e.leftFace else e.rightFace
  }

  /** The next edge around the face on side s. */
  function SuccessorOn(e: WingedEdge, s: Side): Option<EdgeId> {
    if s == Left then e.leftSuccessor else e.rightSuccessor
  }

  /** The previous edge around the face on side s. */
  function PredecessorOn(e: WingedEdge, s: Side): Option<EdgeId> {
    if s == Left then e.leftPredecessor else e.rightPredecessor
  }

  /** e with the face on side s replaced; nothing else changes. */
  function WithFace(e: WingedEdge, s: Side, f: Option<FaceId>): (r: WingedEdge)
    ensures FaceOn(r, s) == f
    ensures SuccessorOn(r, Left) == SuccessorOn(e, Left) && SuccessorOn(r, Right) == SuccessorOn(e, Right)
    ensures PredecessorOn(r, Left) == PredecessorOn(e, Left) && PredecessorOn(r, Right) == PredecessorOn(e, Right)
    ensures s == Left ==> r.rightFace == e.rightFace
    ensures s == Right ==> r.leftFace == e.leftFace
  {
    if s == Left then e.(leftFace := f) else e.(rightFace := f)
  }

  /** e with its successor on side s replaced; nothing else changes. */
  function WithSuccessor(e: WingedEdge, s: Side, n: Option<EdgeId>): (r: WingedEdge)
    ensures SuccessorOn(r, s) == n
    ensures r.leftFace == e.leftFace && r.rightFace == e.rightFace
    ensures PredecessorOn(r, Left) == PredecessorOn(e, Left) && PredecessorOn(r, Right) == PredecessorOn(e, Right)
  {
    if s == Left then e.(leftSuccessor := n) else e.(rightSuccessor := n)
  }

  /** e with its predecessor on side s replaced; nothing else changes. */
  function WithPredecessor(e: WingedEdge, s: Side, p: Option<EdgeId>): (r: WingedEdge)
    ensures PredecessorOn(r, s) == p
    ensures r.leftFace == e.leftFace && r.rightFace == e.rightFace
    ensures SuccessorOn(r, Left) == SuccessorOn(e, Left) && SuccessorOn(r, Right) == SuccessorOn(e, Right)
  {
    if s == Left then e.(leftPredecessor := p) else e.(rightPredecessor := p)
  }
}
